=== FILE: README.md ===
# AI-Playground arena, modelled in Dafny

AI-Playground is an arena in which game bots play each other through a broker.

- **Game servers** host one game each: Kalaha, tic-tac-toe, or scissors-paper-rock.
  - A game server opens a room at the broker, seats the players the broker registers, and applies their moves.
  - It reports the resulting boards and, at the end, the scores.
- **The broker** stores rooms, players and the log of game states. For each room it:
  - checks who may act for that room;
  - relays registrations, moves and game states between the room's game server and its players.
- **Player clients** list the rooms, join the first room still in the lobby, and answer every game state that names them as the player to move.
- **Tournaments** seat bots and create round-robin matches between them. They then start the pending match of lowest index whose players are all online.

This project models the core of the arena and proves properties of it.

- One module per source file. The rule engines and the clients that update their fields in place are classes with `modifies` clauses.
- The rules themselves are functions over values, with lemmas about them.
- Collections:
  - The broker's store is three maps keyed by id. A tournament's store is a sequence of rows.
  - The socket groups are a map from group name to member sids.
- Emitted socket events are appended to a `Channel`.
- Values that the store, the clock or `random` would produce are parameters:
  - ids, timestamps and the random bot moves.
- JSON payloads are `Json` values.
- Each payload validator is a predicate that reads the JSON Schema Validation draft-07 keywords it uses:
  - `required` (section 6.5.3), `additionalProperties` (section 6.5.6), `pattern` (section 6.3.3);
  - `enum` (section 6.1.2), `type` (section 6.1.1), `if`/`then`/`else` (section 6.6).
- Patterns are read with the semantics of Python's `re.search`. There, `$` also matches before a final newline.

Modules:

| module | file | models |
|---|---|---|
| `Wrappers` | wrappers.dfy | `Option` and `Result` |
| `Json` | json.dfy | JSON values, and the dropping of null entries |
| `Exceptions` | exceptions.dfy | the exception hierarchy and its `details` texts |
| `GameBase` | base.dfy | `BaseGameServer`: seating, the move checks, shared scoring |
| `Kalaha` | kalaha.dfy | the Kalaha engine |
| `TicTacToe` | tictactoe.dfy | the tic-tac-toe engine |
| `Spr` | spr.dfy | the scissors-paper-rock engine, on top of `BaseGameServer` |
| `RandomPlayers` | players.dfy | the random Kalaha and tic-tac-toe bots |
| `Tournaments` | tournaments.dfy | tournament records, `add_player`, `pick_match` |
| `Rooms` | rooms.dfy | the `Room`, `Player` and `GameState` records |
| `Schemas` | schemas.dfy | the broker's payload validators |
| `Messages` | messages.dfy | the message records, their event names and `MessageBase.send` |
| `Expect` | expect.dfy | the game server's receive wrapper |
| `Clients` | clients.dfy | the player client's receive wrapper |
| `Broker` | broker.dfy | `get_room_player`, the broker's wrapper and its handlers |
| `Atomic` | atomic.dfy | `AtomicCounter` |
| `GameServerClient` | gameserver.dfy | the game-server client, hosting scissors-paper-rock |
| `PlayerProcess` | player.dfy | the player client |
| `HexColor` | hexcolor.dfy | `hexToRgb` of the web client's styles |

Where the source's call sites and definitions disagree, the model takes these positions:

- **Which engine `move` can drive.**
  - `BaseGameServer.move` calls `make_move(move)`. Only scissors-paper-rock defines `make_move` that way.
  - So `Spr` composes `BaseGameServer`, whose `turn` is an index into the player list.
  - Kalaha and tic-tac-toe take the mover's id and role directly, and keep a `turn` holding a player id.
  - The game-server client hosts scissors-paper-rock, the game whose moves the player client sends.
- **Names the source uses but never defines.**
  - `spr.py` imports `BaseGame`, which base.py does not define. The model uses `BaseGameServer`.
  - `game.start()` is not defined anywhere. The model treats it as doing nothing, since `add_player` has already started the game.
  - The broker reads `room.sid`, while the record's field is `server_sid`. The model reads the owner's sid from `server_sid`.
  - `JoinAcknowledgementMessage` and `Finish` are imported from messages.py but not defined there.
    - The acknowledgement handler is modelled without fields.
    - `finish=` is modelled as an extra `finish` entry of the update's payload, although `GameUpdateMessage` declares no such field.
  - `AlreadyInTournament` is not defined in exceptions.py. It is one of the tournament errors here.
  - No code assigns `self.roles` in Kalaha or tic-tac-toe. The model keeps `roles` as an optional map that starts as None. Reading it while None raises AttributeError, and a role without an entry raises KeyError.
  - `MessageBase` defines no `from_dict`, so the game server's wrapper raises AttributeError on every message it receives. The model follows the evident intent: rebuild the record from the data.
  - `GameServer.room_id` is only annotated, never assigned before `roomcreated`, so reading it earlier raises AttributeError. The model starts it as None, the value the checks at gameserver.py lines 72 and 116 expect.
  - gameservers/__init__.py imports `ScissorsPaperRockServer`, but spr.py defines `ScissorsPaperRock`. The model uses the class spr.py defines. `all_games` has no Kalaha entry, so no game server hosts Kalaha.
- **Move bounds.** The move schemas bound the move with `min`/`max`, which are not draft-07 keywords; draft-07 uses `minimum` and `maximum` (sections 6.2.4 and 6.2.2).
  - So the schemas bound nothing. The engines state the bounds as preconditions.
  - For Kalaha, what happens without the bound is a finding (below).
- **`defaultdict(default_factory=list)` in `pick_match`.** The model follows the evident intent: a participant is online exactly when it has a queue entry in the tournament.
- **The broker's wrapper.**
  - `expect` receives a message class where it expects a schema, and calls the handler with the raw data as keyword arguments.
  - The model follows the evident intent: validate against the class's schema, rebuild the record, and hand it to the handler.

## Model

| member | source | states |
|---|---|---|
| `GameBase.Scores` | aiplayground/gameservers/kalaha.py:127-132 | one entry per seated player; with no winner every entry is 0, otherwise 1 for the winner and -1 for everyone else |
| `GameBase.ScoresOfTwoCancel` | aiplayground/gameservers/kalaha.py:127-132 | in a two-player game that someone won the two scores add up to 0 |
| `GameBase.BaseGameServer.constructor` | aiplayground/gameservers/base.py:11-24 | a new game has no players, is not playing, has no board, turn or winner, and move number 0 |
| `GameBase.BaseGameServer.AddPlayer` | aiplayground/gameservers/base.py:26-35 | a seated player raises ExistingPlayer and a full game GameFull, both changing nothing; otherwise the player is appended, and filling the game starts it with turn 0 (the result says whether `init_game` must run) |
| `GameBase.BaseGameServer.CheckMove` | aiplayground/gameservers/base.py:37-44 | a game not running raises GameNotRunning, a player other than `players[turn]` NotPlayersTurn, both leaving the move number alone; otherwise the move number grows by one |
| `Spr.ParseChoice` | aiplayground/gameservers/spr.py:27-29 | a choice is found exactly for the three names "scissors", "paper", "rock", and it spells back to the name read |
| `Spr.Selected` | aiplayground/gameservers/spr.py:27-29 | a move object selects a choice iff its "move" entry is one of the three names, and that entry is the choice's name |
| `Spr.ParseName` | aiplayground/gameservers/spr.py:9 | reading a choice's name gives the choice back |
| `Spr.MoveMap` | aiplayground/gameservers/spr.py:9 | `move_map` sends each choice to 0, 1 or 2 |
| `Spr.FirstWinsIffBeats` | aiplayground/gameservers/spr.py:41-47 | the test `second == (first + 1) % 3` holds exactly when the first choice beats the second as the game's description says (scissors beats paper, paper beats rock, rock beats scissors) |
| `Spr.BeatsIsTotalOnDistinct` | aiplayground/gameservers/spr.py:34-39 | of two different choices exactly one beats the other, so a completed game always has a winner |
| `Spr.NothingBeatsItself` | aiplayground/gameservers/spr.py:34-36 | no choice beats itself, which is why a repeated choice is replayed |
| `Spr.ScissorsPaperRock.constructor` | aiplayground/gameservers/spr.py:6-9 | a new game with no players, no board, not playing, move 0, for two players |
| `Spr.ScissorsPaperRock.InitGame` | aiplayground/gameservers/spr.py:11-12 | `init_game` leaves both choice slots empty |
| `Spr.ScissorsPaperRock.AddPlayer` | aiplayground/gameservers/base.py:26-35 | ExistingPlayer for a seated player, GameFull for a third one, each changing nothing; otherwise the player is appended, and the second player starts the game with empty slots and turn 0 |
| `Spr.ScissorsPaperRock.MakeMove` | aiplayground/gameservers/spr.py:26-39 | a move without "move" raises KeyError and an unknown name ValueError, changing nothing; the first choice fills slot 0 and passes the turn; a repeated choice clears both slots and gives the turn back to the first player; a different second choice fills slot 1 and completes the game |
| `Spr.ScissorsPaperRock.Move` | aiplayground/gameservers/base.py:37-46 | GameNotRunning and NotPlayersTurn change nothing and show nothing; an accepted move increments the move number, keeps the players and then does what `make_move` does: a move without "move" raises KeyError and an unknown name ValueError, keeping board and turn; the first choice fills slot 0 and passes the turn; a repeat clears both slots and gives the turn back; a different second choice fills slot 1 and completes the game; a move that continues returns `show_board()` |
| `Spr.ScissorsPaperRock.ShowBoard` | aiplayground/gameservers/spr.py:14-24 | None iff there is no board; otherwise both seated players are keys, every choice is hidden while the game runs, and afterwards each player maps to their own slot |
| `Spr.ScissorsPaperRock.Score` | aiplayground/gameservers/spr.py:41-48 | the winner index is 0 iff the first choice wins; each player scores 1 or -1, the first player 1 iff the first choice wins, and the two scores are opposite |
| `Kalaha.Other` | aiplayground/gameservers/kalaha.py:14-15 | the other role is never the current one |
| `Kalaha.OtherIsInvolution` | aiplayground/gameservers/kalaha.py:14-15 | taking the other role twice gives the role back |
| `Kalaha.Index` | aiplayground/gameservers/kalaha.py:34-39 | every valid path has a place below 14 in `path_orders`, and that place holds the path |
| `Kalaha.PathAt` | aiplayground/gameservers/kalaha.py:34-39 | each of the fourteen iterator positions is a valid path whose index in `path_orders` is that position |
| `Kalaha.Next` | aiplayground/gameservers/kalaha.py:82-84 | the cyclic iterator moves to the next position, wrapping from `bank_b` to `pits_a[0]` |
| `Kalaha.Set` | aiplayground/gameservers/kalaha.py:25-31 | `setter` makes the path read back the value written |
| `Kalaha.SetFrame` | aiplayground/gameservers/kalaha.py:25-31 | `setter` leaves every other path as it was |
| `Kalaha.StepAvoidsOpponentBank` | aiplayground/gameservers/kalaha.py:94-97 | a sowing step never stops on the opponent's bank |
| `Kalaha.SowAddsStones` | aiplayground/gameservers/kalaha.py:93-99 | distributing n stones adds exactly n stones to the board |
| `Kalaha.SowKeepsNonNegative` | aiplayground/gameservers/kalaha.py:93-99 | distributing stones keeps every count non-negative |
| `Kalaha.SowSparesOpponentBank` | aiplayground/gameservers/kalaha.py:93-99 | distributing stones never changes the opponent's bank |
| `Kalaha.SowLastPit` | aiplayground/gameservers/kalaha.py:98-99 | the last position sown holds one more stone than `current_pips`, the count it had before |
| `Kalaha.SowEndsAt` | aiplayground/gameservers/kalaha.py:93-97 | where the last stone lands depends only on the start, the count and the role |
| `Kalaha.CaptureEffect` | aiplayground/gameservers/kalaha.py:101-110 | without a capture the board stays as sown; with one, the mover's bank gains the opposite pit's stones plus the last stone, the opposite and last pits are emptied, and nothing else changes |
| `Kalaha.CaptureConservesStones` | aiplayground/gameservers/kalaha.py:101-110 | a capture keeps the total number of stones and every count non-negative |
| `Kalaha.CaptureSparesOpponentBank` | aiplayground/gameservers/kalaha.py:101-110 | a capture never touches the opponent's bank |
| `Kalaha.StartInRange` | aiplayground/gameservers/kalaha.py:80-84 | for a move 0 to 5 the iterator starts at the mover's own pit of that number |
| `Kalaha.MoveConservesStones` | aiplayground/gameservers/kalaha.py:80-110 | a legal move keeps every stone on the board and every count non-negative |
| `Kalaha.MoveSparesOpponentBank` | aiplayground/gameservers/kalaha.py:80-110 | a move 0 to 5 never changes the opponent's bank |
| `Kalaha.OpponentBankRaid` | aiplayground/gameservers/kalaha.py:80-88 | as written, player a choosing 13 starts at `bank_b` and leaves it empty |
| `Kalaha.WinnerHoldsMajority` | aiplayground/gameservers/kalaha.py:115-124 | with 72 stones on the board, the side that is ahead holds more than 36 |
| `Kalaha.InitialBoardFacts` | aiplayground/gameservers/kalaha.py:62-63 | the opening board has six stones in each of the twelve pits and empty banks |
| `Kalaha.InitialBoardTotal` | aiplayground/gameservers/kalaha.py:62-63 | the opening board holds 72 stones |
| `Kalaha.SowEndStraight` | aiplayground/gameservers/kalaha.py:93-97 | without wrapping past the mover's bank, the last stone lands exactly n positions on |
| `Kalaha.ExactCountEarnsExtraTurn` | aiplayground/gameservers/kalaha.py:112 | a pit holding exactly enough stones to reach the mover's own bank gives the mover the next turn |
| `Kalaha.Distribute` | aiplayground/gameservers/kalaha.py:91-99 | the "Distribute Pips" loop ends with the board, the last position and the `current_pips` of the sowing function |
| `Kalaha.KalahaServer.constructor` | aiplayground/gameservers/base.py:11-24 | a new game has no board, turn or winner, the empty player list `BaseGameServer.__init__` makes, and no `roles` attribute |
| `Kalaha.KalahaServer.InitGame` | aiplayground/gameservers/kalaha.py:62-64 | the opening board is always written; then `self.roles[player_a]` raises AttributeError while `roles` was never assigned and KeyError when role a has no holder, both leaving the turn; otherwise the turn goes to the holder of role a |
| `Kalaha.KalahaServer.AssignRole` | aiplayground/gameservers/kalaha.py:66-74 | `asign_role` never hands out a role: AttributeError without `roles`, IndexError from `random.choice` when both roles are held, and otherwise TypeError from indexing the player list with the id, before any role is recorded |
| `Kalaha.KalahaServer.MakeMove` | aiplayground/gameservers/kalaha.py:76-125 | a missing role and an empty pit are IllegalMove with their messages and a server without a board raises TypeError, all changing nothing; otherwise the board becomes the sown board after any capture, and outcome, turn and winner are those `AfterSowing` gives for the old turn and winner |
| `Kalaha.KalahaServer.Conclude` | aiplayground/gameservers/kalaha.py:101-125 | after the sowing the board is the captured board, and outcome, turn and winner are those `AfterSowing` gives: the holder of the role `NextRole` picks takes the turn, then the end-of-game check runs; a failed `roles` lookup raises and stops there |
| `Kalaha.KalahaServer.CheckEnd` | aiplayground/gameservers/kalaha.py:115-125 | outcome and winner are those of `EndCheck`: an empty row completes the game, won by the holder of the side with more stones and drawn on a tie; a failed `roles` lookup for the winner raises and leaves the winner; otherwise play continues with the winner unchanged |
| `Kalaha.KalahaServer.ShowBoard` | aiplayground/gameservers/kalaha.py:134-142 | without a board the rendering's first `self.board["pits_a"]` raises TypeError; otherwise the board itself is returned |
| `Kalaha.UnsetRolesStopMoves` | aiplayground/gameservers/kalaha.py:112-113 | without a `roles` attribute every move that sows stones raises AttributeError at the turn hand-over, leaving turn and winner as they were |
| `Kalaha.HeldRolesDecide` | aiplayground/gameservers/kalaha.py:112-125 | with both roles held the turn goes to the holder of the next role; the game completes exactly when a row is empty, won by the holder of the side with more stones and drawn when the sides are level; otherwise the winner stays |
| `Kalaha.FreshServerCannotStart` | aiplayground/gameservers/kalaha.py:62-64 | the `init_game` that `add_player` runs on a server as constructed raises AttributeError |
| `TicTacToe.Place` | aiplayground/gameservers/tictactoe.py:40 | `grid[row][col] = player_role` writes the chosen cell and leaves the other eight as they were |
| `TicTacToe.LocalWinIffWin` | aiplayground/gameservers/tictactoe.py:42-47 | when the mover had no complete line before, checking only the row, the column and the two diagonals through the new cell succeeds exactly when the mover now has a complete row, column or diagonal anywhere |
| `TicTacToe.PlaceFills` | aiplayground/gameservers/tictactoe.py:51 | filling an empty cell makes the grid full exactly when every other cell was already taken |
| `TicTacToe.AssignRole` | aiplayground/gameservers/tictactoe.py:26-30 | AttributeError exactly when `roles` was never assigned; otherwise the role is "x" exactly when nobody holds "x" yet, and "o" otherwise |
| `TicTacToe.OccupiedCellEscapes` | aiplayground/gameservers/tictactoe.py:36-39 | as written the rejection of an occupied cell is a TypeError, which no arena error handler catches, rather than the IllegalMove it means to raise |
| `TicTacToe.OccupiedCellIsCaught` | aiplayground/gameservers/tictactoe.py:36-39 | the intended IllegalMove for an occupied cell is an arena error that the handlers catch |
| `TicTacToe.TicTacToeServer.constructor` | aiplayground/gameservers/base.py:11-24 | a new game has no board, turn or winner, an empty player list and no `roles` attribute |
| `TicTacToe.TicTacToeServer.InitGame` | aiplayground/gameservers/tictactoe.py:22-24 | a grid of nine empty cells is always written; then `self.roles["x"]` raises AttributeError while `roles` was never assigned and KeyError when nobody holds "x", both leaving the turn; otherwise the turn goes to the holder of "x" |
| `TicTacToe.TicTacToeServer.MakeMove` | aiplayground/gameservers/tictactoe.py:32-54 | a server without a board raises TypeError and an occupied cell is rejected with IllegalMove, as intended, both changing nothing; otherwise the cell takes the mover's role, a line through it completes the game with the mover as winner, a full grid without one completes it as a draw, and anything else continues with the winner unchanged |
| `RandomPlayers.NonEmptyFrom` | aiplayground/players/kalaha.py:18 | lists, in increasing order, exactly the pit indices from i on that hold stones |
| `RandomPlayers.KalahaLegalMoves` | aiplayground/players/kalaha.py:17-18 | a move is listed exactly when it is a pit number 0 to 5 of the bot's own row holding at least one stone |
| `RandomPlayers.KalahaGetMove` | aiplayground/players/kalaha.py:14-22 | with no legal move `random.choice` raises IndexError; otherwise the move picked is one of the legal moves |
| `RandomPlayers.KalahaBotAvoidsEmptyPits` | aiplayground/players/kalaha.py:18 | every move the bot may pick is one the server accepts: in range and not an empty pit |
| `RandomPlayers.EmptyCellsFrom` | aiplayground/players/tictactoe.py:10-15 | lists exactly the empty cells from the k-th on in row-major order |
| `RandomPlayers.AvailableMoves` | aiplayground/players/tictactoe.py:10-15 | a cell is listed exactly when it is on the grid and empty, and the list is empty exactly when the grid is full |
| `RandomPlayers.NoEmptyCellIffFull` | aiplayground/players/tictactoe.py:10-15 | the bot finds no empty cell exactly when the server would call the grid full |
| `RandomPlayers.TicTacToeGetMove` | aiplayground/players/tictactoe.py:9-17 | on a full grid `random.choice` raises IndexError; otherwise the bot picks an empty cell on the grid |
| `RandomPlayers.Index` | aiplayground/players/tictactoe.py:14 | Python's `board[i]` on a JSON value: a list or a string yields its element, or one-character string, at i, counting negative i from the end, and IndexError outside; a dict raises KeyError for an integer key; None, a bool or an int raise TypeError |
| `RandomPlayers.TicTacToeBotMisreadsBoard` | aiplayground/players/tictactoe.py:14 | as written the bot indexes the board by row, but the server's board is `{"grid": ...}`, so the first lookup raises KeyError whatever the grid |
| `Tournaments.StateValues` | aiplayground/api/tournaments/models.py:13-18 | `MatchState` has exactly the five values pending, running, completed, errored and deleted, one per state |
| `Tournaments.NewTournament` | aiplayground/api/tournaments/models.py:21-29 | a new tournament keeps the given id, name, game and key and has no description |
| `Tournaments.AddTournament` | aiplayground/api/tournaments/models.py:26 | storing a tournament is refused exactly when its name is taken, and otherwise keeps the names unique |
| `Tournaments.NewParticipant` | aiplayground/api/tournaments/models.py:34-40 | a new participant keeps its fields and is not disqualified |
| `Tournaments.NewMatch` | aiplayground/api/tournaments/models.py:44-51 | a new match keeps its fields, is pending and has no room |
| `Tournaments.NextIndex` | aiplayground/api/tournaments/tournaments.py:22 | the new index is 1 without participants, and otherwise one above some participant's index and above every participant's index, that is the maximum plus one |
| `Tournaments.NextIndexOfAscending` | aiplayground/api/tournaments/tournaments.py:22 | with indices ascending, the new index is one above the last participant's |
| `Tournaments.SeatingKept` | aiplayground/api/tournaments/tournaments.py:22-23 | seating a participant with the next index and a fresh row id keeps the indices ascending and the row ids below the next fresh one |
| `Tournaments.RoundRobinPairs` | aiplayground/api/tournaments/tournaments.py:24-32 | every match created is pending and pairs the new participant with an opponent that is not disqualified, with index 100000 times the new index plus the opponent's |
| `Tournaments.RoundRobinCovers` | aiplayground/api/tournaments/tournaments.py:24-32 | every opponent that is not disqualified gets a match against the new participant |
| `Tournaments.RoundRobinCount` | aiplayground/api/tournaments/tournaments.py:24-26 | exactly one match is created per opponent that is not disqualified |
| `Tournaments.RoundRobinIndices` | aiplayground/api/tournaments/tournaments.py:22-28 | with opponent indices ascending and below 100000, the created indices ascend strictly, so they are pairwise distinct, and lie between 100000 times the new index and 100000 times the next one |
| `Tournaments.LaterMatchesAreLarger` | aiplayground/api/tournaments/tournaments.py:22-28 | seating the next participant keeps every match index below 100000 times the next participant index, and while indices stay within 100000 every match it creates has a larger index than every earlier match |
| `Tournaments.LeastEligible` | aiplayground/api/tournaments/tournaments.py:45-51 | nothing is found exactly when no match is pending with all its players online; otherwise the match found is eligible, has the least index among eligible matches and comes first among those of equal index |
| `Tournaments.EmptyOnlineSet` | aiplayground/api/tournaments/tournaments.py:44-49 | with nobody online a match is eligible exactly when it is pending and has no players |
| `Tournaments.PickMatchAsWritten` | aiplayground/api/tournaments/tournaments.py:38-51 | the first queue entry of the tournament raises KeyError when no participant has its id and TypeError when one does, since a participant is not hashable; with nobody queued, a pending match with players raises TypeError at `set(match.players)`, otherwise only a pending match without players is picked, the one of least index, and IndexError is raised exactly when there is none |
| `Tournaments.PickMatchAsWrittenNeverPicks` | aiplayground/api/tournaments/tournaments.py:40-48 | as written, whenever a pending match has players, picking fails with KeyError or TypeError, so no match with players is ever picked, even when all its players are queued |
| `Tournaments.FirstQueued` | aiplayground/api/tournaments/tournaments.py:41-43 | finds the first queue entry of the tournament, and finds none exactly when no entry belongs to it |
| `Tournaments.Pairings` | aiplayground/api/tournaments/tournaments.py:24-32 | the loop of `add_player` creates exactly the round-robin matches |
| `Tournaments.TournamentStore.constructor` | aiplayground/api/tournaments/models.py:21-31 | a new tournament has no participants, matches or queue entries |
| `Tournaments.TournamentStore.AddPlayer` | aiplayground/api/tournaments/tournaments.py:14-33 | a bot that already has a seat raises AlreadyInTournament and changes nothing; otherwise a participant with the next index is appended, its round-robin matches are appended, the queue is untouched, the index bound is kept, and while indices stay within 100000 every new match has a larger index than every earlier one |
| `Tournaments.TournamentStore.PickMatch` | aiplayground/api/tournaments/tournaments.py:36-54 | a queue entry for an unknown participant raises KeyError; without an eligible match `[0]` raises IndexError; otherwise the match picked is pending with every player queued, has the least index among eligible matches (the first of them on a tie), and alone becomes running; the store stays well formed |
| `Rooms.NewRoom` | aiplayground/api/rooms/models.py:21-32 | a new room keeps its fields and has status "lobby", turn None, normal_finish None and no board |
| `Rooms.GroupNamesDiffer` | aiplayground/api/rooms/models.py:36-42 | a room's broadcast group ("room_" + id) and spectator group ("room_spectator_" + id) differ, and each names exactly one room |
| `Rooms.GroupNamesDisjoint` | aiplayground/api/rooms/models.py:36-42 | with room ids over [a-z0-9-], no room's broadcast group is any room's spectator group |
| `Rooms.NewPlayer` | aiplayground/broker.py:57-62 | a player as `on_join` stores it keeps its fields, has not joined and has no role |
| `Rooms.NewGameState` | aiplayground/api/rooms/models.py:45-54 | a new game state has no player, room, epoch, move, board or turn |
| `Messages.Lower` | aiplayground/messages.py:12 | `.lower()` keeps the length and lower-cases every character |
| `Messages.EventNameIsLowerStem` | aiplayground/messages.py:12 | dropping the last seven characters of the class name drops exactly "Message", so the event is the lower-cased rest of the name |
| `Messages.BrokerEventNames` | aiplayground/messages.py:21-110 | the broker's records travel as "roomcreated", "register", "playermove", "joined", "gamestate", "finished" and "rooms", the names the clients' handlers listen for |
| `Messages.ServerEventNames` | aiplayground/messages.py:112-180 | a game server's records travel as "createroom", "joinsuccess", "joinfail", "gameupdate" and "finish", the names of the broker's handlers |
| `Messages.PlayerEventNames` | aiplayground/messages.py:183-215 | a player's records travel as "join", "move" and "list", the names of the broker's handlers |
| `Messages.EventNameInjective` | aiplayground/messages.py:12 | two classes share an event name only if they are the same class |
| `Messages.PayloadKeys` | aiplayground/messages.py:15 | `asdict` gives exactly the record's declared fields, defaulted ones included |
| `Messages.ScoresRoundTrip` | aiplayground/messages.py:178 | a score map survives its trip through the payload |
| `Messages.DecodePayload` | aiplayground/messages.py:11-18 | the receiver's `message_type(**data)` rebuilds exactly the record that was sent |
| `Messages.DecodeSound` | aiplayground/messages.py:11-18 | a record rebuilt from data is of the class asked for, and the data carried none but that class's fields |
| `Messages.NewJoined` | aiplayground/messages.py:50-60 | a `JoinedMessage` built without a role has `gamerole` None |
| `Messages.NewGameUpdate` | aiplayground/messages.py:151-165 | a `GameUpdateMessage` built without the optional arguments has `stateid`, `playerid` and `turn` None |
| `Messages.NewFinish` | aiplayground/messages.py:168-179 | a `FinishMessage` built without the optional arguments has `scores` and `reason` None |
| `Messages.Channel.Emit` | aiplayground/messages.py:15 | an emitted event is appended to what the connection has sent |
| `Messages.Emitted` | aiplayground/messages.py:11-18 | the event carries the record's event name and its payload, is addressed to `to` (no room when `to` is None) and passes the callback through |
| `Messages.Send` | aiplayground/messages.py:11-18 | `send` emits exactly one event, the record's, and nothing else |
| `Exceptions.Parent` | aiplayground/exceptions.py:1-102 | only the root `AsimovExceptionBase` has no superclass, and every superclass sits one level nearer the root |
| `Exceptions.ClassName` | aiplayground/exceptions.py:1-102 | every class has a non-empty name |
| `Exceptions.LookupException` | aiplayground/exceptions.py:104 | `all_exceptions` knows exactly the name "IllegalMove", for the class of that name |
| `Exceptions.EverythingIsAsimovException` | aiplayground/exceptions.py:1-102 | every class of the hierarchy is an `AsimovExceptionBase` |
| `Exceptions.ErrorsAreAllButRootAndCompleted` | aiplayground/exceptions.py:5-102 | `except AsimovErrorBase` catches every class except the root and GameCompleted |
| `Exceptions.GameCompletedIsNotAnError` | aiplayground/exceptions.py:89-94 | GameCompleted is an `AsimovExceptionBase` but not an `AsimovErrorBase`, so the error-catching wrappers let it through |
| `Exceptions.NotFoundErrorsAreDirectErrors` | aiplayground/exceptions.py:17-28 | NoSuchRoom and NoSuchPlayer derive directly from `AsimovErrorBase` and are neither player nor server errors |
| `Exceptions.PlayerErrors` | aiplayground/exceptions.py:31-80 | the player errors are exactly GameAlreadyStarted, UnauthorizedPlayer, GameNotRunning, NotPlayersTurn and GameFull |
| `Exceptions.ServerErrors` | aiplayground/exceptions.py:38-102 | the server errors are exactly UnauthorizedGameServer, PlayerNotInRoom, ExistingPlayer and IllegalMove |
| `Exceptions.ClassNameInjective` | aiplayground/exceptions.py:1-102 | no two classes share a name, so a `fail` reply names its error unambiguously |
| `Atomic.AtomicCounter.constructor` | aiplayground/utils/atomic.py:5-7 | a new counter holds the value given (0 by default) |
| `Atomic.AtomicCounter.Set` | aiplayground/utils/atomic.py:9-11 | `set(v)` makes the value v |
| `Atomic.AtomicCounter.IncrementThenGet` | aiplayground/utils/atomic.py:13-16 | `increment_then_get(step)` adds step and returns the new value |
| `Schemas.NoPrivateGameUpdate` | aiplayground/schemas.py:76-81 | `epoch` is required at the top level while the private branch forbids it, so no update with visibility "private" validates |
| `Schemas.ValidGameUpdateShape` | aiplayground/schemas.py:73-97 | a valid game update is broadcast or spectator, carries an epoch and has no player id |
| `Schemas.IdPatternAcceptsTrailingNewline` | aiplayground/schemas.py:27 | the id pattern `^([a-z0-9-]*)$` lets one trailing newline through, but not two, and refuses an underscore |
| `Json.StripNulls` | aiplayground/utils/expect.py:26 | an entry is kept, unchanged, exactly when its value is not None |
| `Expect.FailData` | aiplayground/utils/expect.py:32-39 | the `fail` data has exactly the keys "error" and "details" holding the two texts |
| `Expect.Cleaned` | aiplayground/utils/expect.py:24-26 | missing data becomes an empty dict, otherwise the data without its None entries; no None value remains |
| `Expect.InvalidDataFails` | aiplayground/utils/expect.py:27-39 | the wrapper replies ("fail", InputValidationError with the validator's text) exactly when the data does not parse |
| `Expect.ValueReturned` | aiplayground/utils/expect.py:41-46 | a value the handler returns for the parsed record is the wrapper's value |
| `Expect.MissingDataIsEmpty` | aiplayground/utils/expect.py:24-25 | calling the wrapper without data is the same as calling it with an empty dict |
| `Expect.NullsAreIgnored` | aiplayground/utils/expect.py:26 | stripping the None entries before the call changes nothing |
| `Expect.PayloadReachesHandler` | aiplayground/utils/expect.py:27-46 | the payload of a roomcreated, register or playermove record reaches the handler as that very record, and the handler's value comes back |
| `Expect.BuiltinsEscape` | aiplayground/utils/expect.py:48 | a built-in exception raised by the handler leaves the wrapper unchanged |
| `Expect.CompletionEscapes` | aiplayground/utils/expect.py:48 | GameCompleted raised by the handler leaves the wrapper unchanged |
| `Expect.ErrorsBecomeFail` | aiplayground/utils/expect.py:48-57 | an arena error raised by the handler becomes a `fail` naming its class with the class's fixed details, whatever message it was raised with |
| `Clients.Admit` | aiplayground/utils/clients.py:18-34 | data is rejected exactly when it fails the class's schema, with a `fail` event emitted without a room and reason InputValidationError; it is admitted exactly when it passes and builds a record of the class asked for; building fails only with TypeError |
| `Clients.PlayerMessagesAdmitted` | aiplayground/utils/clients.py:18-34 | every record the broker sends to a player is admitted as itself |
| `Clients.ReportError` | aiplayground/utils/clients.py:35-45 | an arena error is answered with one `fail` event to the request's sid, carrying the class name, its details and the handler name without "on_"; any other exception is raised on and nothing is emitted |
| `Broker.GetRoomPlayer` | aiplayground/utils/broker.py:21-47 | a missing room is NoSuchRoom, and in server mode a caller other than the room's owner is UnauthorizedGameServer, both whatever the player; success returns the stored room, with no player when none is named and otherwise the stored player; every failure is one of the five arena errors of the chain |
| `Broker.GetRoomPlayerAuthorizes` | aiplayground/utils/broker.py:36-46 | on success a server acts only for its own room, in player mode a player acts only as itself, and a named player is in the room |
| `Broker.RoomChecksComeFirst` | aiplayground/utils/broker.py:33-39 | a missing room or a foreign server is reported before, and independently of, any player lookup |
| `Broker.ListingIsTheLobby` | aiplayground/broker.py:175-188 | the listing holds exactly the rooms in the lobby, each with its name, game, size, player count and status "lobby" |
| `Broker.UpsertRecords` | aiplayground/broker.py:124-130 | the update is recorded in a state of the room, every other state is left alone and at most one state is added |
| `Broker.UpsertIdempotent` | aiplayground/broker.py:124-130 | replaying an update of a known state of the room changes nothing more |
| `Broker.ServerUpdatesRejectedAsWritten` | aiplayground/utils/broker.py:54-55 | as written, the raw payload of a game update that names no player carries `"playerid": null`, which the schema refuses, so every broadcast update is rejected |
| `Broker.StrippedUpdateKeys` | aiplayground/utils/expect.py:26 | once nulls are dropped a broadcast update keeps roomid, visibility, epoch and board, plus stateid and turn exactly when they are set |
| `Broker.StrippedUpdateValues` | aiplayground/utils/expect.py:26 | once nulls are dropped the remaining entries hold the record's values |
| `Broker.ServerUpdatesAccepted` | aiplayground/schemas.py:73-122 | with nulls dropped, a broadcast update with well-formed ids passes the gameupdate schema |
| `Broker.GameRoom.constructor` | aiplayground/broker.py:33 | a new broker has no rooms, players, states or groups and has sent nothing |
| `Broker.GameRoom.OnCreateRoom` | aiplayground/broker.py:40-49 | a lobby room owned by the caller is stored and roomcreated is sent to the caller alone |
| `Broker.GameRoom.OnJoin` | aiplayground/broker.py:51-74 | the player row is stored before any check; a missing room raises NoSuchRoom and a room out of the lobby GameAlreadyStarted, both sending nothing; otherwise register goes to the room's game server |
| `Broker.GameRoom.OnJoinSuccess` | aiplayground/broker.py:76-86 | a failed authorization changes and sends nothing; otherwise the player is marked joined and keeps its stored role, since the role is passed under the name `game_role`, which the player record does not declare; its sid enters the room's group, and joined goes to that player alone |
| `Broker.GameRoom.OnJoinFail` | aiplayground/broker.py:88-98 | a failed authorization sends nothing; otherwise the player alone gets a `fail` with error registrationFailed and the server's reason |
| `Broker.GameRoom.OnGameUpdate` | aiplayground/broker.py:100-131 | a failed authorization changes and sends nothing; an accepted update leaves the room "playing" with the message's turn, even after a finish; a non-private update sets the room's board, upserts the state named by `stateid` and sends gamestate to the room only when broadcast; a private update logs no state |
| `Broker.GameRoom.PrivateUpdate` | aiplayground/broker.py:109-113 | the room goes to "playing" with the message's turn, and gamestate goes to the named player alone; without a player `player.sid` raises AttributeError |
| `Broker.GameRoom.PublicUpdate` | aiplayground/broker.py:114-131 | the room goes to "playing" with the message's board and turn, the state is upserted, and only a broadcast is sent to the room |
| `Broker.GameRoom.OnMove` | aiplayground/broker.py:133-154 | authorization errors come first, then GameNotRunning unless the room is playing, then NotPlayersTurn unless it is the mover's turn, each changing and sending nothing; otherwise a state holding the mover and the move is created and playermove with its id goes to the room's game server |
| `Broker.GameRoom.OnFinish` | aiplayground/broker.py:156-173 | a finished room raises GameNotRunning and changes nothing; otherwise the room becomes finished and finished is sent to the room |
| `Broker.GameRoom.OnList` | aiplayground/broker.py:175-188 | the caller alone gets the listing of the lobby rooms |
| `Broker.GameRoom.Dispatch` | aiplayground/broker.py:40-188 | each record is handled by the handler of its event, and the result, the store and the events sent are exactly what that handler states: create room, join, join success, join fail, game update, move, finish or list |
| `Broker.GameRoom.Receive` | aiplayground/utils/broker.py:50-80 | data the schema rejects is answered with one `fail` (InputValidationError, the handler name without "on_") to the caller and changes nothing; data that does not build the record raises TypeError; otherwise the record is handled as `Dispatch` states, and an arena error from the handler is answered with one more `fail` naming its class and details |
| `GameServerClient.BoardJson` | aiplayground/gameservers/spr.py:14-24 | the board sent is null exactly before there is one, and otherwise `{"choices": ...}` with one entry per seated player |
| `GameServerClient.CompletedFinish` | aiplayground/gameserver.py:138-141 | a normal finish carries the game's scores, no reason and nobody at fault |
| `GameServerClient.IllegalMoveFinish` | aiplayground/gameserver.py:158-163 | an abnormal finish carries IllegalMove's details and the mover as the one at fault; every player is scored, the mover -1 and everyone else 1 |
| `GameServerClient.IllegalMoveIsOpponentWin` | aiplayground/gameserver.py:162 | in a two-player game an illegal move scores exactly as a win for the other player |
| `GameServerClient.UpdateData` | aiplayground/gameserver.py:121-128 | the payload of a broadcast update has all seven fields of the record, visibility "broadcast" and a null player id |
| `GameServerClient.FinalData` | aiplayground/gameserver.py:131-142 | the final update adds a `finish` entry holding the finish record and has a null turn |
| `GameServerClient.UpdateEvent` | aiplayground/gameserver.py:121-128 | an update travels as "gameupdate" without room or callback |
| `GameServerClient.UpdatesAccepted` | aiplayground/gameserver.py:121-128 | an update whose ids have the id shape is the payload of the record it encodes and passes the broker's validation |
| `GameServerClient.FinalUpdatesRejected` | aiplayground/gameserver.py:131-164 | the `finish` entry is no property of the gameupdate schema, which forbids others, so the broker rejects every final update |
| `GameServerClient.IndexTurnRejected` | aiplayground/gameserver.py:77-83 | as written `turn=self.game.turn` sends the turn index, which fails the schema's "null or player id" test, so the broker rejects the update |
| `GameServerClient.Repr` | aiplayground/gameserver.py:108 | `repr(e)` of an exception raised without arguments is its class name followed by "()" |
| `GameServerClient.GameServer.TurnId` | aiplayground/gameservers/base.py:41 | the turn as sent is the id of the player to move, one of the seated players |
| `GameServerClient.GameServer.constructor` | aiplayground/gameserver.py:52-58 | a new server has a new, empty game, a counter at 0, no room id and nothing sent |
| `GameServerClient.GameServer.Initialize` | aiplayground/gameserver.py:60-62 | the counter goes back to 0 and createroom, with the game's two players, is the one event sent |
| `GameServerClient.GameServer.OnRoomCreated` | aiplayground/gameserver.py:85-93 | the broker's room id is kept |
| `GameServerClient.GameServer.OnJoinAcknowledgement` | aiplayground/gameserver.py:70-83 | without a room id nothing happens; otherwise the count grows by one, and exactly when it reaches `max_players` the first broadcast update, with epoch equal to the move number, is sent |
| `GameServerClient.GameServer.OnRegister` | aiplayground/gameserver.py:95-108 | a seated player gets joinfail with ExistingPlayer's repr and a full game joinfail with GameFull's, both changing nothing; otherwise the player is seated, the game runs exactly when full, and joinsuccess without a role is sent |
| `GameServerClient.GameServer.AnnounceMove` | aiplayground/gameserver.py:121-128 | a legal move is answered with one broadcast update holding the board, the turn as the id of the player to move (as intended), the move number and the incoming state id |
| `GameServerClient.GameServer.CloseGame` | aiplayground/gameserver.py:129-142 | the game stops and one final update is sent with a normal finish whose scores give 1 to the first player exactly when the first choice wins and opposite scores to the two players |
| `GameServerClient.GameServer.Restart` | aiplayground/gameserver.py:144-148 | in run-once mode the server disconnects and sends nothing; otherwise it takes a fresh game, resets the counter and asks for a new room |
| `GameServerClient.GameServer.Complete` | aiplayground/gameserver.py:129-148 | the final update with the game's scores is sent first, then the server disconnects in run-once mode or starts afresh |
| `GameServerClient.GameServer.RejectMove` | aiplayground/gameserver.py:150-164 | one final update for the server's own room, without state id or turn, whose finish names the mover |
| `GameServerClient.GameServer.OnPlayerMove` | aiplayground/gameserver.py:110-164 | without a room id the assertion fails; GameNotRunning and NotPlayersTurn escape with nothing changed or sent; a move that continues sends the broadcast update, with the turn as the id of the player to move (as intended); a completed game sends the final update with its scores and then restarts or disconnects; any other exception, which for scissors-paper-rock is never IllegalMove, escapes with nothing sent |
| `PlayerProcess.Lobbies` | aiplayground/player.py:54-58 | an entry without "status" raises KeyError and a non-dict entry TypeError; otherwise every lobby listed is an entry of the listing whose status is "lobby", and every such entry is listed |
| `PlayerProcess.FirstLobbyIsFirst` | aiplayground/player.py:54-64 | the lobby joined is the first entry, in the dict's order, whose status is "lobby" |
| `PlayerProcess.AllLobbiesJoinable` | aiplayground/player.py:54-64 | when every entry is a lobby with a game and a name, reading them raises nothing, the first lobby is the first entry, and there is none exactly when the listing is empty |
| `PlayerProcess.ListingIsJoinable` | aiplayground/broker.py:175-188 | the broker's listing is read without error by the client, which joins the first room listed and finds no lobby only when the listing is empty |
| `PlayerProcess.MoveFor` | aiplayground/player.py:77-79 | the move object has the single key "move" |
| `PlayerProcess.MovesAreLegalChoices` | aiplayground/player.py:77-79 | whatever choice the client picks, the game server reads back the same choice and never raises ValueError |
| `PlayerProcess.PlayerClient.constructor` | aiplayground/player.py:30-38 | a new client knows no player, room, game, lobby or bot and has sent nothing |
| `PlayerProcess.PlayerClient.OnConnect` | aiplayground/player.py:40-48 | room, player, game, lobby and bot are forgotten and "list" is sent without data |
| `PlayerProcess.PlayerClient.OnRooms` | aiplayground/player.py:50-65 | a client already in a room ignores the reply; a malformed entry escapes as KeyError or TypeError; with no lobby the list is requested again; otherwise the first lobby's id, game and name are kept and join with name "Some Player" is sent |
| `PlayerProcess.PlayerClient.OnJoined` | aiplayground/player.py:67-71 | the player and room ids are stored; a bot with the assigned role is built exactly when the game has one, otherwise `all_players[...]` raises TypeError for a dict or list game name, which cannot be a key, and KeyError for any other |
| `PlayerProcess.PlayerClient.OnGamestate` | aiplayground/player.py:73-80 | a move is sent exactly when the state's turn is set and is this client's id |
| `PlayerProcess.PlayerClient.OnFinished` | aiplayground/player.py:82-99 | an abnormal finish changes and sends nothing; a normal finish without scores raises TypeError and one without this player's score KeyError; otherwise the client disconnects in run-once mode or forgets everything and requests the list again |
| `HexColor.UpperChar` | webclient/src/assets/styles/commonStyles.js:37 | `toUpperCase` keeps hex digits hex digits of the same value, and keeps '#' and only '#' a '#' |
| `HexColor.Upper` | webclient/src/assets/styles/commonStyles.js:37 | upper-casing keeps the length and works character by character |
| `HexColor.StripHash` | webclient/src/assets/styles/commonStyles.js:26 | `replace('#', '')` removes one character when there is a '#' and nothing otherwise |
| `HexColor.Expand` | webclient/src/assets/styles/commonStyles.js:31-36 | a three-character text has each character doubled, any other is kept |
| `HexColor.HexRun` | webclient/src/assets/styles/commonStyles.js:42-46 | `parseInt` reads only hex digits |
| `HexColor.ParsePair` | webclient/src/assets/styles/commonStyles.js:38-46 | `parseInt` of two characters gives a number only when one of them is a hex digit, and then one between -15 and 255 |
| `HexColor.ParsePairIsParseInt` | webclient/src/assets/styles/commonStyles.js:42-46 | the case-by-case reading of two characters agrees with `parseInt` (white space, sign, "0x" prefix, longest hex run) on every pair |
| `HexColor.ParseAfterWhiteSpace` | webclient/src/assets/styles/commonStyles.js:42-46 | after leading white space `parseInt` reads only the second character |
| `HexColor.ParseAfterSign` | webclient/src/assets/styles/commonStyles.js:42-46 | after a sign `parseInt` reads only the second character |
| `HexColor.ParseDigits` | webclient/src/assets/styles/commonStyles.js:42-46 | without white space or sign, two hex digits read as 16 times the first plus the second, and a first digit alone as its value |
| `HexColor.RunOfOne` | webclient/src/assets/styles/commonStyles.js:42-46 | the hex run of one character is that character exactly when it is a hex digit |
| `HexColor.RunOfTwo` | webclient/src/assets/styles/commonStyles.js:42-46 | after a hex digit the run takes the second character exactly when it is a hex digit, and reads as 16 times the first plus the second |
| `HexColor.DecimalDigits` | webclient/src/assets/styles/commonStyles.js:41-47 | a number is written with at least one decimal digit and nothing else |
| `HexColor.HexToRgb` | webclient/src/assets/styles/commonStyles.js:25-48 | the Error "input is not a valid hex color." is thrown exactly when the text after the first '#' has no hex digit or is neither 3 nor 6 characters long; otherwise six characters are read |
| `HexColor.HashIsOptional` | webclient/src/assets/styles/commonStyles.js:26 | the leading '#' is optional: with or without it the result is the same |
| `HexColor.ShortFormDoubles` | webclient/src/assets/styles/commonStyles.js:31-36 | "abc" gives the same colour as "aabbcc" |
| `HexColor.StripHashUpper` | webclient/src/assets/styles/commonStyles.js:26-37 | removing the '#' and upper-casing can be done in either order |
| `HexColor.CaseInsensitive` | webclient/src/assets/styles/commonStyles.js:37 | upper- and lower-case inputs give the same result |
| `HexColor.Hex2` | webclient/src/assets/styles/commonStyles.js:38-40 | the two lower-case hex digits written for a component below 256 read back as that component |
| `HexColor.SixDigits` | webclient/src/assets/styles/commonStyles.js:38-47 | six hex digits, in either case, are read pair by pair as "R, G, B" |
| `HexColor.RoundTrip` | webclient/src/assets/styles/commonStyles.js:25-48 | writing three components below 256 as "#rrggbb" and reading them back gives "R, G, B" of those components |
| `HexColor.GreyParses` | webclient/src/assets/styles/commonStyles.js:25-48 | a digit repeated six times gives three equal components, 17 times the digit |
| `HexColor.BlackIsZero` | webclient/src/assets/styles/commonStyles.js:49-58 | `hexToRgb(blackColor)`, used three times in `boxShadow`, gives "0, 0, 0" |
| `HexColor.LastPairCut` | webclient/src/assets/styles/commonStyles.js:27-46 | as written, six characters whose first five are hex digits and whose last is not pass the check, and the last pair is cut down to its first digit |
| `HexColor.NonHexAccepted` | webclient/src/assets/styles/commonStyles.js:27-30 | as written, "#12345G" is accepted and gives "18, 52, 5" |
| `HexColor.PairValue` | webclient/src/assets/styles/commonStyles.js:38-40 | two hex digits give a component below 256 |
| `HexColor.ParseColor` | webclient/src/assets/styles/commonStyles.js:25-48 | as intended: an error exactly when the text after the first '#' is not three or six hex digits; otherwise three components below 256 |
| `HexColor.HexToRgbChecked` | webclient/src/assets/styles/commonStyles.js:25-48 | the corrected `hexToRgb` throws exactly when `ParseColor` refuses the input |
| `HexColor.ParseUpperPair` | webclient/src/assets/styles/commonStyles.js:37-40 | two hex digits read the same once upper-cased |
| `HexColor.ExpandedHex` | webclient/src/assets/styles/commonStyles.js:31-36 | three or six hex digits expand to six hex digits |
| `HexColor.UpperPairs` | webclient/src/assets/styles/commonStyles.js:37-40 | the three pairs of upper-cased hex digits read as the three components of the original digits |
| `HexColor.AsWrittenOnHex` | webclient/src/assets/styles/commonStyles.js:25-48 | on inputs made only of hex digits the code as written reads the expanded digits pair by pair |
| `HexColor.CheckedAgreesOnHex` | webclient/src/assets/styles/commonStyles.js:25-48 | on inputs made only of hex digits the corrected function agrees with the code as written |
| `HexColor.ColorRoundTrip` | webclient/src/assets/styles/commonStyles.js:25-48 | reading "#rrggbb" written from a colour gives back that colour |

## Left out

- Sockets and the network:
  - connecting, reconnecting and the `main` loops of the game server and the player client are not modelled;
  - `asyncio` and `await` are not modelled. Each game-server handler is modelled as if every `await XMessage(...).send(sio=self)` awaited the emit it means. As written, `MessageBase.send` (aiplayground/messages.py:11-18) is synchronous and returns None, so each such `await` in aiplayground/gameserver.py (lines 62, 77, 104, 108, 121, 131 and 152) raises TypeError and the emit coroutine is never awaited; moreover the synchronous `expect` wrapper (aiplayground/utils/expect.py:23-46) returns the handler coroutines without awaiting them. So, as written, the game server sends no message and its handlers never run;
  - `on_connect`, `on_disconnect` and `on_fail` only log.
  - An emit is an event appended to a `Channel`. Entering a socket group adds a sid to a set.
- Locks are not modelled. This covers the game server's lock, the counter's lock and the tournament lock. Each handler, method and function is one atomic step.
- Logging, `sleep`, and the ASCII rendering of the Kalaha board are not modelled. The rendering is only logged.
- Randomness is not modelled as such:
  - Kalaha's `random.choice` of a free role is any free role; the write after it fails whichever it is.
  - The random bots pick any legal move.
  - The player client's choice of scissors, paper or rock is a parameter.
- The store's id generation and `datetime.now` are parameters.
  - Store ids must be fresh.
  - A tournament's row ids come from a counter.
  - A `Bot` is represented by its id.
- Authentication is not modelled. The identity the broker reads from the JWT is a parameter.
- JSON numbers are integers only. No field of the protocol carries a fraction.
- The Flask REST views and the older `asimovsplayground` copy of the broker are not part of this model. Neither are the other web-client components.
- `RandomPlayers.KalahaGetMove`: the bot's board is given as the engine's `Board` value, not as the `pits_a`/`pits_b` dict. It returns the pit number rather than `{"move": n}`.
- `RandomPlayers.TicTacToeGetMove`: the move is returned as a (row, col) pair rather than `{"row": r, "col": c}`. It reads the corrected grid; the as-written reading is a finding.
- `Kalaha.KalahaServer.MakeMove`: the move is the pit number, not the move dict, and must lie in 0..5. The unbounded move is a finding.
- `TicTacToe.TicTacToeServer.MakeMove`: an occupied cell raises IllegalMove with the "already occupied" text. That is the corrected half of the tic-tac-toe finding below; as written, tictactoe.py raises TypeError, which `TicTacToe.OccupiedCellEscapes` states.
- `TicTacToe.TicTacToeServer.MakeMove`: row and column are integers in 0..2.
  - The bounds are stated as a precondition, because the schema's `min`/`max` bound nothing.
  - Python's negative indices and IndexError are not modelled, and neither is the KeyError of a move dict without `row` or `col`.
- Kalaha and tic-tac-toe are not composed with `BaseGameServer.add_player` and `move`. Those call `make_move(move)` with one argument, which neither engine accepts, and `add_player` would overwrite the turn with 0 after `init_game`.
- `Kalaha.KalahaServer.constructor`: `roles` is None, because no code assigns the attribute.
- `Kalaha.KalahaServer.InitGame`: a `roles` map, when there is one, is taken as given; how it came to be filled is not modelled, since no code fills it.
- `Kalaha.KalahaServer.AssignRole`: the role `random.choice` would pick is not returned, because the write into the player list raises TypeError before any role is recorded.
- `Kalaha.KalahaServer.MakeMove`: the holders of the roles come from `roles` as given; that no code fills it is stated by `Kalaha.FreshServerCannotStart` and `Kalaha.UnsetRolesStopMoves`.
- `Kalaha.KalahaServer.Conclude`: looks the next player up in `roles` as given, with the same AttributeError and KeyError as `init_game`.
- `Kalaha.KalahaServer.CheckEnd`: looks the winner up in `roles` as given, with the same AttributeError and KeyError as `init_game`.
- `TicTacToe.TicTacToeServer.InitGame`: a `roles` map, when there is one, is taken as given, since no code fills it.
- Scores are not stated on the classes: Kalaha's and tic-tac-toe's `score` are stated once, in `GameBase.Scores`. `BaseGameServer.show_board` returns the board unchanged and has no contract of its own; Kalaha's `show_board` has its own, since its rendering fails without a board.
- `Broker.GameRoom.Receive`: the result is the handler's outcome, even for an arena error that the wrapper answers with `fail` and then swallows.
- `Broker.GameRoom.OnGameUpdate`: a private update is left to `PrivateUpdate`, because no private update passes the gameupdate schema. The board briefly written and then overwritten when the room had finished is not stated.
- `GameServerClient.GameServer.OnJoinAcknowledgement`: sends the turn as a player id, the corrected form of the turn finding below.
- `GameServerClient.GameServer.AnnounceMove`: sends the turn as `TurnId()`, a player id, the corrected half of the turn finding below. As written, gameserver.py sends the index `self.game.turn`, which `GameServerClient.IndexTurnRejected` states.
- `GameServerClient.GameServer.OnPlayerMove`: a move that continues is announced by `AnnounceMove`, so its turn is the player id of the corrected half of the turn finding below, not the index gameserver.py sends.
- `GameServerClient.GameServer.OnRegister`:
  - joinsuccess carries no role, because `add_player` returns None.
  - The reason text is the `repr` of an exception raised without arguments.
- `GameServerClient.FinalUpdatesRejected`: `GameUpdateMessage` has no `finish` field, so `GameUpdateMessage(..., finish=...)` raises TypeError before anything is sent, even if `Finish` were defined. The model keeps the update as the code means to build it, with a `finish` entry, and states that the broker would still reject it. It supplies no corrected finish message.
- `Clients.Admit`: a record is built only from data whose fields have the JSON types the record declares. Python's `message_type(**data)` would build a record from wrongly typed values too; the model reports TypeError for those.
- `Broker.GameRoom.OnJoinSuccess`: follows the code as written, so the role sent in joinsuccess is never stored on the player; only the joined message carries it.
- `PlayerProcess.PlayerClient.OnRooms`: `dict` iteration order is the `keys` parameter.
- `PlayerProcess.PlayerClient.OnJoined`: the bots of `all_players` are recorded by game name and role only. `all_players` has no Kalaha bot, so joining a Kalaha room raises KeyError.
- `PlayerProcess.PlayerClient.OnGamestate`: the player client always sends a scissors-paper-rock move, whatever the game, as the source does.
- `HexColor.UpperChar`: `toUpperCase` is modelled on ASCII letters only.
- `HexColor.HexToRgb`:
  - `parseInt` is modelled only on the two-character texts it receives.
  - `String(n)` is modelled only for NaN and integers.
  - White space is the ECMAScript white space and line terminators that the model lists.
  - A string is a sequence of characters, and its length is the number of characters. JavaScript counts UTF-16 code units, so "#😀a" has length 4 there and is split inside the emoji; the model does not cover text outside the Basic Multilingual Plane.

## Findings

| source | as written | input that shows it | evidently intended | confidence | as-written member | corrected member |
|---|---|---|---|---|---|---|
| aiplayground/gameservers/kalaha.py:57, 80-88 | nothing bounds the move, because `min`/`max` are not schema keywords; player a may name position 13 | player a plays `{"move": 13}` on a board whose `bank_b` holds stones | a move is a pit number 0 to 5, and the opponent's bank is never touched | not executed | `Kalaha.OpponentBankRaid` | `Kalaha.MoveSparesOpponentBank` |
| aiplayground/gameservers/tictactoe.py:37-39 | `IllegalMove(details=...)` calls a constructor that takes no keyword argument, so TypeError is raised | a move into an occupied cell | IllegalMove with the "already occupied" text, which the error handlers catch | not executed | `TicTacToe.OccupiedCellEscapes` | `TicTacToe.OccupiedCellIsCaught` |
| aiplayground/players/tictactoe.py:14 | the bot reads `board[row][col]`, but the board is `{"grid": ...}` | any board the tic-tac-toe server sends | the empty cells of `board["grid"]` | not executed | `RandomPlayers.TicTacToeBotMisreadsBoard` | `RandomPlayers.AvailableMoves` |
| aiplayground/api/tournaments/tournaments.py:40-48 | a participant is a plain dataclass and so not hashable: using one as a key of `participant_sids` raises TypeError (and `defaultdict(default_factory=list)` has no default factory, so the lookup would fail next); an unknown participant id raises KeyError first; with nobody queued, `set(match.players)` raises TypeError for a match with players, so only a match without players can be picked | a tournament with one pending match whose two players are queued | the pending match of least index whose players are all queued becomes running | not executed | `Tournaments.PickMatchAsWritten` | `Tournaments.TournamentStore.PickMatch` |
| aiplayground/utils/broker.py:54-55 | the raw payload is validated, and `asdict` writes `"playerid": null`, which the schema refuses | any broadcast game update from a game server | null entries dropped before validation, as the game server's own wrapper does | not executed | `Broker.ServerUpdatesRejectedAsWritten` | `Broker.ServerUpdatesAccepted` |
| aiplayground/gameserver.py:81, 125 | `turn=self.game.turn` sends the turn index, 0 or 1 | the first update of any scissors-paper-rock game | the id of the player to move, which the schema and the player client expect | not executed | `GameServerClient.IndexTurnRejected` | `GameServerClient.UpdatesAccepted` |
| webclient/src/assets/styles/commonStyles.js:27-30 | the check asks for one hex digit only, so non-hex text passes and is cut short by `parseInt` | `hexToRgb("#12345G")` gives "18, 52, 5" | only three or six hex digits are a colour | not executed | `HexColor.NonHexAccepted` | `HexColor.ParseColor` |

=== FILE: atomic.dfy ===
/**
 * The counter the game server uses to count acknowledged joins. Its lock only
 * makes each call atomic; every method here is one atomic step.
 */
module Atomic {

  class AtomicCounter {
    var value: int

    /** A new counter holds the given value, 0 by default. */
    constructor (value: int)
      ensures this.value == value
    {
      this.value := value;
    }

    /** `set(v)`: the value becomes v (callers pass 0 for the default). */
    method Set(v: int)
      modifies this
      ensures value == v
    {
      value := v;
    }

    /** `increment_then_get(step)`: add step and return the new value. */
    method IncrementThenGet(step: int) returns (r: int)
      modifies this
      ensures value == old(value) + step
      ensures r == value
    {
      value := value + step;
      r := value;
    }
  }
}

=== FILE: base.dfy ===
/**
 * The seating and move checks shared by the games (`BaseGameServer`). Here
 * `turn` is what base.py makes it: an index into the player list, so the
 * player to move is `players[turn]`. The board is whatever the concrete game
 * keeps, hence the type parameter.
 */
module GameBase {
  import opened Wrappers
  import opened Exceptions

  type PlayerId = string

  /** No player is seated twice. */
  predicate Distinct(players: seq<PlayerId>) {
    forall i, j :: 0 <= i < j < |players| ==> players[i] != players[j]
  }

  /** `score` of the games with a winner id (Kalaha, tic-tac-toe): every
      player scores 0 on a draw; otherwise the winner scores 1 and everybody
      else -1. */
  function Scores(players: set<PlayerId>, winner: Option<PlayerId>): (r: map<PlayerId, int>)
    ensures r.Keys == players
    ensures winner.None? ==> forall k :: k in r ==> r[k] == 0
    ensures winner.Some? ==> forall k :: k in r ==> (r[k] == 1 <==> k == winner.value)
    ensures winner.Some? ==> forall k :: k in r ==> r[k] == 1 || r[k] == -1
  {
    map k | k in players :: if winner.None? then 0 else if k == winner.value then 1 else -1
  }

  /** In a two-player game that someone won, the scores cancel out. */
  lemma ScoresOfTwoCancel(a: PlayerId, b: PlayerId, winner: PlayerId)
    requires a != b && winner in {a, b}
    ensures var r := Scores({a, b}, Some(winner)); r[a] + r[b] == 0
  {
  }

  class BaseGameServer<Board> {
    var board: Option<Board>
    var playing: bool
    var winner: Option<nat>
    var movenumber: nat
    var players: seq<PlayerId>
    var turn: Option<nat>
    const maxPlayers: nat

    ghost predicate Valid()
      reads this
    {
      && Distinct(players)
      && |players| <= maxPlayers
      && (playing ==> turn.Some? && turn.value < |players|)
    }

    /** A new game: no players, not playing, no board, no turn, move 0. */
    constructor (maxPlayers: nat)
      ensures Valid()
      ensures this.maxPlayers == maxPlayers
      ensures players == [] && !playing && board == None && turn == None && winner == None && movenumber == 0
    {
      this.maxPlayers := maxPlayers;
      board, playing, winner, movenumber := None, false, None, 0;
      players, turn := [], None;
    }

    /** `add_player`: reject a seated player, then a full game; otherwise
        seat the player, and when that fills the game start it with turn 0.
        The result tells the concrete game whether to run its `init_game`. */
    method AddPlayer(playerId: PlayerId) returns (r: Result<bool, Exc>)
      requires Valid()
      modifies this`players, this`playing, this`turn
      ensures Valid()
      ensures playerId in old(players) ==> r == Err(Asimov(ExistingPlayer, "")) && unchanged(this)
      ensures playerId !in old(players) && |old(players)| >= maxPlayers ==>
        r == Err(Asimov(GameFull, "")) && unchanged(this)
      ensures playerId !in old(players) && |old(players)| < maxPlayers ==>
        && players == old(players) + [playerId]
        && r == Ok(|players| == maxPlayers)
        && (|players| == maxPlayers ==> playing && turn == Some(0))
        && (|players| < maxPlayers ==> playing == old(playing) && turn == old(turn))
    {
      if playerId in players {
        return Err(Asimov(ExistingPlayer, ""));
      }
      if |players| >= maxPlayers {
        return Err(Asimov(GameFull, ""));
      }
      players := players + [playerId];
      if |players| == maxPlayers {
        playing := true;
        turn := Some(0);
        return Ok(true);
      }
      return Ok(false);
    }

    /** The checks of `move` before it hands over to the game's `make_move`:
        the game must be running and the mover must be `players[turn]`; the
        move number then grows by one whatever `make_move` does next. */
    method CheckMove(playerId: PlayerId) returns (r: Result<(), Exc>)
      requires Valid()
      modifies this`movenumber
      ensures Valid()
      ensures !playing ==> r == Err(Asimov(GameNotRunning, "")) && movenumber == old(movenumber)
      ensures playing && players[turn.value] != playerId ==>
        r == Err(Asimov(NotPlayersTurn, "")) && movenumber == old(movenumber)
      ensures playing && players[turn.value] == playerId ==> r == Ok(()) && movenumber == old(movenumber) + 1
    {
      if !playing {
        return Err(Asimov(GameNotRunning, ""));
      }
      var currentId := players[turn.value];
      if playerId != currentId {
        return Err(Asimov(NotPlayersTurn, ""));
      }
      movenumber := movenumber + 1;
      return Ok(());
    }

    /** `show_board`: the board, None until the game has started. */
    function ShowBoard(): Option<Board>
      reads this
    {
      board
    }
  }
}

=== FILE: broker.dfy ===
/**
 * The broker (`GameRoom`): it owns the store of rooms, players and game
 * states, checks who may act for a room (`get_room_player`), and relays
 * messages between the game server that owns a room and the players in it.
 * The store is three maps keyed by id; socket groups are a map from group
 * name to member sids; emitted events are appended to a channel. Ids and
 * clock readings the store would generate are passed in.
 */
module Broker {
  import opened Wrappers
  import opened Json
  import opened Exceptions
  import opened Messages
  import opened Rooms
  import Schemas

  /** A bare `raise K`. */
  function Raise(k: ErrorKind): Exc {
    Asimov(k, "")
  }

  /** `get_room_player`: the checks run in this order and the first that fails
      decides the error. The game server's sid is the room's `server_sid`. */
  function GetRoomPlayer(rooms: map<RoomId, Room>, players: map<PlayerId, Player>, sid: Sid, roomid: RoomId,
                         playerid: Option<PlayerId>, checkServer: bool): (r: Result<(Room, Option<Player>), Exc>)
    ensures roomid !in rooms <==> r == Err(Raise(NoSuchRoom))
    ensures roomid in rooms && checkServer && sid != rooms[roomid].serverSid <==> r == Err(Raise(UnauthorizedGameServer))
    ensures r.Ok? ==> roomid in rooms && r.value.0 == rooms[roomid]
    ensures r.Ok? && playerid.None? ==> r.value.1 == None
    ensures r.Ok? && playerid.Some? ==> playerid.value in players && r.value.1 == Some(players[playerid.value])
    ensures r.Err? ==> r.error.Asimov?
    ensures r.Err? ==> r.error.kind in {NoSuchRoom, UnauthorizedGameServer, NoSuchPlayer, UnauthorizedPlayer, PlayerNotInRoom}
  {
    if roomid !in rooms then Err(Raise(NoSuchRoom))
    else
      var room := rooms[roomid];
      if checkServer && sid != room.serverSid then Err(Raise(UnauthorizedGameServer))
      else if playerid.None? then Ok((room, None))
      else if playerid.value !in players then Err(Raise(NoSuchPlayer))
      else
        var player := players[playerid.value];
        if !checkServer && player.sid != sid then Err(Raise(UnauthorizedPlayer))
        else if player.roomId != Some(roomid) then Err(Raise(PlayerNotInRoom))
        else Ok((room, Some(player)))
  }

  /** What a successful check guarantees: a server acts only for its own
      room, a player only as itself, and a named player is in the room. */
  lemma GetRoomPlayerAuthorizes(rooms: map<RoomId, Room>, players: map<PlayerId, Player>, sid: Sid, roomid: RoomId,
                                playerid: Option<PlayerId>, checkServer: bool)
    requires GetRoomPlayer(rooms, players, sid, roomid, playerid, checkServer).Ok?
    ensures checkServer ==> sid == rooms[roomid].serverSid
    ensures playerid.Some? ==> players[playerid.value].roomId == Some(roomid)
    ensures playerid.Some? && !checkServer ==> players[playerid.value].sid == sid
  {
  }

  /** The player checks come after the room checks: whatever the player, a
      missing room or a foreign server is reported first. */
  lemma RoomChecksComeFirst(rooms: map<RoomId, Room>, players: map<PlayerId, Player>, sid: Sid, roomid: RoomId,
                            p: Option<PlayerId>, q: Option<PlayerId>, checkServer: bool)
    requires roomid !in rooms || (checkServer && sid != rooms[roomid].serverSid)
    ensures GetRoomPlayer(rooms, players, sid, roomid, p, checkServer) == GetRoomPlayer(rooms, players, sid, roomid, q, checkServer)
  {
  }

  /** The number of players whose room is `id` (`len(room.players)`). */
  function PlayerCount(players: map<PlayerId, Player>, id: RoomId): nat {
    |set p | p in players && players[p].roomId == Some(id)|
  }

  function RoomSummary(room: Room, count: nat): Object {
    map["name" := JString(room.name), "game" := JString(room.game), "maxplayers" := JInt(room.maxplayers),
        "players" := JInt(count), "status" := JString(room.status)]
  }

  /** The `rooms` payload of `on_list`. */
  function Listing(rooms: map<RoomId, Room>, players: map<PlayerId, Player>): Object {
    map id | id in rooms && rooms[id].status == "lobby" :: JObject(RoomSummary(rooms[id], PlayerCount(players, id)))
  }

  /** The listing holds exactly the rooms in the lobby, each with its name,
      game, size, player count and status. */
  lemma ListingIsTheLobby(rooms: map<RoomId, Room>, players: map<PlayerId, Player>)
    ensures forall id :: id in Listing(rooms, players) <==> id in rooms && rooms[id].status == "lobby"
    ensures forall id :: id in Listing(rooms, players) ==>
      && Listing(rooms, players)[id].JObject?
      && Listing(rooms, players)[id].fields["name"] == JString(rooms[id].name)
      && Listing(rooms, players)[id].fields["game"] == JString(rooms[id].game)
      && Listing(rooms, players)[id].fields["maxplayers"] == JInt(rooms[id].maxplayers)
      && Listing(rooms, players)[id].fields["players"] == JInt(PlayerCount(players, id))
      && Listing(rooms, players)[id].fields["status"] == JString("lobby")
  {
    var listing := Listing(rooms, players);
    forall id | id in listing
      ensures listing[id] == JObject(RoomSummary(rooms[id], PlayerCount(players, id)))
      ensures rooms[id].status == "lobby"
    {
    }
  }

  /** The move log entry a game update writes: the state named by `stateid`
      in this room is updated in place, otherwise a new one is created. */
  function Upsert(states: map<StateId, GameState>, stateid: Option<StateId>, roomid: RoomId, epoch: int,
                  board: Object, turn: Option<PlayerId>, freshId: StateId, now: int): map<StateId, GameState> {
    if stateid.Some? && stateid.value in states && states[stateid.value].roomId == Some(roomid) then
      var s := stateid.value;
      states[s := states[s].(epoch := Some(epoch), board := Some(board), turn := turn)]
    else
      states[freshId := NewGameState(freshId, now).(roomId := Some(roomid), epoch := Some(epoch), board := Some(board), turn := turn)]
  }

  /** The upsert records the update, leaves every other state alone and adds
      at most one state; replaying an update of a known state changes nothing. */
  lemma UpsertRecords(states: map<StateId, GameState>, stateid: Option<StateId>, roomid: RoomId, epoch: int,
                      board: Object, turn: Option<PlayerId>, freshId: StateId, now: int)
    requires freshId !in states
    ensures var r := Upsert(states, stateid, roomid, epoch, board, turn, freshId, now);
      && states.Keys <= r.Keys && |r.Keys - states.Keys| <= 1
      && (exists s :: s in r && r[s].roomId == Some(roomid) && r[s].epoch == Some(epoch) && r[s].board == Some(board) && r[s].turn == turn)
    ensures var r := Upsert(states, stateid, roomid, epoch, board, turn, freshId, now);
      forall s :: s in states && Some(s) != stateid ==> r[s] == states[s]
  {
    var r := Upsert(states, stateid, roomid, epoch, board, turn, freshId, now);
    if stateid.Some? && stateid.value in states && states[stateid.value].roomId == Some(roomid) {
      assert r.Keys == states.Keys;
      assert stateid.value in r;
    } else {
      assert r.Keys - states.Keys == {freshId};
      assert freshId in r;
    }
  }

  lemma UpsertIdempotent(states: map<StateId, GameState>, s: StateId, roomid: RoomId, epoch: int,
                         board: Object, turn: Option<PlayerId>, freshId: StateId, now: int)
    requires s in states && states[s].roomId == Some(roomid)
    ensures var once := Upsert(states, Some(s), roomid, epoch, board, turn, freshId, now);
      Upsert(once, Some(s), roomid, epoch, board, turn, freshId, now) == once
  {
  }

  /** The broker's validation as written: the raw data against the schema.
      A payload from `asdict` carries null for every unset optional field, which
      no schema's `"type": "string"` accepts. */
  predicate AcceptsAsWritten(k: Kind, data: Object) {
    SchemaValid(k, data)
  }

  /** Hence every game update a game server sends without naming a player (a
      broadcast) is rejected as written. */
  lemma ServerUpdatesRejectedAsWritten(m: Message)
    requires m.GameUpdate? && m.forPlayer.None?
    ensures !AcceptsAsWritten(GameUpdateKind, Payload(m))
  {
    assert Payload(m)["playerid"] == JNull;
  }

  /** The validation as intended, matching the game server's wrapper: null
      entries are dropped before the schema is applied. */
  predicate Accepts(k: Kind, data: Object) {
    SchemaValid(k, StripNulls(data))
  }

  /** The keys left of a game update's payload once nulls are dropped. */
  lemma StrippedUpdateKeys(m: Message)
    requires m.GameUpdate? && m.forPlayer.None?
    ensures StripNulls(Payload(m)).Keys == {"roomid", "visibility", "epoch", "board"}
      + (if m.stateRef.Some? then {"stateid"} else {}) + (if m.turn.Some? then {"turn"} else {})
  {
  }

  /** The values left of a game update's payload once nulls are dropped. */
  lemma StrippedUpdateValues(m: Message)
    requires m.GameUpdate? && m.forPlayer.None?
    ensures var d := StripNulls(Payload(m));
      && d["roomid"] == JString(m.roomid) && d["visibility"] == JString(m.visibility)
      && d["epoch"] == JInt(m.epoch) && d["board"] == JObject(m.board)
      && (m.stateRef.Some? ==> d["stateid"] == JString(m.stateRef.value))
      && (m.turn.Some? ==> d["turn"] == JString(m.turn.value))
  {
    StrippedUpdateKeys(m);
  }

  /** With nulls dropped, a broadcast update with well-formed ids is accepted. */
  lemma ServerUpdatesAccepted(m: Message)
    requires m.GameUpdate? && m.forPlayer.None? && m.visibility == "broadcast"
    requires Schemas.Matches(m.roomid, Schemas.IdClass, false)
    requires m.stateRef.Some? ==> Schemas.Matches(m.stateRef.value, Schemas.IdClass, false)
    requires m.turn.Some? ==> Schemas.Matches(m.turn.value, Schemas.IdClass, false)
    ensures Accepts(GameUpdateKind, Payload(m))
  {
    StrippedUpdateKeys(m);
    StrippedUpdateValues(m);
    var d := StripNulls(Payload(m));
    assert !Schemas.PrivateBranch(d);
  }

  /** A `fail` event of the broker's wrapper, sent to the caller. */
  function BrokerFail(reason: string, details: string, handler: string, sid: Sid): Event {
    Event("fail", Some(map["reason" := JString(reason), "details" := JString(details), "respondingTo" := JString(handler)]),
          Some(sid), None)
  }

  /** The classes the broker has a handler for, and the handler's name without "on_". */
  predicate BrokerInbound(k: Kind) {
    k in {CreateRoomKind, JoinKind, JoinSuccessKind, JoinFailKind, GameUpdateKind, MoveKind, FinishKind, ListKind}
  }

  class GameRoom {
    var rooms: map<RoomId, Room>
    var players: map<PlayerId, Player>
    var states: map<StateId, GameState>
    /** Socket groups (`enter_room`): group name to member sids. */
    var groups: map<string, set<Sid>>
    const channel: Channel

    /** Every row is stored under its own id. */
    ghost predicate Valid()
      reads this
    {
      && (forall id :: id in rooms ==> rooms[id].id == id)
      && (forall id :: id in players ==> players[id].id == id)
      && (forall id :: id in states ==> states[id].id == id)
    }

    constructor ()
      ensures Valid() && fresh(channel) && channel.sent == []
      ensures rooms == map[] && players == map[] && states == map[] && groups == map[]
    {
      rooms, players, states, groups := map[], map[], map[], map[];
      channel := new Channel();
    }

    /** `on_createroom`: a lobby room owned by the caller, confirmed to it. */
    method OnCreateRoom(sid: Sid, name: string, game: string, maxplayers: int, roomid: RoomId, now: int)
      requires Valid() && roomid !in rooms
      modifies this`rooms, channel
      ensures Valid()
      ensures rooms == old(rooms)[roomid := NewRoom(roomid, name, game, maxplayers, sid, now)]
      ensures channel.sent == old(channel.sent) + [Emitted(RoomCreated(roomid), Some(sid), None)]
    {
      rooms := rooms[roomid := NewRoom(roomid, name, game, maxplayers, sid, now)];
      Send(channel, RoomCreated(roomid), Some(sid), None);
    }

    /** `on_join`: the player row is stored first; then a missing room or one
        past its lobby is refused, and otherwise the owner is asked to
        register the player. */
    method OnJoin(sid: Sid, roomid: RoomId, name: string, userId: Option<string>, playerid: PlayerId)
      returns (r: Result<(), Exc>)
      requires Valid() && playerid !in players
      modifies this`players, channel
      ensures Valid()
      ensures players == old(players)[playerid := NewPlayer(playerid, name, roomid, userId, sid)]
      ensures roomid !in rooms ==> r == Err(Raise(NoSuchRoom)) && channel.sent == old(channel.sent)
      ensures roomid in rooms && rooms[roomid].status != "lobby" ==>
        r == Err(Raise(GameAlreadyStarted)) && channel.sent == old(channel.sent)
      ensures roomid in rooms && rooms[roomid].status == "lobby" ==> r.Ok?
      ensures roomid in rooms && rooms[roomid].status == "lobby" ==>
        channel.sent == old(channel.sent) + [Emitted(Register(playerid, roomid), Some(rooms[roomid].serverSid), None)]
    {
      players := players[playerid := NewPlayer(playerid, name, roomid, userId, sid)];
      if roomid !in rooms {
        return Err(Raise(NoSuchRoom));
      }
      var room := rooms[roomid];
      if room.status != "lobby" {
        return Err(Raise(GameAlreadyStarted));
      }
      Send(channel, Register(playerid, roomid), Some(room.serverSid), None);
      return Ok(());
    }

    /** `on_joinsuccess`: the player is marked joined, enters the room's
        group, and alone is told it joined, with its role. The role is passed
        to `update` as `game_role`, a name the player record does not
        declare, so the stored `gamerole` keeps its value. */
    method OnJoinSuccess(sid: Sid, playerid: PlayerId, roomid: RoomId, gamerole: Option<string>)
      returns (r: Result<(), Exc>)
      requires Valid()
      modifies this`players, this`groups, channel
      ensures Valid()
      ensures var check := GetRoomPlayer(old(rooms), old(players), sid, roomid, Some(playerid), true);
        && (check.Err? ==> r == Err(check.error) && unchanged(this) && channel.sent == old(channel.sent))
        && (check.Ok? ==>
            var p := old(players)[playerid];
            && r.Ok?
            && players == old(players)[playerid := p.(joined := true)]
            && groups == old(groups)[roomid := (if roomid in old(groups) then old(groups)[roomid] else {}) + {p.sid}]
            && channel.sent == old(channel.sent) + [Emitted(Joined(playerid, roomid, gamerole), Some(p.sid), None)])
    {
      var check := GetRoomPlayer(rooms, players, sid, roomid, Some(playerid), true);
      if check.Err? {
        return Err(check.error);
      }
      var player := check.value.1.value;
      var room := check.value.0;
      players := players[playerid := player.(joined := true)];
      groups := groups[room.id := (if room.id in groups then groups[room.id] else {}) + {player.sid}];
      Send(channel, Joined(playerid, roomid, gamerole), Some(player.sid), None);
      return Ok(());
    }

    /** `on_joinfail`: the player alone gets a `registrationFailed` failure
        with the server's reason. */
    method OnJoinFail(sid: Sid, playerid: PlayerId, roomid: RoomId, reason: Option<string>)
      returns (r: Result<(), Exc>)
      requires Valid()
      modifies channel
      ensures var check := GetRoomPlayer(rooms, players, sid, roomid, Some(playerid), true);
        && (check.Err? ==> r == Err(check.error) && channel.sent == old(channel.sent))
        && (check.Ok? ==> r.Ok?)
        && (check.Ok? ==>
              channel.sent == old(channel.sent) + [Event("fail", Some(map["error" := JString("registrationFailed"), "reason" := OptString(reason)]),
                     Some(players[playerid].sid), None)])
    {
      var check := GetRoomPlayer(rooms, players, sid, roomid, Some(playerid), true);
      if check.Err? {
        return Err(check.error);
      }
      var player := check.value.1.value;
      channel.Emit(Event("fail", Some(map["error" := JString("registrationFailed"), "reason" := OptString(reason)]),
                         Some(player.sid), None));
      return Ok(());
    }

    /** `on_gameupdate`: the room is playing afterwards, with the update's
        turn. A private update goes to its player alone; a broadcast one to
        the room's group; every non-private one also sets the room's board and
        is logged in the game states. A room that had finished first has its
        board replaced and its turn cleared. */
    method OnGameUpdate(sid: Sid, m: Message, freshId: StateId, now: int) returns (r: Result<(), Exc>)
      requires Valid() && m.GameUpdate? && freshId !in states
      modifies this`rooms, this`states, channel
      ensures Valid()
      ensures var check := GetRoomPlayer(old(rooms), players, sid, m.roomid, m.forPlayer, true);
        check.Err? ==> r == Err(check.error) && rooms == old(rooms) && states == old(states) && channel.sent == old(channel.sent)
      ensures r.Ok? ==> m.roomid in old(rooms) && m.roomid in rooms && rooms[m.roomid].status == "playing" && rooms[m.roomid].turn == m.turn
      ensures r.Ok? && m.visibility != "private" ==>
        && rooms == old(rooms)[m.roomid := old(rooms)[m.roomid].(status := "playing", board := Some(m.board), turn := m.turn)]
        && states == Upsert(old(states), m.stateRef, m.roomid, m.epoch, m.board, m.turn, freshId, now)
        && channel.sent == old(channel.sent) +
             (if m.visibility == "broadcast" then [Emitted(Gamestate(m.board, m.forPlayer, m.roomid, m.turn), Some(m.roomid), None)] else [])
      ensures m.visibility == "private" ==> states == old(states)
    {
      var check := GetRoomPlayer(rooms, players, sid, m.roomid, m.forPlayer, true);
      if check.Err? {
        return Err(check.error);
      }
      var room := check.value.0;
      if room.status == "finished" {
        room := room.(board := Some(m.board), turn := None);
      }
      if m.visibility == "private" {
        r := PrivateUpdate(room, check.value.1, m);
      } else {
        PublicUpdate(room, m, freshId, now);
        r := Ok(());
      }
    }

    /** The private branch of `on_gameupdate`: the state goes to one player. */
    method PrivateUpdate(room: Room, player: Option<Player>, m: Message) returns (r: Result<(), Exc>)
      requires Valid() && m.GameUpdate? && room.id == m.roomid
      modifies this`rooms, channel
      ensures Valid()
      ensures rooms == old(rooms)[m.roomid := room.(status := "playing", turn := m.turn)]
      ensures player.None? ==> r == Err(Builtin("AttributeError")) && channel.sent == old(channel.sent)
      ensures player.Some? ==> r.Ok?
      ensures player.Some? ==>
        channel.sent == old(channel.sent) + [Emitted(Gamestate(m.board, m.forPlayer, m.roomid, m.turn), Some(player.value.sid), None)]
    {
      rooms := rooms[room.id := room.(status := "playing", turn := m.turn)];
      if player.None? {
        // `player.sid` on None
        return Err(Builtin("AttributeError"));
      }
      Send(channel, Gamestate(m.board, m.forPlayer, m.roomid, m.turn), Some(player.value.sid), None);
      return Ok(());
    }

    /** The non-private branch of `on_gameupdate`. */
    method PublicUpdate(room: Room, m: Message, freshId: StateId, now: int)
      requires Valid() && m.GameUpdate? && room.id == m.roomid && freshId !in states
      modifies this`rooms, this`states, channel
      ensures Valid()
      ensures rooms == old(rooms)[m.roomid := room.(status := "playing", board := Some(m.board), turn := m.turn)]
      ensures states == Upsert(old(states), m.stateRef, m.roomid, m.epoch, m.board, m.turn, freshId, now)
      ensures channel.sent == old(channel.sent) +
        (if m.visibility == "broadcast" then [Emitted(Gamestate(m.board, m.forPlayer, m.roomid, m.turn), Some(m.roomid), None)] else [])
    {
      rooms := rooms[room.id := room.(status := "playing", turn := m.turn)];
      if m.visibility == "broadcast" {
        Send(channel, Gamestate(m.board, m.forPlayer, m.roomid, m.turn), Some(room.id), None);
      }
      states := Upsert(states, m.stateRef, m.roomid, m.epoch, m.board, m.turn, freshId, now);
      rooms := rooms[room.id := room.(status := "playing", board := Some(m.board), turn := m.turn)];
    }

    /** `on_move`: a player moves only in a running game and on its turn; the
        move is logged as a new game state and forwarded to the room's owner
        with that state's id. */
    method OnMove(sid: Sid, playerid: PlayerId, roomid: RoomId, move: Object, freshId: StateId, now: int)
      returns (r: Result<(), Exc>)
      requires Valid() && freshId !in states
      modifies this`states, channel
      ensures Valid()
      ensures var check := GetRoomPlayer(rooms, players, sid, roomid, Some(playerid), false);
        && (check.Err? ==> r == Err(check.error))
        && (check.Ok? && rooms[roomid].status != "playing" ==> r == Err(Raise(GameNotRunning)))
        && (check.Ok? && rooms[roomid].status == "playing" && rooms[roomid].turn != Some(playerid) ==>
              r == Err(Raise(NotPlayersTurn)))
      ensures r.Err? ==> states == old(states) && channel.sent == old(channel.sent)
      ensures r.Ok? ==>
        && rooms[roomid].status == "playing" && rooms[roomid].turn == Some(playerid)
        && states == old(states)[freshId := NewGameState(freshId, now).(playerId := Some(playerid), roomId := Some(roomid), move := Some(move))]
        && channel.sent == old(channel.sent) +
             [Emitted(PlayerMove(move, playerid, roomid, freshId), Some(rooms[roomid].serverSid), None)]
    {
      var check := GetRoomPlayer(rooms, players, sid, roomid, Some(playerid), false);
      if check.Err? {
        return Err(check.error);
      }
      var room := check.value.0;
      if room.status != "playing" {
        return Err(Raise(GameNotRunning));
      }
      if room.turn != Some(playerid) {
        return Err(Raise(NotPlayersTurn));
      }
      states := states[freshId := NewGameState(freshId, now).(playerId := Some(playerid), roomId := Some(roomid), move := Some(move))];
      Send(channel, PlayerMove(move, playerid, roomid, freshId), Some(room.serverSid), None);
      return Ok(());
    }

    /** `on_finish`: a room finishes once; the end is announced to the room. */
    method OnFinish(sid: Sid, roomid: RoomId, normal: bool, scores: Option<Scores>, reason: Option<string>)
      returns (r: Result<(), Exc>)
      requires Valid()
      modifies this`rooms, channel
      ensures Valid()
      ensures var check := GetRoomPlayer(old(rooms), players, sid, roomid, None, true);
        && (check.Err? ==> r == Err(check.error))
        && (check.Ok? && old(rooms)[roomid].status == "finished" ==> r == Err(Raise(GameNotRunning)))
      ensures r.Err? ==> rooms == old(rooms) && channel.sent == old(channel.sent)
      ensures r.Ok? ==>
        && roomid in old(rooms) && old(rooms)[roomid].status != "finished"
        && rooms == old(rooms)[roomid := old(rooms)[roomid].(status := "finished")]
        && channel.sent == old(channel.sent) + [Emitted(Finished(normal, roomid, reason, scores), Some(roomid), None)]
    {
      var check := GetRoomPlayer(rooms, players, sid, roomid, None, true);
      if check.Err? {
        return Err(check.error);
      }
      var room := check.value.0;
      if room.status == "finished" {
        return Err(Raise(GameNotRunning));
      }
      rooms := rooms[roomid := room.(status := "finished")];
      Send(channel, Finished(normal, roomid, reason, scores), Some(roomid), None);
      return Ok(());
    }

    /** `on_list`: the caller gets the lobby rooms. */
    method OnList(sid: Sid)
      modifies channel
      ensures channel.sent == old(channel.sent) + [Emitted(Rooms(Listing(rooms, players)), Some(sid), None)]
    {
      Send(channel, Rooms(Listing(rooms, players)), Some(sid), None);
    }

    /** What handler `on_<k>` does with record `msg`, as its method states
        it: `r` is its outcome and `sent` the channel once it has returned;
        the stores it does not touch keep their old contents. */
    twostate predicate Handled(msg: Message, sid: Sid, userId: Option<string>, freshId: string, now: int,
                               new r: Result<(), Exc>, new sent: seq<Event>)
      reads this
    {
      match msg
      case CreateRoom(name, game, maxplayers) =>
        && r.Ok?
        && rooms == old(rooms)[freshId := NewRoom(freshId, name, game, maxplayers, sid, now)]
        && players == old(players) && states == old(states) && groups == old(groups)
        && sent == old(channel.sent) + [Emitted(RoomCreated(freshId), Some(sid), None)]
      case Join(roomid, name) =>
        && players == old(players)[freshId := NewPlayer(freshId, name, roomid, userId, sid)]
        && rooms == old(rooms) && states == old(states) && groups == old(groups)
        && (roomid !in old(rooms) ==> r == Err(Raise(NoSuchRoom)) && sent == old(channel.sent))
        && (roomid in old(rooms) && old(rooms)[roomid].status != "lobby" ==>
              r == Err(Raise(GameAlreadyStarted)) && sent == old(channel.sent))
        && (roomid in old(rooms) && old(rooms)[roomid].status == "lobby" ==>
              r.Ok? && sent == old(channel.sent) + [Emitted(Register(freshId, roomid), Some(old(rooms)[roomid].serverSid), None)])
      case JoinSuccess(playerid, roomid, gamerole) =>
        var check := GetRoomPlayer(old(rooms), old(players), sid, roomid, Some(playerid), true);
        && rooms == old(rooms) && states == old(states)
        && (check.Err? ==> r == Err(check.error) && players == old(players) && groups == old(groups) && sent == old(channel.sent))
        && (check.Ok? ==>
              var p := old(players)[playerid];
              && r.Ok?
              && players == old(players)[playerid := p.(joined := true)]
              && groups == old(groups)[roomid := (if roomid in old(groups) then old(groups)[roomid] else {}) + {p.sid}]
              && sent == old(channel.sent) + [Emitted(Joined(playerid, roomid, gamerole), Some(p.sid), None)])
      case JoinFail(playerid, roomid, reason) =>
        var check := GetRoomPlayer(old(rooms), old(players), sid, roomid, Some(playerid), true);
        && rooms == old(rooms) && players == old(players) && states == old(states) && groups == old(groups)
        && (check.Err? ==> r == Err(check.error) && sent == old(channel.sent))
        && (check.Ok? ==>
              && r.Ok?
              && sent == old(channel.sent) + [Event("fail", Some(map["error" := JString("registrationFailed"), "reason" := OptString(reason)]),
                                                    Some(old(players)[playerid].sid), None)])
      case GameUpdate(roomid, visibility, epoch, board, stateRef, forPlayer, turn) =>
        var check := GetRoomPlayer(old(rooms), old(players), sid, roomid, forPlayer, true);
        && players == old(players) && groups == old(groups)
        && (check.Err? ==> r == Err(check.error) && rooms == old(rooms) && states == old(states) && sent == old(channel.sent))
        && (r.Ok? ==> roomid in old(rooms) && roomid in rooms && rooms[roomid].status == "playing" && rooms[roomid].turn == turn)
        && (r.Ok? && visibility != "private" ==>
              && rooms == old(rooms)[roomid := old(rooms)[roomid].(status := "playing", board := Some(board), turn := turn)]
              && states == Upsert(old(states), stateRef, roomid, epoch, board, turn, freshId, now)
              && sent == old(channel.sent) +
                   (if visibility == "broadcast" then [Emitted(Gamestate(board, forPlayer, roomid, turn), Some(roomid), None)] else []))
        && (visibility == "private" ==> states == old(states))
      case Move(playerid, roomid, move) =>
        var check := GetRoomPlayer(old(rooms), old(players), sid, roomid, Some(playerid), false);
        && rooms == old(rooms) && players == old(players) && groups == old(groups)
        && (check.Err? ==> r == Err(check.error))
        && (check.Ok? && old(rooms)[roomid].status != "playing" ==> r == Err(Raise(GameNotRunning)))
        && (check.Ok? && old(rooms)[roomid].status == "playing" && old(rooms)[roomid].turn != Some(playerid) ==>
              r == Err(Raise(NotPlayersTurn)))
        && (r.Err? ==> states == old(states) && sent == old(channel.sent))
        && (r.Ok? ==>
              && roomid in old(rooms) && old(rooms)[roomid].status == "playing" && old(rooms)[roomid].turn == Some(playerid)
              && states == old(states)[freshId := NewGameState(freshId, now).(playerId := Some(playerid), roomId := Some(roomid), move := Some(move))]
              && sent == old(channel.sent) + [Emitted(PlayerMove(move, playerid, roomid, freshId), Some(old(rooms)[roomid].serverSid), None)])
      case Finish(roomid, normal, scores, reason) =>
        var check := GetRoomPlayer(old(rooms), old(players), sid, roomid, None, true);
        && players == old(players) && states == old(states) && groups == old(groups)
        && (check.Err? ==> r == Err(check.error))
        && (check.Ok? && old(rooms)[roomid].status == "finished" ==> r == Err(Raise(GameNotRunning)))
        && (r.Err? ==> rooms == old(rooms) && sent == old(channel.sent))
        && (r.Ok? ==>
              && roomid in old(rooms) && old(rooms)[roomid].status != "finished"
              && rooms == old(rooms)[roomid := old(rooms)[roomid].(status := "finished")]
              && sent == old(channel.sent) + [Emitted(Finished(normal, roomid, reason, scores), Some(roomid), None)])
      case List =>
        && r.Ok?
        && rooms == old(rooms) && players == old(players) && states == old(states) && groups == old(groups)
        && sent == old(channel.sent) + [Emitted(Rooms(Listing(old(rooms), old(players))), Some(sid), None)]
      case _ => false
    }

    /** The broker's receive wrapper (`expect`) around handler `on_<k>`: data
        the schema rejects is answered with an `InputValidationError` failure
        and reaches no handler; otherwise the record is rebuilt and handed to
        `on_<k>`, which acts as `Handled` states, and an arena error the
        handler raises is then answered with a failure naming its class. The
        result is the handler's outcome; an error that is not an arena error
        escapes the wrapper. */
    method Receive(k: Kind, data: Object, sid: Sid, invalid: string, userId: Option<string>, freshId: string, now: int)
      returns (r: Result<(), Exc>)
      requires Valid() && BrokerInbound(k)
      requires freshId !in rooms && freshId !in players && freshId !in states
      modifies this, channel
      ensures Valid()
      ensures !Accepts(k, data) ==>
        && r.Ok?
        && channel.sent == old(channel.sent) + [BrokerFail("InputValidationError", invalid, EventName(k), sid)]
        && rooms == old(rooms) && players == old(players) && states == old(states) && groups == old(groups)
      ensures Accepts(k, data) && Decode(k, StripNulls(data)).None? ==>
        && r == Err(Builtin("TypeError"))
        && channel.sent == old(channel.sent)
        && rooms == old(rooms) && players == old(players) && states == old(states) && groups == old(groups)
      ensures Accepts(k, data) && Decode(k, StripNulls(data)).Some? ==>
        var msg := Decode(k, StripNulls(data)).value;
        && KindOf(msg) == k
        && (r.Err? && IsCaughtAsError(r.error) ==>
              && |channel.sent| > 0
              && channel.sent[|channel.sent| - 1] == BrokerFail(Exceptions.ClassName(r.error.kind), Details(r.error.kind), EventName(k), sid)
              && Handled(msg, sid, userId, freshId, now, r, channel.sent[..|channel.sent| - 1]))
        && (!(r.Err? && IsCaughtAsError(r.error)) ==> Handled(msg, sid, userId, freshId, now, r, channel.sent))
    {
      if !Accepts(k, data) {
        channel.Emit(BrokerFail("InputValidationError", invalid, EventName(k), sid));
        return Ok(());
      }
      var decoded := Decode(k, StripNulls(data));
      if decoded.None? {
        return Err(Builtin("TypeError"));
      }
      DecodeSound(k, StripNulls(data));
      r := Handle(decoded.value, sid, userId, freshId, now);
    }

    /** The handler call of the wrapper for a record that passed validation:
        an arena error the handler raises is answered with a failure naming
        its class. */
    method Handle(msg: Message, sid: Sid, userId: Option<string>, freshId: string, now: int) returns (r: Result<(), Exc>)
      requires Valid() && BrokerInbound(KindOf(msg))
      requires freshId !in rooms && freshId !in players && freshId !in states
      modifies this, channel
      ensures Valid()
      ensures r.Err? && IsCaughtAsError(r.error) ==>
        && |channel.sent| > 0
        && channel.sent[|channel.sent| - 1] == BrokerFail(Exceptions.ClassName(r.error.kind), Details(r.error.kind), EventName(KindOf(msg)), sid)
        && Handled(msg, sid, userId, freshId, now, r, channel.sent[..|channel.sent| - 1])
      ensures !(r.Err? && IsCaughtAsError(r.error)) ==> Handled(msg, sid, userId, freshId, now, r, channel.sent)
    {
      r := Dispatch(msg, sid, userId, freshId, now);
      label handled:
      if r.Err? && IsCaughtAsError(r.error) {
        channel.Emit(BrokerFail(Exceptions.ClassName(r.error.kind), Details(r.error.kind), EventName(KindOf(msg)), sid));
        assert channel.sent[..|channel.sent| - 1] == old@handled(channel.sent);
      }
    }

    /** Calls the handler for the record's class. */
    method Dispatch(msg: Message, sid: Sid, userId: Option<string>, freshId: string, now: int) returns (r: Result<(), Exc>)
      requires Valid() && BrokerInbound(KindOf(msg))
      requires freshId !in rooms && freshId !in players && freshId !in states
      modifies this, channel
      ensures Valid()
      ensures Handled(msg, sid, userId, freshId, now, r, channel.sent)
    {
      match msg
      case CreateRoom(name, game, maxplayers) =>
        OnCreateRoom(sid, name, game, maxplayers, freshId, now);
        r := Ok(());
      case Join(roomid, name) =>
        r := OnJoin(sid, roomid, name, userId, freshId);
      case JoinSuccess(playerid, roomid, gamerole) =>
        r := OnJoinSuccess(sid, playerid, roomid, gamerole);
      case JoinFail(playerid, roomid, reason) =>
        r := OnJoinFail(sid, playerid, roomid, reason);
      case GameUpdate(_, _, _, _, _, _, _) =>
        r := OnGameUpdate(sid, msg, freshId, now);
      case Move(playerid, roomid, move) =>
        r := OnMove(sid, playerid, roomid, move, freshId, now);
      case Finish(roomid, normal, scores, reason) =>
        r := OnFinish(sid, roomid, normal, scores, reason);
      case List =>
        OnList(sid);
        r := Ok(());
    }
  }
}

=== FILE: clients.dfy ===
/**
 * The receive wrapper of the player client (`utils/clients.py`). Incoming data
 * is checked against the class's schema; data that fails is answered with a
 * `fail` event and never reaches the handler; data that passes is rebuilt
 * into the record (`message_type(**data)`, which raises TypeError when a
 * field is missing or unknown) and handed over; an arena error raised by the
 * handler is reported with a `fail` event addressed to the request's sid.
 */
module Clients {
  import opened Wrappers
  import opened Json
  import opened Exceptions
  import opened Messages

  /** The decision taken before the handler runs. */
  datatype Admission =
    | Rejected(fail: Event)
    | Admitted(msg: Message)
    | Crashed(exc: Exc)

  /** `f.__name__[3:]`: the handler name without its "on_" prefix. */
  function RespondingTo(handlerName: string): string {
    if |handlerName| < 3 then "" else handlerName[3..]
  }

  function FailEvent(reason: string, details: string, handlerName: string, room: Option<string>): Event {
    Event("fail", Some(map["reason" := JString(reason), "details" := JString(details),
                           "respondingTo" := JString(RespondingTo(handlerName))]), room, None)
  }

  /** `invalid` is the validator's text for the rejected data. */
  function Admit(k: Kind, data: Object, handlerName: string, invalid: string): (r: Admission)
    ensures r.Rejected? <==> !SchemaValid(k, data)
    ensures r.Rejected? ==> r.fail.name == "fail" && r.fail.room == None
    ensures r.Rejected? ==> r.fail.data.Some? && "reason" in r.fail.data.value
    ensures r.Rejected? ==> r.fail.data.value["reason"] == JString("InputValidationError")
    ensures r.Admitted? <==> SchemaValid(k, data) && Decode(k, data).Some?
    ensures r.Admitted? ==> KindOf(r.msg) == k && Payload(r.msg).Keys >= data.Keys
    ensures r.Crashed? ==> r.exc == Builtin("TypeError")
  {
    if !SchemaValid(k, data) then Rejected(FailEvent("InputValidationError", invalid, handlerName, None))
    else match Decode(k, data)
      case None => Crashed(Builtin("TypeError"))
      case Some(msg) =>
        DecodeSound(k, data);
        Admitted(msg)
  }

  /** Every record sent to a player is admitted as itself: the player-facing
      classes have no schema of their own. */
  lemma PlayerMessagesAdmitted(m: Message, handlerName: string, invalid: string)
    requires m.Rooms? || m.Joined? || m.Gamestate? || m.Finished?
    ensures Admit(KindOf(m), Payload(m), handlerName, invalid) == Admitted(m)
  {
    DecodePayload(m);
  }

  /** The error path of the wrapper: an arena error is answered with `fail`
      to the request's sid; anything else is raised on. Returns what escapes. */
  method ReportError(sio: Channel, e: Exc, handlerName: string, requestSid: string) returns (escaped: Option<Exc>)
    modifies sio
    ensures IsCaughtAsError(e) ==> escaped == None
    ensures IsCaughtAsError(e) ==>
      sio.sent == old(sio.sent) + [FailEvent(Exceptions.ClassName(e.kind), Details(e.kind), handlerName, Some(requestSid))]
    ensures !IsCaughtAsError(e) ==> escaped == Some(e) && sio.sent == old(sio.sent)
  {
    if IsCaughtAsError(e) {
      sio.Emit(FailEvent(Exceptions.ClassName(e.kind), Details(e.kind), handlerName, Some(requestSid)));
      return None;
    }
    return Some(e);
  }
}

=== FILE: exceptions.dfy ===
/**
 * The exception hierarchy of the arena. Every class of the hierarchy is one
 * constructor of `ErrorKind`; the subclass relation is given by `Parent`, and
 * each class carries a fixed class-level `details` text.
 */
module Exceptions {
  import opened Wrappers

  datatype ErrorKind =
    | AsimovExceptionBase
    | AsimovErrorBase
    | AsimovServerError
    | AsimovPlayerError
    | NoSuchRoom
    | NoSuchPlayer
    | GameAlreadyStarted
    | UnauthorizedGameServer
    | UnauthorizedPlayer
    | PlayerNotInRoom
    | GameNotRunning
    | NotPlayersTurn
    | GameFull
    | ExistingPlayer
    | GameCompleted
    | IllegalMove

  /** Anything a handler can raise: one of the arena's own exceptions (with the
      message given at the raise site, which is not its `details`), or a
      built-in Python exception such as ValueError or KeyError, named. */
  datatype Exc =
    | Asimov(kind: ErrorKind, message: string)
    | Builtin(name: string)

  /** Number of superclasses between a class and AsimovExceptionBase. */
  function Depth(k: ErrorKind): nat {
    match k
    case AsimovExceptionBase => 0
    case AsimovErrorBase | GameCompleted => 1
    case AsimovServerError | AsimovPlayerError | NoSuchRoom | NoSuchPlayer => 2
    case _ => 3
  }

  /** The direct superclass inside the hierarchy (None for the root). */
  function Parent(k: ErrorKind): (r: Option<ErrorKind>)
    ensures r.None? <==> k == AsimovExceptionBase
    ensures r.Some? ==> Depth(r.value) + 1 == Depth(k)
  {
    match k
    case AsimovExceptionBase => None
    case AsimovErrorBase | GameCompleted => Some(AsimovExceptionBase)
    case AsimovServerError | AsimovPlayerError | NoSuchRoom | NoSuchPlayer => Some(AsimovErrorBase)
    case GameAlreadyStarted | UnauthorizedPlayer | GameNotRunning | NotPlayersTurn | GameFull =>
      Some(AsimovPlayerError)
    case UnauthorizedGameServer | PlayerNotInRoom | ExistingPlayer | IllegalMove =>
      Some(AsimovServerError)
  }

  /** `isinstance`: k is `ancestor` or a subclass of it. */
  predicate IsA(k: ErrorKind, ancestor: ErrorKind)
    decreases Depth(k)
  {
    k == ancestor || (Parent(k).Some? && IsA(Parent(k).value, ancestor))
  }

  /** What `except AsimovErrorBase` catches. */
  predicate IsError(k: ErrorKind) {
    IsA(k, AsimovErrorBase)
  }

  predicate IsCaughtAsError(e: Exc) {
    e.Asimov? && IsError(e.kind)
  }

  /** `e.__class__.__name__` */
  function ClassName(k: ErrorKind): (r: string)
    ensures |r| > 0
  {
    match k
    case AsimovExceptionBase => "AsimovExceptionBase"
    case AsimovErrorBase => "AsimovErrorBase"
    case AsimovServerError => "AsimovServerError"
    case AsimovPlayerError => "AsimovPlayerError"
    case NoSuchRoom => "NoSuchRoom"
    case NoSuchPlayer => "NoSuchPlayer"
    case GameAlreadyStarted => "GameAlreadyStarted"
    case UnauthorizedGameServer => "UnauthorizedGameServer"
    case UnauthorizedPlayer => "UnauthorizedPlayer"
    case PlayerNotInRoom => "PlayerNotInRoom"
    case GameNotRunning => "GameNotRunning"
    case NotPlayersTurn => "NotPlayersTurn"
    case GameFull => "GameFull"
    case ExistingPlayer => "ExistingPlayer"
    case GameCompleted => "GameCompleted"
    case IllegalMove => "IllegalMove"
  }

  /** The class-level `details` attribute. */
  function Details(k: ErrorKind): string {
    match k
    case AsimovExceptionBase => "Base exception inherited by all other Asimov API exceptions"
    case AsimovErrorBase => "Base error inherited by all other Asimov API errors"
    case AsimovServerError => "Base exception for when a gameAsimovExceptionBase server behaves incorrectly"
    case AsimovPlayerError => "Base exception for when a player behaves incorrectly"
    case NoSuchRoom => "The specified roomid does not correspond to an existing room"
    case NoSuchPlayer => "The specified playerid does not correspond to an existing player"
    case GameAlreadyStarted => "The specified room cannot be joined as the game has already begun"
    case UnauthorizedGameServer => "The specified room is owned by a different server"
    case UnauthorizedPlayer => "The specified player is owned by a different user"
    case PlayerNotInRoom => "The specified player is in a different room"
    case GameNotRunning => "The game in the specified room has either not started, or is already completed"
    case NotPlayersTurn => "It is not currently your turn"
    case GameFull => "Player tried to join full game"
    case ExistingPlayer => "Player tried to join game they are already in"
    case GameCompleted => "The game has just completed"
    case IllegalMove => "Player attempted a move that is not a legal move"
  }

  /** The wire-name registry: only IllegalMove is registered. */
  const AllExceptions: map<string, ErrorKind> := map["IllegalMove" := IllegalMove]

  function LookupException(name: string): (r: Option<ErrorKind>)
    ensures r.Some? <==> name == "IllegalMove"
    ensures r.Some? ==> r.value == IllegalMove && ClassName(r.value) == name
  {
    if name in AllExceptions then Some(AllExceptions[name]) else None
  }

  /** Every class is an AsimovExceptionBase. */
  lemma {:induction false} EverythingIsAsimovException(k: ErrorKind)
    ensures IsA(k, AsimovExceptionBase)
    decreases Depth(k)
  {
    if k != AsimovExceptionBase {
      EverythingIsAsimovException(Parent(k).value);
    }
  }

  /** Exactly the root and GameCompleted escape `except AsimovErrorBase`. */
  lemma ErrorsAreAllButRootAndCompleted(k: ErrorKind)
    ensures IsError(k) <==> k != AsimovExceptionBase && k != GameCompleted
  {
    if k != AsimovExceptionBase && k != GameCompleted && k != AsimovErrorBase {
      assert IsA(Parent(k).value, AsimovErrorBase) by {
        var p := Parent(k).value;
        if p != AsimovErrorBase {
          assert Parent(p) == Some(AsimovErrorBase);
        }
      }
    } else if k == GameCompleted {
      assert !IsA(AsimovExceptionBase, AsimovErrorBase);
    }
  }

  /** GameCompleted is an exception of the arena but not an error. */
  lemma GameCompletedIsNotAnError()
    ensures IsA(GameCompleted, AsimovExceptionBase)
    ensures !IsError(GameCompleted)
  {
    ErrorsAreAllButRootAndCompleted(GameCompleted);
  }

  /** NoSuchRoom and NoSuchPlayer sit directly under AsimovErrorBase: neither a
      player error nor a server error. */
  lemma NotFoundErrorsAreDirectErrors(k: ErrorKind)
    requires k == NoSuchRoom || k == NoSuchPlayer
    ensures Parent(k) == Some(AsimovErrorBase)
    ensures IsError(k) && !IsA(k, AsimovPlayerError) && !IsA(k, AsimovServerError)
  {
    assert !IsA(AsimovErrorBase, AsimovPlayerError) by { assert !IsA(AsimovExceptionBase, AsimovPlayerError); }
    assert !IsA(AsimovErrorBase, AsimovServerError) by { assert !IsA(AsimovExceptionBase, AsimovServerError); }
  }

  /** The player errors, exactly. */
  lemma PlayerErrors(k: ErrorKind)
    requires k != AsimovPlayerError
    ensures IsA(k, AsimovPlayerError) <==>
      k in {GameAlreadyStarted, UnauthorizedPlayer, GameNotRunning, NotPlayersTurn, GameFull}
  {
    assert !IsA(AsimovExceptionBase, AsimovPlayerError);
    assert !IsA(AsimovErrorBase, AsimovPlayerError);
    assert !IsA(AsimovServerError, AsimovPlayerError);
  }

  /** The server errors, exactly. */
  lemma ServerErrors(k: ErrorKind)
    requires k != AsimovServerError
    ensures IsA(k, AsimovServerError) <==>
      k in {UnauthorizedGameServer, PlayerNotInRoom, ExistingPlayer, IllegalMove}
  {
    assert !IsA(AsimovExceptionBase, AsimovServerError);
    assert !IsA(AsimovErrorBase, AsimovServerError);
    assert !IsA(AsimovPlayerError, AsimovServerError);
  }

  /** Class names identify classes, so a `fail` reply names its error unambiguously. */
  lemma ClassNameInjective(a: ErrorKind, b: ErrorKind)
    requires ClassName(a) == ClassName(b)
    ensures a == b
  {
  }
}

=== FILE: expect.dfy ===
/**
 * The receive wrapper of the game server (`utils/expect.py`): it drops the
 * null entries of the incoming data, rebuilds the message record, calls the
 * handler (with the caller's sid when there is a request context) and turns
 * a validation failure or an arena error into a `fail` reply, returned as a
 * value. Any other exception, GameCompleted included, escapes the wrapper.
 */
module Expect {
  import opened Wrappers
  import opened Json
  import opened Exceptions
  import opened Messages

  /** How a handler ends: with a value or by raising. */
  datatype Outcome<T> = Returned(value: T) | Raised(exc: Exc)

  /** What the wrapper gives back: the handler's value, a `("fail", data)`
      reply, or an exception it lets through. */
  datatype Reply<T> = Value(value: T) | Fail(data: Object) | Propagated(exc: Exc)

  function FailData(error: string, details: string): (r: Object)
    ensures r.Keys == {"error", "details"} && r["error"] == JString(error) && r["details"] == JString(details)
  {
    map["error" := JString(error), "details" := JString(details)]
  }

  /** The data the record is built from: missing data is an empty dict and
      null entries are gone. */
  function Cleaned(data: Option<Object>): (m: Object)
    ensures data.None? ==> m == map[]
    ensures data.Some? ==> m == StripNulls(data.value)
    ensures forall key :: key in m ==> m[key] != JNull
  {
    StripNulls(data.GetOr(map[]))
  }

  /** The wrapper, for a receiver of class k. `context` is the request's sid
      when there is a request context; `invalid` is the validator's text for
      a failed parse. */
  function Wrap<T>(k: Kind, data: Option<Object>, context: Option<string>, invalid: string,
                   handler: (Option<string>, Message) -> Outcome<T>): Reply<T>
  {
    var m := Cleaned(data);
    match Decode(k, m)
    case None => Fail(FailData("InputValidationError", invalid))
    case Some(msg) =>
      match handler(context, msg)
      case Returned(v) => Value(v)
      case Raised(e) =>
        if IsCaughtAsError(e) then Fail(FailData(Exceptions.ClassName(e.kind), Details(e.kind)))
        else Propagated(e)
  }

  /** Data that does not parse is refused before the handler runs, and only
      such data gets the InputValidationError reply. */
  lemma InvalidDataFails<T>(k: Kind, data: Option<Object>, context: Option<string>, invalid: string,
                            handler: (Option<string>, Message) -> Outcome<T>)
    ensures Decode(k, Cleaned(data)).None? <==>
      Wrap(k, data, context, invalid, handler) == Fail(FailData("InputValidationError", invalid))
  {
    if Decode(k, Cleaned(data)).Some? {
      var msg := Decode(k, Cleaned(data)).value;
      match handler(context, msg)
      case Returned(v) =>
      case Raised(e) =>
        if IsCaughtAsError(e) {
          NotAValidationError(e.kind);
          assert FailData(Exceptions.ClassName(e.kind), Details(e.kind))["error"] != JString("InputValidationError");
        }
    }
  }

  /** No arena error class is called InputValidationError. */
  lemma NotAValidationError(kind: ErrorKind)
    ensures Exceptions.ClassName(kind) != "InputValidationError"
  {
  }

  /** A value the handler returns is the wrapper's value. */
  lemma ValueReturned<T>(k: Kind, data: Option<Object>, context: Option<string>, invalid: string,
                         handler: (Option<string>, Message) -> Outcome<T>, v: T)
    requires Decode(k, Cleaned(data)).Some?
    requires handler(context, Decode(k, Cleaned(data)).value) == Returned(v)
    ensures Wrap(k, data, context, invalid, handler) == Value(v)
  {
  }

  /** Missing data is treated as an empty dict. */
  lemma MissingDataIsEmpty<T>(k: Kind, context: Option<string>, invalid: string, handler: (Option<string>, Message) -> Outcome<T>)
    ensures Wrap(k, None, context, invalid, handler) == Wrap(k, Some(map[]), context, invalid, handler)
  {
    assert StripNulls(map[]) == map[];
  }

  /** Null entries never reach the parser: stripping them first changes nothing. */
  lemma NullsAreIgnored<T>(k: Kind, data: Object, context: Option<string>, invalid: string,
                           handler: (Option<string>, Message) -> Outcome<T>)
    ensures Wrap(k, Some(data), context, invalid, handler) == Wrap(k, Some(StripNulls(data)), context, invalid, handler)
  {
    assert StripNulls(StripNulls(data)) == StripNulls(data);
  }

  /** A payload without nulls reaches the handler as the record it encodes;
      this is the case for every message the game server receives. */
  lemma PayloadReachesHandler<T>(m: Message, context: Option<string>, invalid: string,
                                 handler: (Option<string>, Message) -> Outcome<T>)
    requires m.RoomCreated? || m.Register? || m.PlayerMove?
    ensures handler(context, m).Returned? ==>
      Wrap(KindOf(m), Some(Payload(m)), context, invalid, handler) == Value(handler(context, m).value)
  {
    assert StripNulls(Payload(m)) == Payload(m);
    DecodePayload(m);
  }

  /** A built-in exception raised by the handler escapes the wrapper. */
  lemma BuiltinsEscape<T>(k: Kind, data: Option<Object>, context: Option<string>, invalid: string,
                          handler: (Option<string>, Message) -> Outcome<T>, name: string)
    requires Decode(k, Cleaned(data)).Some?
    requires handler(context, Decode(k, Cleaned(data)).value) == Raised(Builtin(name))
    ensures Wrap(k, data, context, invalid, handler) == Propagated(Builtin(name))
  {
  }

  /** GameCompleted is not an arena error: it escapes the wrapper unchanged. */
  lemma CompletionEscapes<T>(k: Kind, data: Option<Object>, context: Option<string>, invalid: string,
                             handler: (Option<string>, Message) -> Outcome<T>, message: string)
    requires Decode(k, Cleaned(data)).Some?
    requires handler(context, Decode(k, Cleaned(data)).value) == Raised(Asimov(GameCompleted, message))
    ensures Wrap(k, data, context, invalid, handler) == Propagated(Asimov(GameCompleted, message))
  {
    GameCompletedIsNotAnError();
  }

  /** An arena error comes back as a `fail` naming its class, with the class's
      fixed details and not the message it was raised with. */
  lemma ErrorsBecomeFail<T>(k: Kind, data: Option<Object>, context: Option<string>, invalid: string,
                            handler: (Option<string>, Message) -> Outcome<T>, kind: ErrorKind, message: string)
    requires Decode(k, Cleaned(data)).Some?
    requires handler(context, Decode(k, Cleaned(data)).value) == Raised(Asimov(kind, message))
    requires kind != AsimovExceptionBase && kind != GameCompleted
    ensures Wrap(k, data, context, invalid, handler) == Fail(FailData(Exceptions.ClassName(kind), Details(kind)))
  {
    ErrorsAreAllButRootAndCompleted(kind);
  }
}

=== FILE: gameserver.dfy ===
/**
 * The game-server client (`gameserver.py`): it opens a room at the broker,
 * seats the players the broker registers, counts the join acknowledgements,
 * announces the first state once the room is full, plays the moves it is
 * sent and reports the end of the game. It hosts a scissors-paper-rock game,
 * the one engine whose `make_move` matches the call the shared `move` makes.
 */
module GameServerClient {
  import opened Wrappers
  import opened Json
  import opened Exceptions
  import opened GameBase
  import opened Spr
  import opened Atomic
  import opened Messages
  import Schemas
  import Broker

  // The game state as it goes on the wire

  function ChoiceJson(c: Option<Choice>): Json {
    match c
    case None => JNull
    case Some(choice) => JString(Name(choice))
  }

  /** `show_board()` as JSON: `{"choices": {player: choice or null}}`, or null
      before there is a board. */
  function BoardJson(b: Option<map<PlayerId, Option<Choice>>>): (r: Json)
    ensures b.None? <==> r == JNull
    ensures b.Some? ==> r.JObject? && r.fields.Keys == {"choices"}
    ensures b.Some? ==> r.fields["choices"].JObject? && r.fields["choices"].fields.Keys == b.value.Keys
  {
    match b
    case None => JNull
    case Some(choices) => JObject(map["choices" := JObject(map p | p in choices :: ChoiceJson(choices[p]))])
  }

  /** The end-of-game record attached to the last update: whether the game
      ended normally, the scores, and for an illegal move the reason and the
      player at fault. */
  datatype FinishRecord = FinishRecord(normal: bool, scores: Scores, reason: Option<string>, fault: Option<PlayerId>)

  function FinishJson(f: FinishRecord): Json {
    JObject(map["normal" := JBool(f.normal), "scores" := ScoresJson(f.scores),
                "reason" := OptString(f.reason), "fault" := OptString(f.fault)])
  }

  /** A normal end: the game's own scores, no reason and nobody at fault. */
  function CompletedFinish(scores: Scores): (f: FinishRecord)
    ensures f.normal && f.scores == scores && f.reason.None? && f.fault.None?
  {
    FinishRecord(true, scores, None, None)
  }

  /** An illegal move ends the game abnormally with IllegalMove's details as
      the reason and the mover at fault; every seated player scores 1 except
      the mover, who scores -1. */
  function IllegalMoveFinish(players: seq<PlayerId>, mover: PlayerId): (f: FinishRecord)
    ensures !f.normal && f.reason == Some(Details(IllegalMove)) && f.fault == Some(mover)
    ensures f.scores.Keys == set p | p in players
    ensures mover in players ==> f.scores[mover] == -1
    ensures forall p :: p in f.scores && p != mover ==> f.scores[p] == 1
  {
    FinishRecord(false, map p | p in players :: if p == mover then -1 else 1, Some(Details(IllegalMove)), Some(mover))
  }

  /** In a two-player game an illegal move scores exactly as a win for the
      other player would. */
  lemma IllegalMoveIsOpponentWin(a: PlayerId, b: PlayerId)
    requires a != b
    ensures IllegalMoveFinish([a, b], a).scores == GameBase.Scores({a, b}, Some(b))
    ensures IllegalMoveFinish([b, a], a).scores == GameBase.Scores({a, b}, Some(b))
  {
    var s := GameBase.Scores({a, b}, Some(b));
    assert s[a] == -1 && s[b] == 1;
    assert IllegalMoveFinish([a, b], a).scores == s;
    assert IllegalMoveFinish([b, a], a).scores == s;
  }

  /** `asdict` of a broadcast GameUpdateMessage: `playerid` is null and the
      optional state id and turn are null when absent. */
  function UpdateData(roomid: string, epoch: int, board: Json, stateid: Option<string>, turn: Option<PlayerId>): (d: Object)
    ensures d.Keys == {"roomid", "visibility", "epoch", "board", "stateid", "playerid", "turn"}
    ensures d["visibility"] == JString("broadcast") && d["playerid"] == JNull
  {
    map["roomid" := JString(roomid), "visibility" := JString("broadcast"), "epoch" := JInt(epoch),
        "board" := board, "stateid" := OptString(stateid), "playerid" := JNull, "turn" := OptString(turn)]
  }

  /** The update that closes a game: the broadcast update with a `finish`
      entry. */
  function FinalData(roomid: string, epoch: int, board: Json, stateid: Option<string>, f: FinishRecord): (d: Object)
    ensures d.Keys == UpdateData(roomid, epoch, board, stateid, None).Keys + {"finish"}
    ensures d["turn"] == JNull && d["finish"] == FinishJson(f)
  {
    UpdateData(roomid, epoch, board, stateid, None)["finish" := FinishJson(f)]
  }

  function UpdateEvent(d: Object): (e: Event)
    ensures e.name == EventName(GameUpdateKind) && e.data == Some(d) && e.room.None? && e.callback.None?
  {
    Event(EventName(GameUpdateKind), Some(d), None, None)
  }

  /** An update with a board is the payload of the GameUpdateMessage it
      stands for, and the broker, dropping nulls before validating, accepts
      it whenever the ids have the id shape. */
  lemma UpdatesAccepted(roomid: string, epoch: int, board: Object, stateid: Option<string>, turn: Option<PlayerId>)
    requires Schemas.Matches(roomid, Schemas.IdClass, false)
    requires stateid.Some? ==> Schemas.Matches(stateid.value, Schemas.IdClass, false)
    requires turn.Some? ==> Schemas.Matches(turn.value, Schemas.IdClass, false)
    ensures UpdateData(roomid, epoch, JObject(board), stateid, turn)
         == Payload(GameUpdate(roomid, "broadcast", epoch, board, stateid, None, turn))
    ensures Broker.Accepts(GameUpdateKind, UpdateData(roomid, epoch, JObject(board), stateid, turn))
  {
    var m := GameUpdate(roomid, "broadcast", epoch, board, stateid, None, turn);
    assert UpdateData(roomid, epoch, JObject(board), stateid, turn) == Payload(m);
    Broker.ServerUpdatesAccepted(m);
  }

  /** The `finish` entry is not a property of the gameupdate schema, which
      forbids additional properties: the broker rejects every final update. */
  lemma FinalUpdatesRejected(roomid: string, epoch: int, board: Json, stateid: Option<string>, f: FinishRecord)
    ensures !Broker.Accepts(GameUpdateKind, FinalData(roomid, epoch, board, stateid, f))
  {
    var d := StripNulls(FinalData(roomid, epoch, board, stateid, f));
    assert "finish" in d;
  }

  /** The turn as the source sends it: the engine's index, which the
      scissors-paper-rock game holds as the integer 0 or as `True` once the
      first choice is made. */
  function TurnAsWritten(turn: Option<nat>): Json {
    match turn
    case None => JNull
    case Some(0) => JInt(0)
    case Some(_) => JBool(true)
  }

  /** Sent as an index, a turn fails the schema's "null or player id" test,
      so the broker rejects the update. */
  lemma IndexTurnRejected(d: Object, turn: Option<nat>)
    requires turn.Some?
    ensures !Broker.Accepts(GameUpdateKind, d["turn" := TurnAsWritten(turn)])
  {
    var t := TurnAsWritten(turn);
    assert t.JInt? || t.JBool?;
    var s := StripNulls(d["turn" := t]);
    assert "turn" in s && s["turn"] == t;
  }

  /** `repr()` of an exception raised without arguments. */
  function Repr(k: ErrorKind): (r: string)
    ensures r == Exceptions.ClassName(k) + "()"
  {
    Exceptions.ClassName(k) + "()"
  }

  class GameServer {
    var game: ScissorsPaperRock
    const gameName: string
    /** The room name the server asks for. */
    const name: string
    var roomId: Option<string>
    const playerCounter: AtomicCounter
    const channel: Channel
    /** The RUN_ONCE setting. */
    const runOnce: bool
    var connected: bool

    ghost predicate Valid()
      reads this, game, game.base
    {
      game.Valid()
    }

    /** The player whose turn it is, as the id the schema asks for. */
    function TurnId(): (r: Option<PlayerId>)
      requires Valid()
      reads this, game, game.base
      ensures game.base.playing ==> r == Some(game.base.players[game.base.turn.value])
      ensures r.Some? ==> r.value in game.base.players
    {
      var b := game.base;
      if b.turn.Some? && b.turn.value < |b.players| then Some(b.players[b.turn.value]) else None
    }

    /** The room id starts unknown (the source declares it without a value). */
    constructor (gameName: string, name: string, runOnce: bool)
      ensures Valid() && fresh(game) && fresh(game.base) && fresh(playerCounter) && fresh(channel)
      ensures game.base.players == [] && !game.base.playing
      ensures this.gameName == gameName && this.name == name && this.runOnce == runOnce
      ensures roomId.None? && connected && playerCounter.value == 0 && channel.sent == []
    {
      game := new ScissorsPaperRock();
      this.gameName := gameName;
      this.name := name;
      this.runOnce := runOnce;
      roomId := None;
      playerCounter := new AtomicCounter(0);
      channel := new Channel();
      connected := true;
    }

    /** `initialize`: the acknowledgement count goes back to 0 and the broker
        is asked for a room for the game's number of players. */
    method Initialize()
      requires Valid()
      modifies playerCounter, channel
      ensures playerCounter.value == 0
      ensures channel.sent == old(channel.sent) + [Emitted(CreateRoom(name, gameName, game.base.maxPlayers), None, None)]
      ensures game.base.maxPlayers == 2
    {
      playerCounter.Set(0);
      Send(channel, CreateRoom(name, gameName, game.base.maxPlayers), None, None);
    }

    /** `on_roomcreated`: the broker's room id is kept. */
    method OnRoomCreated(roomid: string)
      modifies this`roomId
      ensures roomId == Some(roomid)
    {
      roomId := Some(roomid);
    }

    /** `on_joinacknowledgement`: ignored while no room is known; otherwise
        one more acknowledgement is counted, and the one that brings the count
        to the number of players announces the game with a broadcast update
        of the board, the player to move and the move number as epoch. The
        game's `start` does not exist; the game is already running once its
        second player is seated, so it changes nothing here. */
    method OnJoinAcknowledgement()
      requires Valid()
      modifies playerCounter, channel
      ensures roomId.None? ==> playerCounter.value == old(playerCounter.value) && channel.sent == old(channel.sent)
      ensures roomId.Some? ==> playerCounter.value == old(playerCounter.value) + 1
      ensures roomId.Some? && playerCounter.value == game.base.maxPlayers ==>
        channel.sent == old(channel.sent)
          + [UpdateEvent(UpdateData(roomId.value, game.base.movenumber, BoardJson(game.ShowBoard()), None, TurnId()))]
      ensures roomId.Some? && playerCounter.value != game.base.maxPlayers ==> channel.sent == old(channel.sent)
    {
      if roomId.None? {
        return;
      }
      var count := playerCounter.IncrementThenGet(1);
      if count == game.base.maxPlayers {
        var board := BoardJson(game.ShowBoard());
        channel.Emit(UpdateEvent(UpdateData(roomId.value, game.base.movenumber, board, None, TurnId())));
      }
    }

    /** `on_register`: the game seats the player and the broker gets a
        joinsuccess (scissors-paper-rock assigns no role), or, for a seated
        player or a full game, a joinfail whose reason is the exception's
        repr. */
    method OnRegister(playerid: string, roomid: string)
      requires Valid()
      modifies game.base`players, game.base`playing, game.base`turn, game.base`board, channel
      ensures Valid()
      ensures playerid in old(game.base.players) ==>
        && unchanged(game.base)
        && channel.sent == old(channel.sent) + [Emitted(JoinFail(playerid, roomid, Some(Repr(ExistingPlayer))), None, None)]
      ensures playerid !in old(game.base.players) && |old(game.base.players)| >= 2 ==>
        && unchanged(game.base)
        && channel.sent == old(channel.sent) + [Emitted(JoinFail(playerid, roomid, Some(Repr(GameFull))), None, None)]
      ensures playerid !in old(game.base.players) && |old(game.base.players)| < 2 ==>
        && game.base.players == old(game.base.players) + [playerid]
        && (game.base.playing <==> |game.base.players| == 2)
        && channel.sent == old(channel.sent) + [Emitted(JoinSuccess(playerid, roomid, None), None, None)]
    {
      var r := game.AddPlayer(playerid);
      match r
      case Ok(_) =>
        Send(channel, JoinSuccess(playerid, roomid, None), None, None);
      case Err(e) =>
        Send(channel, JoinFail(playerid, roomid, Some(Repr(e.kind))), None, None);
    }

    /** A move the game accepted without ending: a broadcast update of the
        board, the player now to move, the move number and the state id the
        move answered. */
    method AnnounceMove(roomid: string, stateid: string)
      requires Valid()
      modifies channel
      ensures channel.sent == old(channel.sent)
        + [UpdateEvent(UpdateData(roomid, game.base.movenumber, BoardJson(game.ShowBoard()), Some(stateid), TurnId()))]
    {
      var board := BoardJson(game.ShowBoard());
      channel.Emit(UpdateEvent(UpdateData(roomid, game.base.movenumber, board, Some(stateid), TurnId())));
    }

    /** GameCompleted: the game stops and its scores close the game in a
        final update without a turn. */
    method CloseGame(roomid: string, stateid: string) returns (f: FinishRecord)
      requires Valid() && game.base.board.Some?
      requires game.base.board.value[0].Some? && game.base.board.value[1].Some?
      modifies game.base`playing, game.base`winner, channel
      ensures Valid() && !game.base.playing
      ensures f.normal && f.reason.None? && f.fault.None?
      ensures var first, second := game.base.board.value[0].value, game.base.board.value[1].value;
        var players := game.base.players;
        && f.scores.Keys == {players[0], players[1]}
        && (f.scores[players[0]] == 1 <==> FirstWins(first, second))
        && f.scores[players[0]] == -f.scores[players[1]]
      ensures channel.sent == old(channel.sent)
        + [UpdateEvent(FinalData(roomid, game.base.movenumber, BoardJson(game.ShowBoard()), Some(stateid), f))]
    {
      game.base.playing := false;
      var scores := game.Score();
      f := CompletedFinish(scores);
      var board := BoardJson(game.ShowBoard());
      channel.Emit(UpdateEvent(FinalData(roomid, game.base.movenumber, board, Some(stateid), f)));
    }

    /** After a completed game the server disconnects in run-once mode, and
        otherwise replaces the game by a fresh one and asks for a new room. */
    method Restart()
      requires Valid()
      modifies this`game, this`connected, playerCounter, channel
      ensures Valid()
      ensures runOnce ==>
        && !connected && game == old(game) && playerCounter.value == old(playerCounter.value)
        && channel.sent == old(channel.sent)
      ensures !runOnce ==>
        && connected == old(connected) && fresh(game) && game.base.players == [] && !game.base.playing
        && playerCounter.value == 0
        && channel.sent == old(channel.sent) + [Emitted(CreateRoom(name, gameName, 2), None, None)]
    {
      if runOnce {
        connected := false;
      } else {
        game := new ScissorsPaperRock();
        Initialize();
      }
    }

    /** GameCompleted, as `on_playermove` handles it: the game is closed with
        its scores, then the server restarts or disconnects. */
    method Complete(roomid: string, stateid: string) returns (f: FinishRecord)
      requires Valid() && game.base.board.Some?
      requires game.base.board.value[0].Some? && game.base.board.value[1].Some?
      modifies this`game, this`connected, playerCounter, channel, game.base`playing, game.base`winner
      ensures Valid()
      ensures f.normal && old(game).Valid() && !old(game).base.playing
      ensures |channel.sent| > |old(channel.sent)|
      ensures channel.sent[|old(channel.sent)|]
        == UpdateEvent(FinalData(roomid, old(game).base.movenumber, BoardJson(old(game).ShowBoard()), Some(stateid), f))
      ensures runOnce ==> !connected
      ensures !runOnce ==> fresh(game) && game.base.players == [] && playerCounter.value == 0
      ensures var g := old(game);
        && g.Valid() && g.base.board.Some? && g.base.board.value[0].Some? && g.base.board.value[1].Some?
        && f.scores.Keys == {g.base.players[0], g.base.players[1]}
        && (f.scores[g.base.players[0]] == 1 <==> FirstWins(g.base.board.value[0].value, g.base.board.value[1].value))
        && f.scores[g.base.players[0]] == -f.scores[g.base.players[1]]
    {
      f := CloseGame(roomid, stateid);
      Restart();
    }

    /** IllegalMove: a final update for the server's own room, without state
        id or turn, whose record names the mover. */
    method RejectMove(mover: PlayerId) returns (f: FinishRecord)
      requires Valid() && roomId.Some?
      modifies channel
      ensures f == IllegalMoveFinish(game.base.players, mover)
      ensures channel.sent == old(channel.sent)
        + [UpdateEvent(FinalData(roomId.value, game.base.movenumber, BoardJson(game.ShowBoard()), None, f))]
    {
      f := IllegalMoveFinish(game.base.players, mover);
      var board := BoardJson(game.ShowBoard());
      channel.Emit(UpdateEvent(FinalData(roomId.value, game.base.movenumber, board, None, f)));
    }

    /** `on_playermove`: without a room the assertion fails; otherwise the
        move goes to the game. A move that neither ends nor breaks the game is
        announced; GameCompleted finishes the game; any other exception (a game
        not running, a player out of turn, a malformed move) leaves the
        handler with nothing sent. The `except IllegalMove` branch is never
        taken, because scissors-paper-rock raises no IllegalMove.
        `finish` is the record a final update carried and `raised` the
        exception that escaped. */
    method OnPlayerMove(playerid: string, roomid: string, move: Object, stateid: string)
      returns (outcome: MoveOutcome, finish: Option<FinishRecord>, raised: Option<Exc>)
      requires Valid()
      modifies this`game, this`connected, playerCounter, channel
      modifies game.base`board, game.base`turn, game.base`movenumber, game.base`playing, game.base`winner
      ensures Valid()
      ensures old(roomId).None? ==>
        && raised == Some(Builtin("AssertionError")) && finish.None?
        && game == old(game) && unchanged(game.base) && channel.sent == old(channel.sent)
      ensures old(roomId).Some? && !old(game.base.playing) ==>
        && outcome == Raised(Asimov(GameNotRunning, "")) && raised == Some(outcome.e)
        && game == old(game) && unchanged(game.base) && channel.sent == old(channel.sent)
      ensures old(roomId).Some? && old(game.base.playing) && old(game.base.players[game.base.turn.value]) != playerid ==>
        && outcome == Raised(Asimov(NotPlayersTurn, "")) && raised == Some(outcome.e)
        && game == old(game) && unchanged(game.base) && channel.sent == old(channel.sent)
      ensures old(roomId).Some? && outcome.Continue? ==>
        && raised.None? && finish.None? && game == old(game) && game.base.playing
        && channel.sent == old(channel.sent)
          + [UpdateEvent(UpdateData(roomid, game.base.movenumber, BoardJson(game.ShowBoard()), Some(stateid), TurnId()))]
      ensures old(roomId).Some? && outcome.Completed? ==>
        && raised.None? && finish.Some? && finish.value.normal && old(game).Valid() && !old(game).base.playing
        && |channel.sent| > |old(channel.sent)|
        && channel.sent[|old(channel.sent)|]
          == UpdateEvent(FinalData(roomid, old(game).base.movenumber, BoardJson(old(game).ShowBoard()), Some(stateid), finish.value))
        && (runOnce ==> !connected)
        && (!runOnce ==> fresh(game) && game.base.players == [] && playerCounter.value == 0)
      ensures old(roomId).Some? && outcome.Completed? ==>
        var g := old(game);
        && g.Valid() && g.base.board.Some? && g.base.board.value[0].Some? && g.base.board.value[1].Some?
        && finish.Some? && finish.value.scores.Keys == {g.base.players[0], g.base.players[1]}
        && (finish.value.scores[g.base.players[0]] == 1
            <==> FirstWins(g.base.board.value[0].value, g.base.board.value[1].value))
        && finish.value.scores[g.base.players[0]] == -finish.value.scores[g.base.players[1]]
      ensures old(roomId).Some? && outcome.Raised? ==>
        && !(outcome.e.Asimov? && outcome.e.kind == IllegalMove)
        && raised == Some(outcome.e) && finish.None? && channel.sent == old(channel.sent)
    {
      if roomId.None? {
        outcome := Raised(Builtin("AssertionError"));
        return outcome, None, Some(outcome.e);
      }
      var shown;
      outcome, shown := game.Move(playerid, move);
      match outcome
      case Continue =>
        AnnounceMove(roomid, stateid);
        finish, raised := None, None;
      case Completed =>
        var f := Complete(roomid, stateid);
        finish, raised := Some(f), None;
      case Raised(e) =>
        if e.Asimov? && e.kind == IllegalMove {
          // Scissors-paper-rock raises no IllegalMove, so the `except
          // IllegalMove` branch and its `RejectMove` are not reached.
          assert false;
        } else {
          finish, raised := None, Some(e);
        }
    }
  }
}

=== FILE: hexcolor.dfy ===
/**
 * `hexToRgb` of the web client's common styles: a CSS hex colour ("#rgb" or
 * "#rrggbb") turned into the "R, G, B" text that goes inside `rgba(...)`.
 * Numbers are parsed as the `parseInt` of ECMAScript does with radix 16
 * (ECMA-262, section 19.2.5): leading white space, then an optional sign,
 * then an optional "0x" prefix, then the longest run of hex digits, and NaN
 * when that run is empty.
 */
module HexColor {
  import opened Wrappers

  /** The message of the Error the function throws. */
  const InvalidColor := "input is not a valid hex color."

  predicate IsHexDigit(c: char) {
    ('0' <= c <= '9') || ('a' <= c <= 'f') || ('A' <= c <= 'F')
  }

  function HexValue(c: char): (v: nat)
    requires IsHexDigit(c)
    ensures v < 16
  {
    if '0' <= c <= '9' then c as int - '0' as int
    else if 'a' <= c <= 'f' then c as int - 'a' as int + 10
    else c as int - 'A' as int + 10
  }

  /** The lower-case digit for a value below 16. */
  function HexDigit(v: nat): (c: char)
    requires v < 16
    ensures IsHexDigit(c) && HexValue(c) == v
  {
    if v < 10 then ('0' as int + v) as char else ('a' as int + v - 10) as char
  }

  /** `toUpperCase` on the ASCII letters. */
  function UpperChar(c: char): (u: char)
    ensures IsHexDigit(c) <==> IsHexDigit(u)
    ensures IsHexDigit(c) ==> HexValue(u) == HexValue(c)
    ensures c == '#' <==> u == '#'
  {
    if 'a' <= c <= 'z' then (c as int - 32) as char else c
  }

  function Upper(s: string): (u: string)
    ensures |u| == |s| && forall i :: 0 <= i < |s| ==> u[i] == UpperChar(s[i])
  {
    seq(|s|, i requires 0 <= i < |s| => UpperChar(s[i]))
  }

  /** `replace('#', '')`: only the first '#' goes. */
  function StripHash(s: string): (r: string)
    ensures '#' !in s ==> r == s
    ensures '#' in s ==> |r| == |s| - 1
  {
    if s == [] then []
    else if s[0] == '#' then s[1..]
    else [s[0]] + StripHash(s[1..])
  }

  /** `/[0-9A-Fa-f]/g.test(out)` on a fresh expression: some hex digit occurs. */
  predicate HasHexDigit(s: string) {
    exists i :: 0 <= i < |s| && IsHexDigit(s[i])
  }

  /** The three-digit form with each digit doubled. */
  function Expand(out: string): (r: string)
    ensures |out| == 3 ==> r == [out[0], out[0], out[1], out[1], out[2], out[2]]
    ensures |out| != 3 ==> r == out
  {
    if |out| == 3 then [out[0], out[0], out[1], out[1], out[2], out[2]] else out
  }

  // parseInt(s, 16)

  /** The result of `parseInt`: NaN or an integer (for two characters the
      only values it can take). */
  datatype Num = NaN | Int(v: int)

  /** The StrWhiteSpaceChar code points `parseInt` skips: white space (tab,
      vertical tab, form feed, space, no-break space, zero width no-break
      space, the space separators) and the line terminators. */
  predicate IsWhiteSpace(c: char) {
    var n := c as int;
    || n == 0x09 || n == 0x0B || n == 0x0C || n == 0x20 || n == 0xA0 || n == 0xFEFF
    || n == 0x0A || n == 0x0D || n == 0x2028 || n == 0x2029
    || n == 0x1680 || (0x2000 <= n <= 0x200A) || n == 0x202F || n == 0x205F || n == 0x3000
  }

  function TrimStart(s: string): string {
    if s != [] && IsWhiteSpace(s[0]) then TrimStart(s[1..]) else s
  }

  /** The longest prefix made of hex digits. */
  function HexRun(s: string): (r: string)
    ensures forall i :: 0 <= i < |r| ==> IsHexDigit(r[i])
  {
    if s != [] && IsHexDigit(s[0]) then [s[0]] + HexRun(s[1..]) else []
  }

  /** The value of a run of hex digits, most significant first. */
  function HexNumber(z: string): nat
    requires forall i :: 0 <= i < |z| ==> IsHexDigit(z[i])
  {
    if z == [] then 0 else 16 * HexNumber(z[..|z| - 1]) + HexValue(z[|z| - 1])
  }

  function ParseHexInt(s: string): (n: Num) {
    var t := TrimStart(s);
    var sign := if t != [] && t[0] == '-' then -1 else 1;
    var u := if t != [] && (t[0] == '-' || t[0] == '+') then t[1..] else t;
    var w := if |u| >= 2 && u[0] == '0' && (u[1] == 'x' || u[1] == 'X') then u[2..] else u;
    var z := HexRun(w);
    if z == [] then NaN else Int(sign * HexNumber(z))
  }

  /** `parseInt` on a text of two characters, case by case: a leading white
      space or '+' leaves the second character alone, a leading '-' negates
      it, "0x" leaves no digits, and otherwise the hex run is one or two
      digits long. */
  function ParsePair(a: char, b: char): (n: Num)
    ensures n.Int? ==> IsHexDigit(a) || IsHexDigit(b)
    ensures n.Int? ==> -15 <= n.v <= 255
  {
    if IsWhiteSpace(a) || a == '+' then
      (if IsHexDigit(b) then Int(HexValue(b)) else NaN)
    else if a == '-' then
      (if IsHexDigit(b) then Int(-(HexValue(b) as int)) else NaN)
    else if !IsHexDigit(a) || (a == '0' && (b == 'x' || b == 'X')) then NaN
    else if IsHexDigit(b) then Int(16 * HexValue(a) + HexValue(b))
    else Int(HexValue(a))
  }

  lemma RunOfOne(b: char)
    ensures HexRun([b]) == if IsHexDigit(b) then [b] else []
    ensures IsHexDigit(b) ==> HexNumber([b]) == HexValue(b)
  {
    assert [b][1..] == [];
    assert [b][..0] == [];
  }

  lemma RunOfTwo(a: char, b: char)
    requires IsHexDigit(a)
    ensures HexRun([a, b]) == if IsHexDigit(b) then [a, b] else [a]
    ensures IsHexDigit(b) ==> HexNumber([a, b]) == 16 * HexValue(a) + HexValue(b)
  {
    assert [a, b][1..] == [b];
    RunOfOne(b);
    RunOfOne(a);
    assert [a, b][..1] == [a];
  }

  /** After leading white space only the second character is read. */
  lemma ParseAfterWhiteSpace(a: char, b: char)
    requires IsWhiteSpace(a)
    ensures ParseHexInt([a, b]) == ParsePair(a, b)
  {
    assert [a, b][1..] == [b];
    assert TrimStart([a, b]) == TrimStart([b]);
    if IsWhiteSpace(b) {
      assert [b][1..] == [];
      assert TrimStart([b]) == [];
    } else {
      assert TrimStart([b]) == [b];
      assert [b][1..] == [];
      RunOfOne(b);
    }
  }

  /** After a sign only the second character is read. */
  lemma ParseAfterSign(a: char, b: char)
    requires !IsWhiteSpace(a) && (a == '-' || a == '+')
    ensures ParseHexInt([a, b]) == ParsePair(a, b)
  {
    assert TrimStart([a, b]) == [a, b];
    assert [a, b][1..] == [b];
    RunOfOne(b);
  }

  /** Without white space or sign, both characters may be digits. */
  lemma ParseDigits(a: char, b: char)
    requires !IsWhiteSpace(a) && a != '-' && a != '+'
    ensures ParseHexInt([a, b]) == ParsePair(a, b)
  {
    assert TrimStart([a, b]) == [a, b];
    if a == '0' && (b == 'x' || b == 'X') {
      assert [a, b][2..] == [];
    } else if IsHexDigit(a) {
      RunOfTwo(a, b);
      RunOfOne(a);
    }
  }

  /** The case-by-case reading agrees with `parseInt` on every two
      characters. */
  lemma ParsePairIsParseInt(a: char, b: char)
    ensures ParseHexInt([a, b]) == ParsePair(a, b)
  {
    if IsWhiteSpace(a) {
      ParseAfterWhiteSpace(a, b);
    } else if a == '-' || a == '+' {
      ParseAfterSign(a, b);
    } else {
      ParseDigits(a, b);
    }
  }

  // Rendering "R, G, B"

  function DecimalDigits(n: nat): (s: string)
    ensures |s| >= 1 && forall i :: 0 <= i < |s| ==> '0' <= s[i] <= '9'
  {
    if n < 10 then [('0' as int + n) as char]
    else DecimalDigits(n / 10) + [('0' as int + n % 10) as char]
  }

  /** `String(n)`: "NaN", or the integer in decimal (negative with a sign). */
  function Show(n: Num): string {
    match n
    case NaN => "NaN"
    case Int(v) => if v < 0 then "-" + DecimalDigits(-v) else DecimalDigits(v)
  }

  function Render(r: Num, g: Num, b: Num): string {
    Show(r) + ", " + Show(g) + ", " + Show(b)
  }

  /** The text after the first '#' is removed, checked, expanded and
      upper-cased. */
  function Normalised(input: string): string {
    Upper(Expand(StripHash(input)))
  }

  /** `hexToRgb` as written: the input is refused only when, once the first
      '#' is gone, no hex digit is left or the length is neither 3 nor 6;
      then each pair of the expanded, upper-cased text goes through
      `parseInt`. */
  function HexToRgb(input: string): (r: Result<string, string>)
    ensures r.Err? <==> !HasHexDigit(StripHash(input)) || |StripHash(input)| !in {3, 6}
    ensures r.Err? ==> r.error == InvalidColor
    ensures r.Ok? ==> |Normalised(input)| == 6
  {
    var out := StripHash(input);
    if !HasHexDigit(out) || (|out| != 3 && |out| != 6) then Err(InvalidColor)
    else
      var o := Normalised(input);
      Ok(Render(ParsePair(o[0], o[1]), ParsePair(o[2], o[3]), ParsePair(o[4], o[5])))
  }

  /** The leading '#' is optional: with or without it the result is the same. */
  lemma HashIsOptional(s: string)
    requires '#' !in s
    ensures HexToRgb("#" + s) == HexToRgb(s)
  {
    assert ("#" + s)[1..] == s;
  }

  /** "#abc" is "#aabbcc". */
  lemma ShortFormDoubles(s: string)
    requires |s| == 3 && '#' !in s
    ensures HexToRgb(s) == HexToRgb([s[0], s[0], s[1], s[1], s[2], s[2]])
  {
    var long := [s[0], s[0], s[1], s[1], s[2], s[2]];
    assert '#' !in long by {
      assert forall i :: 0 <= i < 6 ==> long[i] in s;
    }
    assert HasHexDigit(s) <==> HasHexDigit(long) by {
      if HasHexDigit(s) {
        var i :| 0 <= i < 3 && IsHexDigit(s[i]);
        assert long[2 * i] == s[i];
      }
      if HasHexDigit(long) {
        var i :| 0 <= i < 6 && IsHexDigit(long[i]);
        assert long[i] == s[i / 2];
      }
    }
  }

  lemma {:induction false} StripHashUpper(s: string)
    ensures StripHash(Upper(s)) == Upper(StripHash(s))
    decreases |s|
  {
    if s != [] {
      assert Upper(s)[1..] == Upper(s[1..]);
      if s[0] != '#' {
        StripHashUpper(s[1..]);
        assert Upper([s[0]] + StripHash(s[1..])) == [UpperChar(s[0])] + Upper(StripHash(s[1..]));
      }
    }
  }

  /** Upper- and lower-case digits give the same colour. */
  lemma CaseInsensitive(s: string)
    ensures HexToRgb(Upper(s)) == HexToRgb(s)
  {
    StripHashUpper(s);
    var out := StripHash(s);
    assert HasHexDigit(Upper(out)) <==> HasHexDigit(out) by {
      if HasHexDigit(out) {
        var i :| 0 <= i < |out| && IsHexDigit(out[i]);
        assert IsHexDigit(Upper(out)[i]);
      }
    }
    assert Expand(Upper(out)) == Upper(Expand(out));
    assert Upper(Upper(Expand(out))) == Upper(Expand(out));
  }

  /** The digits of a colour component in lower case, as CSS writes them. */
  function Hex2(n: nat): (s: string)
    requires n < 256
    ensures |s| == 2 && IsHexDigit(s[0]) && IsHexDigit(s[1])
    ensures 16 * HexValue(s[0]) + HexValue(s[1]) == n
  {
    [HexDigit(n / 16), HexDigit(n % 16)]
  }

  /** Six hex digits, in either case, parse pair by pair. */
  lemma SixDigits(s: string)
    requires |s| == 6 && AllHex(s)
    ensures '#' !in s && HasHexDigit(s)
    ensures HexToRgb(s) == Ok(Render(Int(PairValue(s, 0)), Int(PairValue(s, 2)), Int(PairValue(s, 4))))
  {
    assert IsHexDigit(s[0]);
    assert '#' !in s by {
      assert forall i :: 0 <= i < |s| ==> s[i] != '#';
    }
    AsWrittenOnHex(s);
  }

  /** Writing a colour as "#rrggbb" and reading it back gives its components. */
  lemma RoundTrip(r: nat, g: nat, b: nat)
    requires r < 256 && g < 256 && b < 256
    ensures HexToRgb("#" + (Hex2(r) + Hex2(g) + Hex2(b))) == Ok(Render(Int(r), Int(g), Int(b)))
  {
    var s := Hex2(r) + Hex2(g) + Hex2(b);
    assert s[0] == Hex2(r)[0] && s[1] == Hex2(r)[1] && s[2] == Hex2(g)[0];
    assert s[3] == Hex2(g)[1] && s[4] == Hex2(b)[0] && s[5] == Hex2(b)[1];
    SixDigits(s);
    assert PairValue(s, 0) == r && PairValue(s, 2) == g && PairValue(s, 4) == b;
    HashIsOptional(s);
  }

  /** A grey: one digit six times. */
  lemma GreyParses(d: char)
    requires IsHexDigit(d)
    ensures HexToRgb([d, d, d, d, d, d]) == Ok(Render(Int(17 * HexValue(d)), Int(17 * HexValue(d)), Int(17 * HexValue(d))))
  {
    var long := [d, d, d, d, d, d];
    assert AllHex(long);
    SixDigits(long);
    var v := 17 * HexValue(d);
    assert PairValue(long, 0) == v && PairValue(long, 2) == v && PairValue(long, 4) == v;
  }

  // Proof steps of BlackIsZero and NonHexAccepted, kept apart so that each
  // literal is unfolded in a small context.

  lemma RenderBlack()
    ensures Render(Int(0), Int(0), Int(0)) == "0, 0, 0"
  {
    var zero := Show(Int(0));
    assert zero == "0";
    assert zero + ", " + zero + ", " + zero == "0" + ", " + "0" + ", " + "0";
  }

  lemma ZerosParse(zeros: string)
    requires zeros == "000000"
    ensures HexToRgb(zeros) == Ok(Render(Int(0), Int(0), Int(0)))
  {
    GreyParses('0');
    assert zeros == ['0', '0', '0', '0', '0', '0'];
  }

  lemma ShortZeros()
    ensures HexToRgb("#000") == HexToRgb("000000")
  {
    var short := "000";
    HashIsOptional(short);
    ShortFormDoubles(short);
    assert [short[0], short[0], short[1], short[1], short[2], short[2]] == "000000";
  }

  /** The shadow colour of `boxShadow`. */
  lemma BlackIsZero()
    ensures HexToRgb("#000") == Ok("0, 0, 0")
  {
    ShortZeros();
    ZerosParse("000000");
    RenderBlack();
  }

  lemma TwoDecimalDigits(n: nat)
    requires 10 <= n < 100
    ensures DecimalDigits(n) == [('0' as int + n / 10) as char, ('0' as int + n % 10) as char]
  {
  }

  lemma RenderExample()
    ensures Render(Int(18), Int(52), Int(5)) == "18, 52, 5"
  {
    TwoDecimalDigits(18);
    TwoDecimalDigits(52);
    var r, g, b := Show(Int(18)), Show(Int(52)), Show(Int(5));
    assert r == "18" && g == "52" && b == "5";
    assert r + ", " + g + ", " + b == "18" + ", " + "52" + ", " + "5";
  }

  /** A checked input's text, as the pairs `parseInt` reads. */
  lemma CheckedPairs(input: string)
    requires HexToRgb(input).Ok?
    ensures var o := Normalised(input);
      HexToRgb(input) == Ok(Render(ParsePair(o[0], o[1]), ParsePair(o[2], o[3]), ParsePair(o[4], o[5])))
  {
  }

  /** Six characters whose last one is not a hex digit pass the check as
      written, and the last pair is cut down to its first digit. */
  lemma LastPairCut(s: string)
    requires |s| == 6 && '#' !in s
    requires forall i :: 0 <= i < 5 ==> IsHexDigit(s[i])
    requires !IsHexDigit(s[5]) && !(UpperChar(s[4]) == '0' && UpperChar(s[5]) in {'x', 'X'})
    ensures HexToRgb(s) == Ok(Render(Int(PairValue(s, 0)), Int(PairValue(s, 2)), Int(HexValue(s[4]))))
  {
    assert HasHexDigit(s) by { assert IsHexDigit(s[0]); }
    CheckedPairs(s);
    var o := Normalised(s);
    assert o == Upper(s);
    ParseUpperPair(s, o, 0);
    ParseUpperPair(s, o, 2);
    assert o[4] == UpperChar(s[4]) && o[5] == UpperChar(s[5]);
  }

  /** As written a single hex digit is enough for the check: "#12345G" is
      accepted and its last pair is cut at the G. */
  lemma NonHexAccepted()
    ensures HexToRgb("#12345G") == Ok("18, 52, 5")
  {
    var s := "12345G";
    assert '#' !in s;
    LastPairCut(s);
    HashIsOptional(s);
    RenderExample();
  }

  // The check as intended: every character a hex digit

  datatype Rgb = Rgb(red: nat, green: nat, blue: nat)

  predicate AllHex(s: string) {
    forall i :: 0 <= i < |s| ==> IsHexDigit(s[i])
  }

  /** The component written by the two digits at i. */
  function PairValue(e: string, i: nat): (v: nat)
    requires i + 1 < |e| && IsHexDigit(e[i]) && IsHexDigit(e[i + 1])
    ensures v < 256
  {
    16 * HexValue(e[i]) + HexValue(e[i + 1])
  }

  /** The colour as intended: only three or six hex digits (after the first
      '#') are a colour, and each component is 0 to 255. */
  function ParseColor(input: string): (r: Result<Rgb, string>)
    ensures r.Err? <==> !AllHex(StripHash(input)) || |StripHash(input)| !in {3, 6}
    ensures r.Err? ==> r.error == InvalidColor
    ensures r.Ok? ==> r.value.red < 256 && r.value.green < 256 && r.value.blue < 256
  {
    var out := StripHash(input);
    if !AllHex(out) || (|out| != 3 && |out| != 6) then Err(InvalidColor)
    else
      var e := Expand(out);
      Ok(Rgb(PairValue(e, 0), PairValue(e, 2), PairValue(e, 4)))
  }

  function HexToRgbChecked(input: string): (r: Result<string, string>)
    ensures r.Err? <==> ParseColor(input).Err?
  {
    match ParseColor(input)
    case Err(e) => Err(e)
    case Ok(c) => Ok(Render(Int(c.red), Int(c.green), Int(c.blue)))
  }

  /** A pair of digits reads the same upper-cased. */
  lemma ParseUpperPair(e: string, o: string, i: nat)
    requires o == Upper(e)
    requires i + 1 < |e| && IsHexDigit(e[i]) && IsHexDigit(e[i + 1])
    ensures ParsePair(o[i], o[i + 1]) == Int(PairValue(e, i))
  {
    assert o[i] == UpperChar(e[i]) && o[i + 1] == UpperChar(e[i + 1]);
  }

  /** Three or six hex digits expand to six hex digits. */
  lemma ExpandedHex(out: string)
    requires AllHex(out) && |out| in {3, 6}
    ensures |Expand(out)| == 6 && AllHex(Expand(out))
  {
  }

  /** The three pairs of an upper-cased text of six hex digits. */
  lemma UpperPairs(e: string, o: string)
    requires |e| == 6 && AllHex(e) && o == Upper(e)
    ensures ParsePair(o[0], o[1]) == Int(PairValue(e, 0))
    ensures ParsePair(o[2], o[3]) == Int(PairValue(e, 2))
    ensures ParsePair(o[4], o[5]) == Int(PairValue(e, 4))
  {
    ParseUpperPair(e, o, 0);
    ParseUpperPair(e, o, 2);
    ParseUpperPair(e, o, 4);
  }

  /** On hex-only input the code as written reads the expanded digits pair
      by pair. */
  lemma AsWrittenOnHex(input: string)
    requires AllHex(StripHash(input)) && |StripHash(input)| in {3, 6}
    ensures var e := Expand(StripHash(input));
      && |e| == 6 && AllHex(e)
      && HexToRgb(input) == Ok(Render(Int(PairValue(e, 0)), Int(PairValue(e, 2)), Int(PairValue(e, 4))))
  {
    var out := StripHash(input);
    ExpandedHex(out);
    assert HasHexDigit(out) by { assert IsHexDigit(out[0]); }
    CheckedPairs(input);
    UpperPairs(Expand(out), Normalised(input));
  }

  /** On hex-only input the check as intended agrees with the code as
      written; it refuses what the code as written lets through. */
  lemma CheckedAgreesOnHex(input: string)
    requires AllHex(StripHash(input)) && |StripHash(input)| in {3, 6}
    ensures HexToRgbChecked(input) == HexToRgb(input)
  {
    AsWrittenOnHex(input);
  }

  /** Reading "#rrggbb" gives back the colour that was written. */
  lemma ColorRoundTrip(c: Rgb)
    requires c.red < 256 && c.green < 256 && c.blue < 256
    ensures ParseColor("#" + (Hex2(c.red) + Hex2(c.green) + Hex2(c.blue))) == Ok(c)
  {
    var s := Hex2(c.red) + Hex2(c.green) + Hex2(c.blue);
    assert s[0] == Hex2(c.red)[0] && s[1] == Hex2(c.red)[1] && s[2] == Hex2(c.green)[0];
    assert s[3] == Hex2(c.green)[1] && s[4] == Hex2(c.blue)[0] && s[5] == Hex2(c.blue)[1];
    assert '#' !in s by {
      assert forall i :: 0 <= i < 6 ==> IsHexDigit(s[i]);
    }
    assert ("#" + s)[1..] == s;
  }
}

=== FILE: json.dfy ===
/** JSON values as they travel between the broker and its clients. Numbers are
    integers only: no field of the protocol carries a fraction. */
module Json {

  datatype Json =
    | JNull
    | JBool(b: bool)
    | JInt(i: int)
    | JString(s: string)
    | JArray(items: seq<Json>)
    | JObject(fields: map<string, Json>)

  /** A JSON object: the `data` dict a handler receives. */
  type Object = map<string, Json>

  /** `{k: v for k, v in data.items() if v is not None}` */
  function StripNulls(d: Object): (r: Object)
    ensures r.Keys <= d.Keys
    ensures forall k :: k in d ==> (k in r <==> d[k] != JNull)
    ensures forall k :: k in r ==> r[k] == d[k]
  {
    map k | k in d && d[k] != JNull :: d[k]
  }
}

=== FILE: kalaha.dfy ===
/**
 * The Kalaha (6, 6) rule engine. The board has two rows of six pits and one
 * bank per side. `PathOrders` lists its fourteen positions in sowing order;
 * the model stores the board as the fourteen stone counts in that order
 * (`pits_a[0..5]`, `bank_a`, `pits_b[0..5]`, `bank_b`), and a move walks the
 * positions cyclically from the chosen pit, skipping the opponent's bank.
 */
module Kalaha {
  import opened Wrappers
  import opened Exceptions
  import GameBase

  type PlayerId = string

  /** The two game roles, "a" and "b". */
  datatype Role = A | B

  function Other(current: Role): (r: Role)
    ensures r != current
  {
    if current == B then A else B
  }

  lemma OtherIsInvolution(r: Role)
    ensures Other(Other(r)) == r
  {
  }

  /** A position on the board: `["pits_a", i]`, `["bank_a"]`, ... */
  datatype Path = Pit(side: Role, idx: int) | Bank(side: Role)

  predicate ValidPath(p: Path) {
    p.Pit? ==> 0 <= p.idx < 6
  }

  /** The fourteen stone counts in `PathOrders` order. */
  type Board = seq<int>

  predicate WellFormed(b: Board) {
    |b| == 14
  }

  predicate NonNegative(b: Board) {
    forall i :: 0 <= i < |b| ==> b[i] >= 0
  }

  const PathOrders: seq<Path> := [
    Pit(A, 0), Pit(A, 1), Pit(A, 2), Pit(A, 3), Pit(A, 4), Pit(A, 5), Bank(A),
    Pit(B, 0), Pit(B, 1), Pit(B, 2), Pit(B, 3), Pit(B, 4), Pit(B, 5), Bank(B)
  ]

  /** Where a path sits in `PathOrders`. */
  function Index(p: Path): (i: nat)
    requires ValidPath(p)
    ensures i < 14 && PathOrders[i] == p
  {
    match p
    case Pit(A, i) => i
    case Bank(A) => 6
    case Pit(B, i) => 7 + i
    case Bank(B) => 13
  }

  lemma IndexInjective(p: Path, q: Path)
    requires ValidPath(p) && ValidPath(q) && Index(p) == Index(q)
    ensures p == q
  {
  }

  /** A position of the cyclic iterator over `PathOrders`. */
  type Position = k: nat | k < 14

  /** The path at a position. */
  function PathAt(k: Position): (p: Path)
    ensures ValidPath(p) && Index(p) == k
  {
    if k < 6 then Pit(A, k) else if k == 6 then Bank(A) else if k < 13 then Pit(B, k - 7) else Bank(B)
  }

  /** `next(board_positions)`: the position after k, wrapping after `bank_b`. */
  function Next(k: Position): (n: Position)
    ensures n == (k + 1) % 14
  {
    if k == 13 then 0 else k + 1
  }

  /** `getter(board, path)` */
  function Get(b: Board, p: Path): int
    requires WellFormed(b) && ValidPath(p)
  {
    b[Index(p)]
  }

  /** `setter(board, path, value)`: the position reads back the value and no
      other position changes. */
  function Set(b: Board, p: Path, v: int): (r: Board)
    requires WellFormed(b) && ValidPath(p)
    ensures WellFormed(r)
    ensures Get(r, p) == v
  {
    b[Index(p) := v]
  }

  /** Writing at p leaves every other position as it was. */
  lemma SetFrame(b: Board, p: Path, v: int)
    requires WellFormed(b) && ValidPath(p)
    ensures forall q :: ValidPath(q) && q != p ==> Get(Set(b, p, v), q) == Get(b, q)
  {
    IndexInjectiveAll(p);
  }

  lemma IndexInjectiveAll(p: Path)
    requires ValidPath(p)
    ensures forall q :: ValidPath(q) && q != p ==> Index(q) != Index(p)
  {
  }

  function PitsOf(b: Board, side: Role): seq<int>
    requires WellFormed(b)
  {
    if side == A then b[0..6] else b[7..13]
  }

  function BankOf(b: Board, side: Role): int
    requires WellFormed(b)
  {
    if side == A then b[6] else b[13]
  }

  /** Offset of the role's row: the iterator skips `selected + offset` paths. */
  function Offset(role: Role): Position {
    if role == A then 0 else 7
  }

  /** One sowing step: advance, and advance once more past the opponent's bank. */
  function Step(k: Position, role: Role): Position {
    if PathAt(Next(k)) == Bank(Other(role)) then Next(Next(k)) else Next(k)
  }

  lemma StepAvoidsOpponentBank(k: Position, role: Role)
    ensures PathAt(Step(k, role)) != Bank(Other(role))
  {
  }

  /** The state of the sowing loop: the board, the iterator position of the
      last pit sown and the count that pit held before its stone arrived. */
  datatype SowState = SowState(board: Board, pos: Position, lastPips: int)

  /** Sow `n` stones one by one after position `k`. */
  function Sow(b: Board, k: Position, n: nat, role: Role, lastPips: int): (s: SowState)
    requires WellFormed(b)
    ensures WellFormed(s.board)
    decreases n
  {
    if n == 0 then SowState(b, k, lastPips)
    else
      var k' := Step(k, role);
      var c := Get(b, PathAt(k'));
      Sow(Set(b, PathAt(k'), c + 1), k', n - 1, role, c)
  }

  function Sum(s: seq<int>): int {
    if |s| == 0 then 0 else s[0] + Sum(s[1..])
  }

  lemma {:induction false} SumUpdate(s: seq<int>, i: nat, v: int)
    requires i < |s|
    ensures Sum(s[i := v]) == Sum(s) - s[i] + v
  {
    if i > 0 {
      assert s[i := v][1..] == s[1..][i - 1 := v];
      SumUpdate(s[1..], i - 1, v);
    } else {
      assert s[i := v][1..] == s[1..];
    }
  }

  lemma {:induction false} SumConcat(s: seq<int>, t: seq<int>)
    ensures Sum(s + t) == Sum(s) + Sum(t)
  {
    if |s| > 0 {
      assert (s + t)[0] == s[0];
      assert (s + t)[1..] == s[1..] + t;
      SumConcat(s[1..], t);
    } else {
      assert s + t == t;
    }
  }

  lemma {:induction false} SumNonNegative(s: seq<int>)
    requires forall i :: 0 <= i < |s| ==> s[i] >= 0
    ensures Sum(s) >= 0
  {
    if |s| > 0 {
      SumNonNegative(s[1..]);
    }
  }

  /** The stones of one side: its pits plus its bank. */
  function SideTotal(b: Board, side: Role): int
    requires WellFormed(b)
  {
    Sum(PitsOf(b, side)) + BankOf(b, side)
  }

  /** All stones on the board. */
  function Total(b: Board): int {
    Sum(b)
  }

  lemma TotalIsBothSides(b: Board)
    requires WellFormed(b)
    ensures Total(b) == SideTotal(b, A) + SideTotal(b, B)
  {
    assert b == b[0..6] + [b[6]] + b[7..13] + [b[13]];
    SumConcat(b[0..6] + [b[6]] + b[7..13], [b[13]]);
    SumConcat(b[0..6] + [b[6]], b[7..13]);
    SumConcat(b[0..6], [b[6]]);
    assert Sum([b[6]]) == b[6];
    assert Sum([b[13]]) == b[13];
  }

  /** Writing v at p changes the stone total by v minus what p held. */
  lemma SetTotal(b: Board, p: Path, v: int)
    requires WellFormed(b) && ValidPath(p)
    ensures Total(Set(b, p, v)) == Total(b) - Get(b, p) + v
  {
    SumUpdate(b, Index(p), v);
  }

  /** Sowing n stones adds exactly n stones to the board. */
  lemma {:induction false} SowAddsStones(b: Board, k: Position, n: nat, role: Role, lastPips: int)
    requires WellFormed(b)
    ensures Total(Sow(b, k, n, role, lastPips).board) == Total(b) + n
    decreases n
  {
    if n > 0 {
      var k' := Step(k, role);
      var c := Get(b, PathAt(k'));
      SetTotal(b, PathAt(k'), c + 1);
      SowAddsStones(Set(b, PathAt(k'), c + 1), k', n - 1, role, c);
    }
  }

  lemma {:induction false} SowKeepsNonNegative(b: Board, k: Position, n: nat, role: Role, lastPips: int)
    requires WellFormed(b) && NonNegative(b)
    ensures NonNegative(Sow(b, k, n, role, lastPips).board)
    decreases n
  {
    if n > 0 {
      var k' := Step(k, role);
      var c := Get(b, PathAt(k'));
      SowKeepsNonNegative(Set(b, PathAt(k'), c + 1), k', n - 1, role, c);
    }
  }

  /** Sowing skips the opponent's bank, so it never grows. */
  lemma {:induction false} SowSparesOpponentBank(b: Board, k: Position, n: nat, role: Role, lastPips: int)
    requires WellFormed(b)
    ensures Get(Sow(b, k, n, role, lastPips).board, Bank(Other(role))) == Get(b, Bank(Other(role)))
    decreases n
  {
    if n > 0 {
      var k' := Step(k, role);
      var c := Get(b, PathAt(k'));
      StepAvoidsOpponentBank(k, role);
      SowSparesOpponentBank(Set(b, PathAt(k'), c + 1), k', n - 1, role, c);
    }
  }

  /** The last pit sown holds one more stone than it did before its stone came. */
  lemma {:induction false} SowLastPit(b: Board, k: Position, n: nat, role: Role, lastPips: int)
    requires WellFormed(b) && n > 0
    ensures var s := Sow(b, k, n, role, lastPips); Get(s.board, PathAt(s.pos)) == s.lastPips + 1
    decreases n
  {
    var k' := Step(k, role);
    var c := Get(b, PathAt(k'));
    if n > 1 {
      SowLastPit(Set(b, PathAt(k'), c + 1), k', n - 1, role, c);
    }
  }

  /** Where the last stone lands depends only on the start and the count. */
  function SowEnd(k: Position, n: nat, role: Role): Position
    decreases n
  {
    if n == 0 then k else SowEnd(Step(k, role), n - 1, role)
  }

  lemma {:induction false} SowEndsAt(b: Board, k: Position, n: nat, role: Role, lastPips: int)
    requires WellFormed(b)
    ensures Sow(b, k, n, role, lastPips).pos == SowEnd(k, n, role)
    decreases n
  {
    if n > 0 {
      var k' := Step(k, role);
      var c := Get(b, PathAt(k'));
      SowEndsAt(Set(b, PathAt(k'), c + 1), k', n - 1, role, c);
    }
  }

  /** The capture rule, applied after sowing: a last stone dropped into an
      empty pit of the mover's own row takes the opposite pit's stones, and
      itself, into the mover's bank when the opposite pit is not empty. */
  predicate Captures(s: SowState, role: Role)
    requires WellFormed(s.board)
  {
    var last := PathAt(s.pos);
    s.lastPips == 0 && last.Pit? && last.side == role && Get(s.board, Pit(Other(role), 5 - last.idx)) > 0
  }

  function Capture(s: SowState, role: Role): (r: Board)
    requires WellFormed(s.board)
    ensures WellFormed(r)
  {
    var last := PathAt(s.pos);
    if s.lastPips == 0 && last.Pit? && last.side == role then
      var opposite := Pit(Other(role), 5 - last.idx);
      var oppositePips := Get(s.board, opposite);
      if oppositePips > 0 then
        var banked := Set(s.board, Bank(role), Get(s.board, Bank(role)) + oppositePips + 1);
        Set(Set(banked, opposite, 0), last, 0)
      else s.board
    else s.board
  }

  /** What a capture does to the three positions it touches, and that it
      touches nothing else; without a capture the board is left as sown. */
  lemma CaptureEffect(s: SowState, role: Role)
    requires WellFormed(s.board)
    ensures !Captures(s, role) ==> Capture(s, role) == s.board
    ensures Captures(s, role) ==>
      var last := PathAt(s.pos);
      var opposite := Pit(Other(role), 5 - last.idx);
      var r := Capture(s, role);
      && Get(r, Bank(role)) == Get(s.board, Bank(role)) + Get(s.board, opposite) + 1
      && Get(r, opposite) == 0 && Get(r, last) == 0
      && forall q :: ValidPath(q) && q != Bank(role) && q != opposite && q != last ==> Get(r, q) == Get(s.board, q)
  {
  }

  /** Capturing moves stones between positions without creating or losing any. */
  lemma CaptureConservesStones(s: SowState, role: Role)
    requires WellFormed(s.board) && NonNegative(s.board)
    requires Get(s.board, PathAt(s.pos)) == s.lastPips + 1
    ensures Total(Capture(s, role)) == Total(s.board)
    ensures NonNegative(Capture(s, role))
  {
    if Captures(s, role) {
      var last := PathAt(s.pos);
      var opposite := Pit(Other(role), 5 - last.idx);
      var oppositePips := Get(s.board, opposite);
      var gain := Get(s.board, Bank(role)) + oppositePips + 1;
      var banked := Set(s.board, Bank(role), gain);
      var cleared := Set(banked, opposite, 0);
      SetTotal(s.board, Bank(role), gain);
      SetTotal(banked, opposite, 0);
      SetTotal(cleared, last, 0);
    }
  }

  lemma CaptureSparesOpponentBank(s: SowState, role: Role)
    requires WellFormed(s.board)
    ensures Get(Capture(s, role), Bank(Other(role))) == Get(s.board, Bank(Other(role)))
  {
    CaptureEffect(s, role);
  }

  /** The role to move next: the mover again iff the last stone fell in the
      mover's own bank. */
  function NextRole(s: SowState, role: Role): Role {
    if PathAt(s.pos) == Bank(role) then role else Other(role)
  }

  /** Where the move starts: `skip(selected + offset)` consumes that many
      positions of the cycle (none when the count is negative), then one
      `next` yields the start. */
  function StartPosition(role: Role, selected: int): Position {
    var c := selected + Offset(role);
    if c < 0 then 0 else c % 14
  }

  function Start(role: Role, selected: int): Path {
    PathAt(StartPosition(role, selected))
  }

  /** The bound the move schema means to impose with `min` 0 and `max` 5. */
  predicate MoveInRange(selected: int) {
    0 <= selected <= 5
  }

  /** An in-range move starts at the mover's own pit of that number. */
  lemma StartInRange(role: Role, selected: int)
    requires MoveInRange(selected)
    ensures Start(role, selected) == Pit(role, selected)
  {
  }

  /** Empty the chosen position and sow its stones. */
  function Sown(b: Board, role: Role, selected: int): (s: SowState)
    requires WellFormed(b) && NonNegative(b)
    ensures WellFormed(s.board)
  {
    var start := Start(role, selected);
    Sow(Set(b, start, 0), StartPosition(role, selected), Get(b, start), role, 0)
  }

  predicate GameOver(b: Board)
    requires WellFormed(b)
  {
    Sum(PitsOf(b, A)) == 0 || Sum(PitsOf(b, B)) == 0
  }

  /** The side with more stones in pits plus bank; None on equality. */
  function Leader(b: Board): Option<Role>
    requires WellFormed(b)
  {
    if SideTotal(b, A) > SideTotal(b, B) then Some(A)
    else if SideTotal(b, B) > SideTotal(b, A) then Some(B)
    else None
  }

  /** `init_game`: six stones in every pit, empty banks. */
  const InitialBoard: Board := seq(14, i => if i == 6 || i == 13 then 0 else 6)

  /** A legal move keeps every stone on the board and every count non-negative. */
  lemma MoveConservesStones(b: Board, role: Role, selected: int)
    requires WellFormed(b) && NonNegative(b)
    requires Get(b, Start(role, selected)) > 0
    ensures Total(Capture(Sown(b, role, selected), role)) == Total(b)
    ensures NonNegative(Capture(Sown(b, role, selected), role))
  {
    var start := Start(role, selected);
    var pips := Get(b, start);
    var emptied := Set(b, start, 0);
    SetTotal(b, start, 0);
    SowAddsStones(emptied, StartPosition(role, selected), pips, role, 0);
    SowKeepsNonNegative(emptied, StartPosition(role, selected), pips, role, 0);
    SowLastPit(emptied, StartPosition(role, selected), pips, role, 0);
    CaptureConservesStones(Sown(b, role, selected), role);
  }

  /** An in-range move never touches the opponent's bank. */
  lemma MoveSparesOpponentBank(b: Board, role: Role, selected: int)
    requires WellFormed(b) && NonNegative(b) && MoveInRange(selected)
    ensures Get(Capture(Sown(b, role, selected), role), Bank(Other(role))) == Get(b, Bank(Other(role)))
  {
    var start := Start(role, selected);
    StartInRange(role, selected);
    SetFrame(b, start, 0);
    var emptied := Set(b, start, 0);
    SowSparesOpponentBank(emptied, StartPosition(role, selected), Get(b, start), role, 0);
    CaptureSparesOpponentBank(Sown(b, role, selected), role);
  }

  /** As written, nothing bounds the move: player a choosing 13 starts from
      `bank_b`, empties the opponent's bank and sows its stones. */
  lemma OpponentBankRaid(b: Board)
    requires WellFormed(b) && NonNegative(b) && Get(b, Bank(B)) > 0
    ensures Start(A, 13) == Bank(B)
    ensures Get(Capture(Sown(b, A, 13), A), Bank(B)) == 0
  {
    var emptied := Set(b, Bank(B), 0);
    SowSparesOpponentBank(emptied, 13, Get(b, Bank(B)), A, 0);
    CaptureSparesOpponentBank(Sown(b, A, 13), A);
  }

  /** With 72 stones on the board, a winner holds more than half of them. */
  lemma WinnerHoldsMajority(b: Board, side: Role)
    requires WellFormed(b) && Total(b) == 72 && Leader(b) == Some(side)
    ensures SideTotal(b, side) > 36
  {
    TotalIsBothSides(b);
  }

  lemma InitialBoardFacts()
    ensures WellFormed(InitialBoard) && NonNegative(InitialBoard)
    ensures forall i :: 0 <= i < 6 ==> Get(InitialBoard, Pit(A, i)) == 6 && Get(InitialBoard, Pit(B, i)) == 6
    ensures Get(InitialBoard, Bank(A)) == 0 && Get(InitialBoard, Bank(B)) == 0
  {
  }

  /** The opening position holds 72 stones. */
  lemma InitialBoardTotal()
    ensures Total(InitialBoard) == 72
  {
    InitialBoardFacts();
    TotalIsBothSides(InitialBoard);
    SumOfSixes(PitsOf(InitialBoard, A));
    SumOfSixes(PitsOf(InitialBoard, B));
  }

  lemma {:induction false} SumOfSixes(row: seq<int>)
    requires forall i :: 0 <= i < |row| ==> row[i] == 6
    ensures Sum(row) == 6 * |row|
  {
    if |row| > 0 {
      SumOfSixes(row[1..]);
    }
  }

  /** Without passing the end of the own row, the last stone lands exactly
      n positions further on. */
  lemma {:induction false} SowEndStraight(k: Position, n: nat, role: Role)
    requires Offset(role) <= k && k + n <= Offset(role) + 6
    ensures SowEnd(k, n, role) == k + n
    decreases n
  {
    if n > 0 {
      assert Step(k, role) == k + 1;
      SowEndStraight(k + 1, n - 1, role);
    }
  }

  /** A pit holding exactly as many stones as there are positions up to the
      mover's own bank ends the sowing in that bank: the mover plays again. */
  lemma ExactCountEarnsExtraTurn(b: Board, role: Role, selected: int)
    requires WellFormed(b) && NonNegative(b) && MoveInRange(selected)
    requires Get(b, Pit(role, selected)) == 6 - selected
    ensures NextRole(Sown(b, role, selected), role) == role
  {
    StartInRange(role, selected);
    var start := Start(role, selected);
    var k := selected + Offset(role);
    var s := Sown(b, role, selected);
    assert s == Sow(Set(b, start, 0), k, 6 - selected, role, 0);
    SowEndsAt(Set(b, start, 0), k, 6 - selected, role, 0);
    SowEndStraight(k, 6 - selected, role);
    OwnBankPosition(role);
  }

  lemma OwnBankPosition(role: Role)
    ensures PathAt(Offset(role) + 6) == Bank(role)
  {
    if role == A {
      assert PathAt(6) == Bank(A);
    } else {
      assert PathAt(13) == Bank(B);
    }
  }

  /** One sowing step, as the loop of `make_move` performs it. */
  lemma SowUnfold(b: Board, k: Position, n: nat, role: Role, lastPips: int)
    requires WellFormed(b) && n > 0
    ensures var k' := Step(k, role); var c := Get(b, PathAt(k'));
      Sow(b, k, n, role, lastPips) == Sow(Set(b, PathAt(k'), c + 1), k', n - 1, role, c)
  {
  }

  /** The "Distribute Pips" loop of `make_move`: one stone into each
      following position, skipping the opponent's bank. */
  method Distribute(board: Board, start: Position, pips: nat, role: Role)
    returns (b: Board, pos: Position, currentPips: int)
    requires WellFormed(board)
    ensures SowState(b, pos, currentPips) == Sow(board, start, pips, role, 0)
  {
    b, pos, currentPips := board, start, 0;
    var currentPath := PathAt(pos);
    for pip := 0 to pips
      invariant WellFormed(b)
      invariant Sow(b, pos, pips - pip, role, currentPips) == Sow(board, start, pips, role, 0)
      invariant currentPath == PathAt(pos)
    {
      SowUnfold(b, pos, pips - pip, role, currentPips);
      pos := Next(pos);
      currentPath := PathAt(pos);
      if currentPath == Bank(Other(role)) {
        pos := Next(pos);
        currentPath := PathAt(pos);
      }
      currentPips := Get(b, currentPath);
      b := Set(b, currentPath, currentPips + 1);
    }
    assert Sow(b, pos, 0, role, currentPips) == SowState(b, pos, currentPips);
  }

  datatype MoveOutcome = Continue | Completed | Raised(e: Exc)

  /** `self.roles[role]`. `roles` is None while the attribute has never been
      assigned: reading it then raises AttributeError, and a role without an
      entry raises KeyError. */
  function RoleHolder(roles: Option<map<Role, PlayerId>>, role: Role): Result<PlayerId, Exc> {
    if roles.None? then Err(Builtin("AttributeError"))
    else if role !in roles.value then Err(Builtin("KeyError"))
    else Ok(roles.value[role])
  }

  /** The end-of-game check of `make_move` as a value: the outcome and the
      winner it leaves. */
  function EndCheck(roles: Option<map<Role, PlayerId>>, b: Board, winner: Option<PlayerId>): (MoveOutcome, Option<PlayerId>)
    requires WellFormed(b)
  {
    if !GameOver(b) then (Continue, winner)
    else match Leader(b)
      case None => (Completed, None)
      case Some(lead) =>
        match RoleHolder(roles, lead)
        case Err(e) => (Raised(e), winner)
        case Ok(w) => (Completed, Some(w))
  }

  /** Outcome, turn and winner once the stones of a move are sown. */
  datatype Ending = Ending(outcome: MoveOutcome, turn: Option<PlayerId>, winner: Option<PlayerId>)

  /** The rest of `make_move` after the sowing, as a value: the turn goes to
      the holder of the next role, then the end-of-game check runs. */
  function AfterSowing(roles: Option<map<Role, PlayerId>>, s: SowState, role: Role,
                       turn: Option<PlayerId>, winner: Option<PlayerId>): Ending
    requires WellFormed(s.board)
  {
    match RoleHolder(roles, NextRole(s, role))
    case Err(e) => Ending(Raised(e), turn, winner)
    case Ok(next) =>
      var (r, w) := EndCheck(roles, Capture(s, role), winner);
      Ending(r, Some(next), w)
  }

  /** Without a `roles` attribute every move that sows stones fails at the
      turn hand-over, leaving turn and winner as they were. */
  lemma UnsetRolesStopMoves(s: SowState, role: Role, turn: Option<PlayerId>, winner: Option<PlayerId>)
    requires WellFormed(s.board)
    ensures AfterSowing(None, s, role, turn, winner) == Ending(Raised(Builtin("AttributeError")), turn, winner)
  {
  }

  /** With both roles held, a move passes the turn to the holder of the next
      role; the game completes exactly when a row is empty, won by the holder
      of the leading side, drawn when the sides are level; otherwise the
      winner stays. */
  lemma HeldRolesDecide(m: map<Role, PlayerId>, s: SowState, role: Role,
                        turn: Option<PlayerId>, winner: Option<PlayerId>)
    requires WellFormed(s.board) && A in m && B in m
    ensures var e := AfterSowing(Some(m), s, role, turn, winner);
      var b := Capture(s, role);
      && e.turn == Some(m[NextRole(s, role)])
      && (e.outcome == Completed <==> GameOver(b))
      && (e.outcome == Continue <==> !GameOver(b))
      && (GameOver(b) && SideTotal(b, A) > SideTotal(b, B) ==> e.winner == Some(m[A]))
      && (GameOver(b) && SideTotal(b, B) > SideTotal(b, A) ==> e.winner == Some(m[B]))
      && (GameOver(b) && SideTotal(b, A) == SideTotal(b, B) ==> e.winner == None)
      && (!GameOver(b) ==> e.winner == winner)
  {
  }

  class KalahaServer {
    var board: Option<Board>
    var turn: Option<PlayerId>
    var winner: Option<PlayerId>
    /** `self.roles`, role -> player id. No code assigns the attribute, so a
        new server starts with None. */
    var roles: Option<map<Role, PlayerId>>
    /** The player list `BaseGameServer.__init__` creates. */
    var players: seq<PlayerId>

    ghost predicate Valid()
      reads this
    {
      board.Some? ==> WellFormed(board.value) && NonNegative(board.value)
    }

    constructor ()
      ensures Valid()
      ensures board == None && turn == None && winner == None && roles == None && players == []
    {
      board, turn, winner := None, None, None;
      roles, players := None, [];
    }

    /** `init_game`: the opening board is written first; then the turn is
        the player holding role a, which fails while `roles` is unset or
        has no entry for a. */
    method InitGame() returns (r: Result<(), Exc>)
      modifies this`board, this`turn
      ensures Valid()
      ensures board == Some(InitialBoard)
      ensures roles.None? ==> r == Err(Builtin("AttributeError")) && turn == old(turn)
      ensures roles.Some? && A !in roles.value ==> r == Err(Builtin("KeyError")) && turn == old(turn)
      ensures roles.Some? && A in roles.value ==> r == Ok(()) && turn == Some(roles.value[A])
    {
      InitialBoardFacts();
      board := Some(InitialBoard);
      var holder := RoleHolder(roles, A);
      if holder.Err? {
        return Err(holder.error);
      }
      turn := Some(holder.value);
      return Ok(());
    }

    /** `asign_role`. Its log line reads `self.roles` first; `random.choice`
        of no free role raises IndexError; otherwise the write
        `self.players[player_id] = role` indexes the player list with a
        string, a TypeError raised before any role is recorded. */
    method AssignRole(playerId: PlayerId) returns (r: Result<Role, Exc>)
      ensures roles.None? ==> r == Err(Builtin("AttributeError"))
      ensures roles.Some? && A in roles.value && B in roles.value ==> r == Err(Builtin("IndexError"))
      ensures roles.Some? && (A !in roles.value || B !in roles.value) ==> r == Err(Builtin("TypeError"))
    {
      if roles.None? {
        return Err(Builtin("AttributeError"));
      }
      var available := {A, B} - roles.value.Keys;
      if available == {} {
        assert A in roles.value && B in roles.value by {
          assert A !in available && B !in available;
        }
        return Err(Builtin("IndexError"));
      }
      var role :| role in available;
      return Err(Builtin("TypeError"));
    }

    /** `make_move`: reject a missing role with IllegalMove; a server
        without a board fails reading it; an empty pit is rejected with
        IllegalMove; all three leave everything as it was. Otherwise the pit
        is emptied, the stones sown and captured, and `AfterSowing` gives
        the outcome, turn and winner. */
    method MakeMove(playerId: PlayerId, playerRole: Option<Role>, selected: int) returns (r: MoveOutcome)
      requires Valid()
      requires MoveInRange(selected)
      modifies this`board, this`turn, this`winner
      ensures Valid()
      ensures playerRole.None? ==> r == Raised(Asimov(IllegalMove, "Require game role")) && unchanged(this)
      ensures playerRole.Some? && old(board).None? ==> r == Raised(Builtin("TypeError")) && unchanged(this)
      ensures playerRole.Some? && old(board).Some? && Get(old(board).value, Pit(playerRole.value, selected)) == 0 ==>
        r == Raised(Asimov(IllegalMove, "Empty pit chosen")) && unchanged(this)
      ensures playerRole.Some? && old(board).Some? && Get(old(board).value, Pit(playerRole.value, selected)) != 0 ==>
        var role := playerRole.value;
        var s := Sown(old(board).value, role, selected);
        && board == Some(Capture(s, role))
        && Ending(r, turn, winner) == AfterSowing(roles, s, role, old(turn), old(winner))
    {
      if playerRole.None? {
        return Raised(Asimov(IllegalMove, "Require game role"));
      }
      if board.None? {
        return Raised(Builtin("TypeError"));
      }
      var role := playerRole.value;
      // `self.board` is updated in place; `b` is that dictionary.
      var b := board.value;
      StartInRange(role, selected);
      var pos := StartPosition(role, selected);
      var currentPath := PathAt(pos);
      var pips := Get(b, currentPath);
      if pips == 0 {
        return Raised(Asimov(IllegalMove, "Empty pit chosen"));
      }
      b := Set(b, currentPath, 0);
      assert b == Set(old(board).value, Start(role, selected), 0);
      var currentPips;
      b, pos, currentPips := Distribute(b, pos, pips, role);
      MoveConservesStones(old(board).value, role, selected);
      r := Conclude(SowState(b, pos, currentPips), role);
    }

    /** The rest of `make_move` once the stones are sown: the capture is
        written to the board, then the turn and the end-of-game check
        follow `AfterSowing`. */
    method Conclude(s: SowState, role: Role) returns (r: MoveOutcome)
      requires WellFormed(s.board)
      modifies this`board, this`turn, this`winner
      ensures board == Some(Capture(s, role))
      ensures Ending(r, turn, winner) == AfterSowing(roles, s, role, old(turn), old(winner))
    {
      var b, currentPath, currentPips := s.board, PathAt(s.pos), s.lastPips;
      if currentPips == 0 && currentPath.Pit? && currentPath.side == role {
        var pit := currentPath.idx;
        var oppositePath := Pit(Other(role), 5 - pit);
        var oppositePips := Get(b, oppositePath);
        if oppositePips > 0 {
          var bankBalance := Get(b, Bank(role));
          b := Set(b, Bank(role), bankBalance + oppositePips + 1);
          b := Set(b, oppositePath, 0);
          b := Set(b, currentPath, 0);
        }
      }
      assert b == Capture(s, role);
      board := Some(b);
      var nextRole := if currentPath == Bank(role) then role else Other(role);
      var next := RoleHolder(roles, nextRole);
      if next.Err? {
        return Raised(next.error);
      }
      turn := Some(next.value);
      r := CheckEnd(b);
    }

    /** The end-of-game check of `make_move`: when either row is empty the
        side with more stones in pits plus bank wins and equality is a draw;
        the winner is looked up in `roles`, which can fail. */
    method CheckEnd(b: Board) returns (r: MoveOutcome)
      requires WellFormed(b)
      modifies this`winner
      ensures (r, winner) == EndCheck(roles, b, old(winner))
    {
      var pitsA, pitsB := Sum(b[0..6]), Sum(b[7..13]);
      if pitsA == 0 || pitsB == 0 {
        var bankA := pitsA + b[6];
        var bankB := pitsB + b[13];
        if bankA > bankB {
          var holder := RoleHolder(roles, A);
          if holder.Err? {
            return Raised(holder.error);
          }
          winner := Some(holder.value);
        } else if bankB > bankA {
          var holder := RoleHolder(roles, B);
          if holder.Err? {
            return Raised(holder.error);
          }
          winner := Some(holder.value);
        } else {
          winner := None;
        }
        return Completed;
      }
      return Continue;
    }

    /** `score`, as `GameBase.Scores` describes it, over the player list. */
    function Score(): map<PlayerId, int>
      reads this
    {
      GameBase.Scores((set p | p in players), winner)
    }

    /** `show_board` renders the rows and banks for the log before it returns
        the board itself; without a board the first `self.board["pits_a"]`
        raises TypeError. */
    function ShowBoard(): (r: Result<Board, Exc>)
      reads this
      ensures r.Err? <==> board.None?
      ensures r.Err? ==> r.error == Builtin("TypeError")
      ensures r.Ok? ==> board == Some(r.value)
    {
      match board
      case None => Err(Builtin("TypeError"))
      case Some(b) => Ok(b)
    }
  }

  /** A server as constructed cannot start: the `init_game` that
      `add_player` runs for the second player raises AttributeError. */
  method FreshServerCannotStart() returns (r: Result<(), Exc>)
    ensures r == Err(Builtin("AttributeError"))
  {
    var server := new KalahaServer();
    r := server.InitGame();
  }
}

=== FILE: messages.dfy ===
/**
 * The protocol's message records and `MessageBase.send`. A record travels as
 * the event named after its class (the class name without "Message",
 * lower-cased) with its fields as the payload (`asdict`); the receiver
 * rebuilds the record from the payload (`message_type(**data)`).
 */
module Messages {
  import opened Wrappers
  import opened Json
  import Schemas

  type Scores = map<string, int>

  datatype Message =
    // from the broker
    | Finished(normal: bool, roomid: string, reason: Option<string>, scores: Option<Scores>)
    /** `playerid` and `turn` are annotated `str` but the broker passes None. */
    | Gamestate(board: Object, forPlayer: Option<string>, roomid: string, turn: Option<string>)
    | Joined(playerid: string, roomid: string, gamerole: Option<string>)
    | PlayerMove(move: Object, playerid: string, roomid: string, stateid: string)
    | Register(playerid: string, roomid: string)
    | RoomCreated(roomid: string)
    | Rooms(rooms: Object)
    // from a game server
    | CreateRoom(name: string, game: string, maxplayers: int)
    | JoinSuccess(playerid: string, roomid: string, gamerole: Option<string>)
    | JoinFail(playerid: string, roomid: string, reason: Option<string>)
    | GameUpdate(roomid: string, visibility: string, epoch: int, board: Object,
                 stateRef: Option<string>, forPlayer: Option<string>, turn: Option<string>)
    | Finish(roomid: string, normal: bool, scores: Option<Scores>, reason: Option<string>)
    // from a player
    | Join(roomid: string, name: string)
    | Move(playerid: string, roomid: string, move: Object)
    | List

  /** The message classes, for when only the class is known (a receiver's
      `message_type`). */
  datatype Kind =
    | FinishedKind | GamestateKind | JoinedKind | PlayerMoveKind | RegisterKind | RoomCreatedKind | RoomsKind
    | CreateRoomKind | JoinSuccessKind | JoinFailKind | GameUpdateKind | FinishKind
    | JoinKind | MoveKind | ListKind

  function KindOf(m: Message): Kind {
    match m
    case Finished(_, _, _, _) => FinishedKind
    case Gamestate(_, _, _, _) => GamestateKind
    case Joined(_, _, _) => JoinedKind
    case PlayerMove(_, _, _, _) => PlayerMoveKind
    case Register(_, _) => RegisterKind
    case RoomCreated(_) => RoomCreatedKind
    case Rooms(_) => RoomsKind
    case CreateRoom(_, _, _) => CreateRoomKind
    case JoinSuccess(_, _, _) => JoinSuccessKind
    case JoinFail(_, _, _) => JoinFailKind
    case GameUpdate(_, _, _, _, _, _, _) => GameUpdateKind
    case Finish(_, _, _, _) => FinishKind
    case Join(_, _) => JoinKind
    case Move(_, _, _) => MoveKind
    case List => ListKind
  }

  /** The class name without its "Message" suffix. */
  function Stem(k: Kind): string {
    match k
    case FinishedKind => "Finished"
    case GamestateKind => "Gamestate"
    case JoinedKind => "Joined"
    case PlayerMoveKind => "PlayerMove"
    case RegisterKind => "Register"
    case RoomCreatedKind => "RoomCreated"
    case RoomsKind => "Rooms"
    case CreateRoomKind => "CreateRoom"
    case JoinSuccessKind => "JoinSuccess"
    case JoinFailKind => "JoinFail"
    case GameUpdateKind => "GameUpdate"
    case FinishKind => "Finish"
    case JoinKind => "Join"
    case MoveKind => "Move"
    case ListKind => "List"
  }

  /** Every message class is named "<Stem>Message". */
  function ClassName(k: Kind): string {
    Stem(k) + "Message"
  }

  /** Python's `str.lower` on the ASCII letters class names are made of. */
  function LowerChar(c: char): char {
    if 'A' <= c <= 'Z' then (c as int + 32) as char else c
  }

  function Lower(s: string): (r: string)
    ensures |r| == |s| && forall i :: 0 <= i < |s| ==> r[i] == LowerChar(s[i])
  {
    seq(|s|, i requires 0 <= i < |s| => LowerChar(s[i]))
  }

  /** `self.__class__.__name__[:-7].lower()` */
  function EventName(k: Kind): string {
    var c := ClassName(k);
    if |c| < 7 then "" else Lower(c[..|c| - 7])
  }

  /** Dropping the last seven characters drops exactly "Message". */
  lemma EventNameIsLowerStem(k: Kind)
    ensures EventName(k) == Lower(Stem(k))
  {
    var c := ClassName(k);
    assert c[..|c| - 7] == Stem(k);
  }

  /** The events the broker sends, and the handlers of the game server and
      the player that receive them: `on_roomcreated`, `on_register`,
      `on_playermove`, `on_joined`, `on_gamestate`, `on_finished`, `on_rooms`. */
  lemma BrokerEventNames()
    ensures EventName(RoomCreatedKind) == "roomcreated" && EventName(RegisterKind) == "register"
    ensures EventName(PlayerMoveKind) == "playermove" && EventName(JoinedKind) == "joined"
    ensures EventName(GamestateKind) == "gamestate" && EventName(FinishedKind) == "finished"
    ensures EventName(RoomsKind) == "rooms"
  {
    EventNameIsLowerStem(RoomCreatedKind);
    EventNameIsLowerStem(RegisterKind);
    EventNameIsLowerStem(PlayerMoveKind);
    EventNameIsLowerStem(JoinedKind);
    EventNameIsLowerStem(GamestateKind);
    EventNameIsLowerStem(FinishedKind);
    EventNameIsLowerStem(RoomsKind);
  }

  /** The events a game server sends, and the broker's handlers for them:
      `on_createroom`, `on_joinsuccess`, `on_joinfail`, `on_gameupdate`,
      `on_finish`. */
  lemma ServerEventNames()
    ensures EventName(CreateRoomKind) == "createroom" && EventName(JoinSuccessKind) == "joinsuccess"
    ensures EventName(JoinFailKind) == "joinfail" && EventName(GameUpdateKind) == "gameupdate"
    ensures EventName(FinishKind) == "finish"
  {
    EventNameIsLowerStem(CreateRoomKind);
    EventNameIsLowerStem(JoinSuccessKind);
    EventNameIsLowerStem(JoinFailKind);
    EventNameIsLowerStem(GameUpdateKind);
    EventNameIsLowerStem(FinishKind);
  }

  /** The events a player sends, and the broker's handlers for them:
      `on_join`, `on_move`, `on_list`. */
  lemma PlayerEventNames()
    ensures EventName(JoinKind) == "join" && EventName(MoveKind) == "move" && EventName(ListKind) == "list"
  {
    EventNameIsLowerStem(JoinKind);
    EventNameIsLowerStem(MoveKind);
    EventNameIsLowerStem(ListKind);
  }

  /** Distinct classes travel as distinct events. */
  lemma EventNameInjective(k1: Kind, k2: Kind)
    ensures EventName(k1) == EventName(k2) <==> k1 == k2
  {
    BrokerEventNames();
    ServerEventNames();
    PlayerEventNames();
  }

  // Encoding of field values

  function OptString(o: Option<string>): Json {
    match o
    case None => JNull
    case Some(s) => JString(s)
  }

  function ScoresJson(s: Scores): Json {
    JObject(map k | k in s :: JInt(s[k]))
  }

  function OptScores(o: Option<Scores>): Json {
    match o
    case None => JNull
    case Some(s) => ScoresJson(s)
  }

  /** `asdict(self)`: every field under its own name, None as null. */
  function Payload(m: Message): Object {
    match m
    case Finished(normal, roomid, reason, scores) =>
      map["normal" := JBool(normal), "roomid" := JString(roomid), "reason" := OptString(reason), "scores" := OptScores(scores)]
    case Gamestate(board, forPlayer, roomid, turn) =>
      map["board" := JObject(board), "playerid" := OptString(forPlayer), "roomid" := JString(roomid), "turn" := OptString(turn)]
    case Joined(playerid, roomid, gamerole) =>
      map["playerid" := JString(playerid), "roomid" := JString(roomid), "gamerole" := OptString(gamerole)]
    case PlayerMove(move, playerid, roomid, stateid) =>
      map["move" := JObject(move), "playerid" := JString(playerid), "roomid" := JString(roomid), "stateid" := JString(stateid)]
    case Register(playerid, roomid) =>
      map["playerid" := JString(playerid), "roomid" := JString(roomid)]
    case RoomCreated(roomid) =>
      map["roomid" := JString(roomid)]
    case Rooms(rooms) =>
      map["rooms" := JObject(rooms)]
    case CreateRoom(name, game, maxplayers) =>
      map["name" := JString(name), "game" := JString(game), "maxplayers" := JInt(maxplayers)]
    case JoinSuccess(playerid, roomid, gamerole) =>
      map["playerid" := JString(playerid), "roomid" := JString(roomid), "gamerole" := OptString(gamerole)]
    case JoinFail(playerid, roomid, reason) =>
      map["playerid" := JString(playerid), "roomid" := JString(roomid), "reason" := OptString(reason)]
    case GameUpdate(roomid, visibility, epoch, board, stateRef, forPlayer, turn) =>
      map["roomid" := JString(roomid), "visibility" := JString(visibility), "epoch" := JInt(epoch),
          "board" := JObject(board), "stateid" := OptString(stateRef), "playerid" := OptString(forPlayer),
          "turn" := OptString(turn)]
    case Finish(roomid, normal, scores, reason) =>
      map["roomid" := JString(roomid), "normal" := JBool(normal), "scores" := OptScores(scores), "reason" := OptString(reason)]
    case Join(roomid, name) =>
      map["roomid" := JString(roomid), "name" := JString(name)]
    case Move(playerid, roomid, move) =>
      map["playerid" := JString(playerid), "roomid" := JString(roomid), "move" := JObject(move)]
    case List => map[]
  }

  /** The names of the fields each class declares. */
  function Fields(k: Kind): set<string> {
    match k
    case FinishedKind => {"normal", "roomid", "reason", "scores"}
    case GamestateKind => {"board", "playerid", "roomid", "turn"}
    case JoinedKind => {"playerid", "roomid", "gamerole"}
    case PlayerMoveKind => {"move", "playerid", "roomid", "stateid"}
    case RegisterKind => {"playerid", "roomid"}
    case RoomCreatedKind => {"roomid"}
    case RoomsKind => {"rooms"}
    case CreateRoomKind => {"name", "game", "maxplayers"}
    case JoinSuccessKind => {"playerid", "roomid", "gamerole"}
    case JoinFailKind => {"playerid", "roomid", "reason"}
    case GameUpdateKind => {"roomid", "visibility", "epoch", "board", "stateid", "playerid", "turn"}
    case FinishKind => {"roomid", "normal", "scores", "reason"}
    case JoinKind => {"roomid", "name"}
    case MoveKind => {"playerid", "roomid", "move"}
    case ListKind => {}
  }

  /** The payload holds exactly the record's fields. */
  lemma PayloadKeys(m: Message)
    ensures Payload(m).Keys == Fields(KindOf(m))
  {
  }

  // Decoding of field values: a required field must be present, a field
  // that defaults to None may be missing, and None travels as null.

  function Str(d: Object, key: string): Option<string> {
    if key in d && d[key].JString? then Some(d[key].s) else None
  }

  function Int(d: Object, key: string): Option<int> {
    if key in d && d[key].JInt? then Some(d[key].i) else None
  }

  function Bool(d: Object, key: string): Option<bool> {
    if key in d && d[key].JBool? then Some(d[key].b) else None
  }

  function Obj(d: Object, key: string): Option<Object> {
    if key in d && d[key].JObject? then Some(d[key].fields) else None
  }

  /** A required field whose value may be None. */
  function NullableStr(d: Object, key: string): Option<Option<string>> {
    if key !in d then None
    else if d[key] == JNull then Some(None)
    else if d[key].JString? then Some(Some(d[key].s))
    else None
  }

  /** A field that defaults to None. */
  function DefaultedStr(d: Object, key: string): Option<Option<string>> {
    if key !in d then Some(None) else NullableStr(d, key)
  }

  function DefaultedScores(d: Object, key: string): Option<Option<Scores>> {
    if key !in d || d[key] == JNull then Some(None)
    else if d[key].JObject? && forall k :: k in d[key].fields ==> d[key].fields[k].JInt? then
      Some(Some(map k | k in d[key].fields :: d[key].fields[k].i))
    else None
  }

  /** `message_type(**data)`: None when a field is missing, unknown or of the
      wrong type. */
  function Decode(k: Kind, d: Object): Option<Message> {
    if !(d.Keys <= Fields(k)) then None
    else match k
    case FinishedKind =>
      if Bool(d, "normal").Some? && Str(d, "roomid").Some? && DefaultedStr(d, "reason").Some? && DefaultedScores(d, "scores").Some?
      then Some(Finished(Bool(d, "normal").value, Str(d, "roomid").value, DefaultedStr(d, "reason").value, DefaultedScores(d, "scores").value))
      else None
    case GamestateKind =>
      if Obj(d, "board").Some? && NullableStr(d, "playerid").Some? && Str(d, "roomid").Some? && NullableStr(d, "turn").Some?
      then Some(Gamestate(Obj(d, "board").value, NullableStr(d, "playerid").value, Str(d, "roomid").value, NullableStr(d, "turn").value))
      else None
    case JoinedKind =>
      if Str(d, "playerid").Some? && Str(d, "roomid").Some? && DefaultedStr(d, "gamerole").Some?
      then Some(Joined(Str(d, "playerid").value, Str(d, "roomid").value, DefaultedStr(d, "gamerole").value))
      else None
    case PlayerMoveKind =>
      if Obj(d, "move").Some? && Str(d, "playerid").Some? && Str(d, "roomid").Some? && Str(d, "stateid").Some?
      then Some(PlayerMove(Obj(d, "move").value, Str(d, "playerid").value, Str(d, "roomid").value, Str(d, "stateid").value))
      else None
    case RegisterKind =>
      if Str(d, "playerid").Some? && Str(d, "roomid").Some?
      then Some(Register(Str(d, "playerid").value, Str(d, "roomid").value))
      else None
    case RoomCreatedKind =>
      if Str(d, "roomid").Some? then Some(RoomCreated(Str(d, "roomid").value)) else None
    case RoomsKind =>
      if Obj(d, "rooms").Some? then Some(Rooms(Obj(d, "rooms").value)) else None
    case CreateRoomKind =>
      if Str(d, "name").Some? && Str(d, "game").Some? && Int(d, "maxplayers").Some?
      then Some(CreateRoom(Str(d, "name").value, Str(d, "game").value, Int(d, "maxplayers").value))
      else None
    case JoinSuccessKind =>
      if Str(d, "playerid").Some? && Str(d, "roomid").Some? && DefaultedStr(d, "gamerole").Some?
      then Some(JoinSuccess(Str(d, "playerid").value, Str(d, "roomid").value, DefaultedStr(d, "gamerole").value))
      else None
    case JoinFailKind =>
      if Str(d, "playerid").Some? && Str(d, "roomid").Some? && DefaultedStr(d, "reason").Some?
      then Some(JoinFail(Str(d, "playerid").value, Str(d, "roomid").value, DefaultedStr(d, "reason").value))
      else None
    case GameUpdateKind =>
      if && Str(d, "roomid").Some? && Str(d, "visibility").Some? && Int(d, "epoch").Some? && Obj(d, "board").Some?
         && DefaultedStr(d, "stateid").Some? && DefaultedStr(d, "playerid").Some? && DefaultedStr(d, "turn").Some?
      then Some(GameUpdate(Str(d, "roomid").value, Str(d, "visibility").value, Int(d, "epoch").value, Obj(d, "board").value,
                           DefaultedStr(d, "stateid").value, DefaultedStr(d, "playerid").value, DefaultedStr(d, "turn").value))
      else None
    case FinishKind =>
      if Str(d, "roomid").Some? && Bool(d, "normal").Some? && DefaultedScores(d, "scores").Some? && DefaultedStr(d, "reason").Some?
      then Some(Finish(Str(d, "roomid").value, Bool(d, "normal").value, DefaultedScores(d, "scores").value, DefaultedStr(d, "reason").value))
      else None
    case JoinKind =>
      if Str(d, "roomid").Some? && Str(d, "name").Some?
      then Some(Join(Str(d, "roomid").value, Str(d, "name").value))
      else None
    case MoveKind =>
      if Str(d, "playerid").Some? && Str(d, "roomid").Some? && Obj(d, "move").Some?
      then Some(Move(Str(d, "playerid").value, Str(d, "roomid").value, Obj(d, "move").value))
      else None
    case ListKind => Some(List)
  }

  lemma ScoresRoundTrip(s: Scores)
    ensures DefaultedScores(map["scores" := ScoresJson(s)], "scores") == Some(Some(s))
  {
    var j := ScoresJson(s);
    assert j != JNull;
    assert (map k | k in j.fields :: j.fields[k].i) == s;
  }

  /** The round trip for the messages of the join handshake. */
  lemma DecodeJoinPayloads(m: Message)
    requires m.Joined? || m.JoinSuccess? || m.JoinFail? || m.Join?
    ensures Decode(KindOf(m), Payload(m)) == Some(m)
  {}

  /** The round trip for the messages of room creation, registration and listing. */
  lemma DecodeRoutingPayloads(m: Message)
    requires m.Register? || m.RoomCreated? || m.Rooms? || m.CreateRoom? || m.List?
    ensures Decode(KindOf(m), Payload(m)) == Some(m)
  {}

  /** The round trip for the messages of moves and game states. */
  lemma DecodeMovePayloads(m: Message)
    requires m.PlayerMove? || m.Move? || m.Gamestate?
    ensures Decode(KindOf(m), Payload(m)) == Some(m)
  {}

  /** The round trip for the messages of game updates. */
  lemma DecodeUpdatePayload(m: Message)
    requires m.GameUpdate?
    ensures Decode(KindOf(m), Payload(m)) == Some(m)
  {}

  /** The round trip for the broker's notice of a game end. */
  lemma DecodeFinishedPayload(m: Message)
    requires m.Finished?
    ensures Decode(KindOf(m), Payload(m)) == Some(m)
  {
    if m.scores.Some? {
      ScoresRoundTrip(m.scores.value);
    }
  }

  /** The round trip for a game server's report of a game end. */
  lemma DecodeFinishPayload(m: Message)
    requires m.Finish?
    ensures Decode(KindOf(m), Payload(m)) == Some(m)
  {
    if m.scores.Some? {
      ScoresRoundTrip(m.scores.value);
    }
  }

  /** The receiver rebuilds exactly the record that was sent. */
  lemma DecodePayload(m: Message)
    ensures Decode(KindOf(m), Payload(m)) == Some(m)
  {
    if m.Joined? || m.JoinSuccess? || m.JoinFail? || m.Join? {
      DecodeJoinPayloads(m);
    } else if m.Register? || m.RoomCreated? || m.Rooms? || m.CreateRoom? || m.List? {
      DecodeRoutingPayloads(m);
    } else if m.PlayerMove? || m.Move? || m.Gamestate? {
      DecodeMovePayloads(m);
    } else if m.GameUpdate? {
      DecodeUpdatePayload(m);
    } else if m.Finished? {
      DecodeFinishedPayload(m);
    } else {
      DecodeFinishPayload(m);
    }
  }

  /** A decoded record is of the class asked for, and the data held none
      but that class's fields. */
  lemma DecodeSound(k: Kind, d: Object)
    requires Decode(k, d).Some?
    ensures KindOf(Decode(k, d).value) == k
    ensures d.Keys <= Payload(Decode(k, d).value).Keys
  {
    PayloadKeys(Decode(k, d).value);
  }

  /** The records with defaults, as built without the optional arguments. */
  function NewJoined(playerid: string, roomid: string): (m: Message)
    ensures m.Joined? && m.playerid == playerid && m.roomid == roomid && m.gamerole == None
  {
    Joined(playerid, roomid, None)
  }

  function NewGameUpdate(roomid: string, visibility: string, epoch: int, board: Object): (m: Message)
    ensures m.GameUpdate? && m.roomid == roomid && m.visibility == visibility && m.epoch == epoch && m.board == board
    ensures m.stateRef == None && m.forPlayer == None && m.turn == None
  {
    GameUpdate(roomid, visibility, epoch, board, None, None, None)
  }

  function NewFinish(roomid: string, normal: bool): (m: Message)
    ensures m.Finish? && m.roomid == roomid && m.normal == normal && m.scores == None && m.reason == None
  {
    Finish(roomid, normal, None, None)
  }

  /** The class attribute `schema`: the broker-facing classes carry their
      validator, every other class the empty schema, which accepts anything. */
  predicate SchemaValid(k: Kind, d: Object) {
    match k
    case CreateRoomKind => Schemas.CreateRoomValid(d)
    case JoinSuccessKind => Schemas.JoinSuccessValid(d)
    case JoinFailKind => Schemas.JoinFailValid(d)
    case GameUpdateKind => Schemas.GameUpdateValid(d)
    case FinishKind => Schemas.FinishValid(d)
    case JoinKind => Schemas.JoinValid(d)
    case MoveKind => Schemas.MoveValid(d)
    case _ => true
  }

  /** An emitted socket event: its name, its data (none for a bare `emit`),
      its addressee (None for the default) and the callback handed along. */
  datatype Event = Event(name: string, data: Option<Object>, room: Option<string>, callback: Option<nat>)

  /** A socket connection, seen as the events it has emitted so far. */
  class Channel {
    var sent: seq<Event>

    constructor ()
      ensures sent == []
    {
      sent := [];
    }

    method Emit(e: Event)
      modifies this
      ensures sent == old(sent) + [e]
    {
      sent := sent + [e];
    }
  }

  /** The event that carries record m to `to`. */
  function Emitted(m: Message, to: Option<string>, callback: Option<nat>): (e: Event)
    ensures e.name == EventName(KindOf(m)) && e.data == Some(Payload(m))
    ensures e.room == to && e.callback == callback
  {
    Event(EventName(KindOf(m)), Some(Payload(m)), to, callback)
  }

  /** `MessageBase.send`: emits the record under its event name, to `to` when
      given and without a room otherwise, passing the callback through. */
  method Send(sio: Channel, m: Message, to: Option<string>, callback: Option<nat>)
    modifies sio
    ensures sio.sent == old(sio.sent) + [Emitted(m, to, callback)]
  {
    sio.Emit(Emitted(m, to, callback));
  }
}

=== FILE: player.dfy ===
/**
 * The player client (`player.py`): it asks the broker for the rooms, joins
 * the first one still in the lobby, builds the bot for the room's game once
 * the join is confirmed, answers every game state that names it as the
 * player to move with a scissors-paper-rock choice, and starts over (or
 * disconnects) after a normal finish.
 */
module PlayerProcess {
  import opened Wrappers
  import opened Json
  import opened Exceptions
  import opened Messages
  import Spr
  import Broker
  import Rooms

  /** A room of the listing the client may join: its id, game and name as
      the listing gives them. */
  datatype Lobby = Lobby(id: string, game: Json, name: Json)

  predicate IsLobby(v: Json) {
    v.JObject? && "status" in v.fields && v.fields["status"] == JString("lobby")
  }

  /** The comprehension over `msg.rooms.items()`, in the dict's order `keys`:
      every entry's `status` is read, and the `game` and `name` of the lobby
      entries; a missing key raises KeyError and an entry that is not an
      object TypeError, at the first entry that has one. */
  function Lobbies(rooms: Object, keys: seq<string>): (r: Result<seq<Lobby>, Exc>)
    requires forall i :: 0 <= i < |keys| ==> keys[i] in rooms
    ensures r.Err? ==> r.error in {Builtin("KeyError"), Builtin("TypeError")}
    ensures r.Ok? ==> forall l :: l in r.value ==> l.id in keys && IsLobby(rooms[l.id])
    ensures r.Ok? ==> forall i :: 0 <= i < |keys| && IsLobby(rooms[keys[i]]) ==>
      exists l :: l in r.value && l.id == keys[i]
    decreases |keys|
  {
    if keys == [] then Ok([])
    else
      var v := rooms[keys[0]];
      if !v.JObject? then Err(Builtin("TypeError"))
      else if "status" !in v.fields then Err(Builtin("KeyError"))
      else if !IsLobby(v) then
        var rest := Lobbies(rooms, keys[1..]);
        if rest.Err? then rest
        else
          assert forall i :: 1 <= i < |keys| ==> keys[i] == keys[1..][i - 1];
          Ok(rest.value)
      else if "game" !in v.fields || "name" !in v.fields then Err(Builtin("KeyError"))
      else
        var rest := Lobbies(rooms, keys[1..]);
        if rest.Err? then rest
        else
          assert forall i :: 1 <= i < |keys| ==> keys[i] == keys[1..][i - 1];
          Ok([Lobby(keys[0], v.fields["game"], v.fields["name"])] + rest.value)
  }

  /** None of the first n entries is a lobby. */
  predicate NoLobbyBefore(rooms: Object, keys: seq<string>, n: nat)
    requires n <= |keys| && forall i :: 0 <= i < |keys| ==> keys[i] in rooms
  {
    forall j :: 0 <= j < n ==> !IsLobby(rooms[keys[j]])
  }

  /** The lobby picked is the first entry, in the dict's order, that is a
      lobby. */
  lemma {:induction false} FirstLobbyIsFirst(rooms: Object, keys: seq<string>)
    requires forall i :: 0 <= i < |keys| ==> keys[i] in rooms
    requires Lobbies(rooms, keys).Ok? && Lobbies(rooms, keys).value != []
    ensures exists i :: 0 <= i < |keys| && keys[i] == Lobbies(rooms, keys).value[0].id && NoLobbyBefore(rooms, keys, i)
    decreases |keys|
  {
    var first := Lobbies(rooms, keys).value[0];
    if IsLobby(rooms[keys[0]]) {
      assert keys[0] == first.id;
    } else {
      var rest := keys[1..];
      assert forall i :: 0 <= i < |rest| ==> rest[i] == keys[i + 1];
      FirstLobbyIsFirst(rooms, rest);
      var i :| 0 <= i < |rest| && rest[i] == first.id && NoLobbyBefore(rooms, rest, i);
      assert keys[i + 1] == first.id;
      assert NoLobbyBefore(rooms, keys, i + 1) by {
        forall j | 0 <= j < i + 1
          ensures !IsLobby(rooms[keys[j]])
        {
          if j > 0 {
            assert keys[j] == rest[j - 1];
          }
        }
      }
    }
  }

  /** When every entry is a lobby with a game and a name, the lobbies are
      read without error and the first is the first entry. */
  lemma {:induction false} AllLobbiesJoinable(rooms: Object, keys: seq<string>)
    requires forall i :: 0 <= i < |keys| ==> keys[i] in rooms
    requires forall i :: 0 <= i < |keys| ==>
      IsLobby(rooms[keys[i]]) && "game" in rooms[keys[i]].fields && "name" in rooms[keys[i]].fields
    ensures Lobbies(rooms, keys).Ok?
    ensures keys != [] ==> Lobbies(rooms, keys).value[0].id == keys[0]
    ensures keys == [] <==> Lobbies(rooms, keys).value == []
    decreases |keys|
  {
    if keys != [] {
      var rest := keys[1..];
      assert forall i :: 0 <= i < |rest| ==> rest[i] == keys[i + 1];
      AllLobbiesJoinable(rooms, rest);
    }
  }

  /** With the broker's listing, which holds only lobby rooms, the client
      picks the first room in the listing's order, and asks again only when
      the listing is empty. */
  lemma ListingIsJoinable(rooms: map<Rooms.RoomId, Rooms.Room>, players: map<Rooms.PlayerId, Rooms.Player>, keys: seq<string>)
    requires forall i :: 0 <= i < |keys| ==> keys[i] in Broker.Listing(rooms, players)
    ensures Lobbies(Broker.Listing(rooms, players), keys).Ok?
    ensures keys != [] ==> Lobbies(Broker.Listing(rooms, players), keys).value[0].id == keys[0]
    ensures keys == [] <==> Lobbies(Broker.Listing(rooms, players), keys).value == []
  {
    Broker.ListingIsTheLobby(rooms, players);
    AllLobbiesJoinable(Broker.Listing(rooms, players), keys);
  }

  /** The names of the games `all_players` has a bot for. */
  const BotGames: set<string> := {"ScissorsPaperRock", "TicTacToe"}

  /** The bot built for the joined room: its game and its role. */
  datatype Bot = Bot(game: string, gamerole: Option<string>)

  /** The move object the bot sends for a choice. */
  function MoveFor(c: Spr.Choice): (move: Object)
    ensures move.Keys == {"move"}
  {
    map["move" := JString(Spr.Name(c))]
  }

  /** Whatever the random pick, the game server reads back the same choice:
      the bot never provokes the ValueError of an unknown move. */
  lemma MovesAreLegalChoices(c: Spr.Choice)
    ensures Spr.Selected(MoveFor(c)) == Some(c)
  {
    Spr.ParseName(c);
  }

  class PlayerClient {
    var playerId: Option<string>
    var roomId: Option<string>
    var gameName: Option<Json>
    var lobbyName: Option<Json>
    var player: Option<Bot>
    const channel: Channel
    /** The RUN_ONCE setting. */
    const runOnce: bool
    var connected: bool

    /** The player id is only ever set together with the room id. */
    ghost predicate Valid()
      reads this
    {
      playerId.Some? ==> roomId.Some?
    }

    constructor (runOnce: bool)
      ensures Valid() && fresh(channel) && channel.sent == []
      ensures playerId.None? && roomId.None? && gameName.None? && lobbyName.None? && player.None?
      ensures this.runOnce == runOnce && connected
    {
      playerId, roomId, gameName, lobbyName, player := None, None, None, None, None;
      channel := new Channel();
      this.runOnce := runOnce;
      connected := true;
    }

    /** `on_connect`: everything the client knows is forgotten and the room
        list is requested (an event without data). */
    method OnConnect()
      modifies this`playerId, this`roomId, this`gameName, this`lobbyName, this`player, channel
      ensures Valid()
      ensures playerId.None? && roomId.None? && gameName.None? && lobbyName.None? && player.None?
      ensures channel.sent == old(channel.sent) + [Event("list", None, None, None)]
    {
      playerId, roomId, gameName, lobbyName, player := None, None, None, None, None;
      channel.Emit(Event("list", None, None, None));
    }

    /** `on_rooms`, with `keys` the order of the rooms dict: ignored once in a
        room; otherwise the first lobby is recorded and joined, and with none
        the list is requested again. `raised` is the exception that escapes. */
    method OnRooms(rooms: Object, keys: seq<string>) returns (raised: Option<Exc>)
      requires Valid()
      requires forall i :: 0 <= i < |keys| ==> keys[i] in rooms
      modifies this`roomId, this`gameName, this`lobbyName, channel
      ensures Valid()
      ensures old(roomId).Some? ==> raised.None? && unchanged(this) && channel.sent == old(channel.sent)
      ensures old(roomId).None? && Lobbies(rooms, keys).Err? ==>
        raised == Some(Lobbies(rooms, keys).error) && unchanged(this) && channel.sent == old(channel.sent)
      ensures old(roomId).None? && Lobbies(rooms, keys) == Ok([]) ==>
        raised.None? && unchanged(this) && channel.sent == old(channel.sent) + [Emitted(List, None, None)]
      ensures old(roomId).None? && Lobbies(rooms, keys).Ok? && Lobbies(rooms, keys).value != [] ==>
        var first := Lobbies(rooms, keys).value[0];
        && raised.None?
        && roomId == Some(first.id) && gameName == Some(first.game) && lobbyName == Some(first.name)
        && channel.sent == old(channel.sent) + [Emitted(Join(first.id, "Some Player"), None, None)]
    {
      if roomId.Some? {
        return None;
      }
      var lobbies := Lobbies(rooms, keys);
      if lobbies.Err? {
        return Some(lobbies.error);
      }
      if lobbies.value == [] {
        Send(channel, List, None, None);
        return None;
      }
      var first := lobbies.value[0];
      roomId, gameName, lobbyName := Some(first.id), Some(first.game), Some(first.name);
      Send(channel, Join(first.id, "Some Player"), None, None);
      raised := None;
    }

    /** `on_joined`: the ids are kept, then the bot for the room's game is
        built with the assigned role. After the ids are stored, a game name
        that is a dict or a list cannot be hashed, so the lookup in
        `all_players` raises TypeError; any other name without a bot,
        None included, raises KeyError. */
    method OnJoined(playerid: string, roomid: string, gamerole: Option<string>) returns (raised: Option<Exc>)
      modifies this`playerId, this`roomId, this`player
      ensures Valid()
      ensures playerId == Some(playerid) && roomId == Some(roomid)
      ensures (gameName.Some? && gameName.value.JString? && gameName.value.s in BotGames) <==> raised.None?
      ensures raised.None? ==> player == Some(Bot(gameName.value.s, gamerole))
      ensures raised.Some? ==> player == old(player)
      ensures raised.Some? ==>
        raised.value == Builtin(if gameName.Some? && (gameName.value.JObject? || gameName.value.JArray?)
                                then "TypeError" else "KeyError")
    {
      playerId, roomId := Some(playerid), Some(roomid);
      if gameName.Some? && gameName.value.JString? && gameName.value.s in BotGames {
        player := Some(Bot(gameName.value.s, gamerole));
        raised := None;
      } else if gameName.Some? && (gameName.value.JObject? || gameName.value.JArray?) {
        raised := Some(Builtin("TypeError"));
      } else {
        raised := Some(Builtin("KeyError"));
      }
    }

    /** `on_gamestate`: a move, here `choice`, is sent exactly when the state
        names this client as the player to move. */
    method OnGamestate(turn: Option<string>, choice: Spr.Choice)
      requires Valid()
      modifies channel
      ensures turn.Some? && turn == playerId ==>
        channel.sent == old(channel.sent) + [Emitted(Move(playerId.value, roomId.value, MoveFor(choice)), None, None)]
      ensures !(turn.Some? && turn == playerId) ==> channel.sent == old(channel.sent)
    {
      if turn == playerId && turn.Some? {
        Send(channel, Move(playerId.value, roomId.value, MoveFor(choice)), None, None);
      }
    }

    /** `on_finished`: after a normal finish the client reads its own score
        (a missing table raises TypeError, a missing entry KeyError) and then
        disconnects in run-once mode or starts over as on connect; an
        abnormal finish is only logged. */
    method OnFinished(normal: bool, scores: Option<Scores>) returns (raised: Option<Exc>)
      requires Valid()
      modifies this`playerId, this`roomId, this`gameName, this`lobbyName, this`player, this`connected, channel
      ensures Valid()
      ensures !normal ==> raised.None? && unchanged(this) && channel.sent == old(channel.sent)
      ensures normal && scores.None? ==>
        raised == Some(Builtin("TypeError")) && unchanged(this) && channel.sent == old(channel.sent)
      ensures normal && scores.Some? && (old(playerId).None? || old(playerId).value !in scores.value) ==>
        raised == Some(Builtin("KeyError")) && unchanged(this) && channel.sent == old(channel.sent)
      ensures normal && scores.Some? && old(playerId).Some? && old(playerId).value in scores.value ==>
        && raised.None?
        && (runOnce ==> !connected && unchanged(this`playerId, this`roomId, this`player) && channel.sent == old(channel.sent))
        && (!runOnce ==>
             && connected == old(connected) && playerId.None? && roomId.None? && player.None?
             && channel.sent == old(channel.sent) + [Event("list", None, None, None)])
    {
      if !normal {
        return None;
      }
      if scores.None? {
        return Some(Builtin("TypeError"));
      }
      if playerId.None? || playerId.value !in scores.value {
        return Some(Builtin("KeyError"));
      }
      if runOnce {
        connected := false;
      } else {
        OnConnect();
      }
      raised := None;
    }
  }
}

=== FILE: players.dfy ===
/**
 * The random bots. Each lists the moves it considers legal and picks one of
 * them; the pick is random in the program and a nondeterministic choice here.
 */
module RandomPlayers {
  import opened Wrappers
  import opened Exceptions
  import opened Json
  import Kalaha
  import TicTacToe

  /** Indices from i on of the pits holding at least one stone, in order. */
  function NonEmptyFrom(pits: seq<int>, i: nat): (r: seq<int>)
    requires i <= |pits|
    ensures forall k :: 0 <= k < |r| ==> i <= r[k] < |pits| && pits[r[k]] > 0
    ensures forall j :: i <= j < |pits| && pits[j] > 0 ==> j in r
    ensures forall a, b :: 0 <= a < b < |r| ==> r[a] < r[b]
    decreases |pits| - i
  {
    if i == |pits| then []
    else if pits[i] > 0 then [i] + NonEmptyFrom(pits, i + 1)
    else NonEmptyFrom(pits, i + 1)
  }

  /** The Kalaha bot's legal moves: its own pits that are not empty. */
  function KalahaLegalMoves(b: Kalaha.Board, role: Kalaha.Role): (r: seq<int>)
    requires Kalaha.WellFormed(b)
    ensures forall m :: m in r <==> Kalaha.MoveInRange(m) && Kalaha.Get(b, Kalaha.Pit(role, m)) > 0
  {
    var pits := Kalaha.PitsOf(b, role);
    var r := NonEmptyFrom(pits, 0);
    assert forall m :: 0 <= m < 6 ==> pits[m] == Kalaha.Get(b, Kalaha.Pit(role, m));
    r
  }

  /** `get_move` of the Kalaha bot: board and role must be known; with no
      legal move `random.choice` fails on the empty list. */
  method KalahaGetMove(board: Option<Kalaha.Board>, role: Option<Kalaha.Role>) returns (r: Result<int, Exc>)
    requires board.Some? && Kalaha.WellFormed(board.value) && role.Some?
    ensures r.Err? <==> KalahaLegalMoves(board.value, role.value) == []
    ensures r.Err? ==> r.error == Builtin("IndexError")
    ensures r.Ok? ==> r.value in KalahaLegalMoves(board.value, role.value)
  {
    var legalMoves := KalahaLegalMoves(board.value, role.value);
    if legalMoves == [] {
      return Err(Builtin("IndexError"));
    }
    assert legalMoves[0] in legalMoves;
    var m :| m in legalMoves;
    return Ok(m);
  }

  /** The bot never picks an empty pit, so the server never answers its move
      with "Empty pit chosen". */
  lemma KalahaBotAvoidsEmptyPits(b: Kalaha.Board, role: Kalaha.Role, m: int)
    requires Kalaha.WellFormed(b) && m in KalahaLegalMoves(b, role)
    ensures Kalaha.MoveInRange(m)
    ensures Kalaha.Get(b, Kalaha.Pit(role, m)) != 0
  {
  }

  /** Cells from the k-th on (row-major) that are still empty. */
  function EmptyCellsFrom(g: TicTacToe.Grid, k: nat): (r: seq<(int, int)>)
    requires TicTacToe.WellFormed(g) && k <= 9
    ensures forall m :: m in r ==> TicTacToe.InRange(m.0, m.1) && 3 * m.0 + m.1 >= k && g[m.0][m.1].None?
    ensures forall row, col :: TicTacToe.InRange(row, col) && 3 * row + col >= k && g[row][col].None? ==> (row, col) in r
    decreases 9 - k
  {
    if k == 9 then []
    else
      var rest := EmptyCellsFrom(g, k + 1);
      if g[k / 3][k % 3].None? then [(k / 3, k % 3)] + rest else rest
  }

  /** The tic-tac-toe bot's available moves, over the grid itself. */
  function AvailableMoves(g: TicTacToe.Grid): (r: seq<(int, int)>)
    requires TicTacToe.WellFormed(g)
    ensures forall row, col :: (row, col) in r <==> TicTacToe.InRange(row, col) && g[row][col].None?
    ensures r == [] <==> TicTacToe.Full(g)
  {
    NoEmptyCellIffFull(g);
    EmptyCellsFrom(g, 0)
  }

  lemma NoEmptyCellIffFull(g: TicTacToe.Grid)
    requires TicTacToe.WellFormed(g)
    ensures EmptyCellsFrom(g, 0) == [] <==> TicTacToe.Full(g)
  {
    var r := EmptyCellsFrom(g, 0);
    if r == [] {
      assert forall row, col :: 0 <= row < 3 && 0 <= col < 3 && g[row][col].None? ==> (row, col) in r;
    } else {
      assert r[0] in r;
    }
  }

  /** `get_move` of the tic-tac-toe bot over the grid: a random empty cell;
      with none left `random.choice` fails on the empty list. */
  method TicTacToeGetMove(g: TicTacToe.Grid) returns (r: Result<(int, int), Exc>)
    requires TicTacToe.WellFormed(g)
    ensures r.Err? <==> TicTacToe.Full(g)
    ensures r.Err? ==> r.error == Builtin("IndexError")
    ensures r.Ok? ==> TicTacToe.InRange(r.value.0, r.value.1) && g[r.value.0][r.value.1].None?
  {
    var available := AvailableMoves(g);
    if available == [] {
      return Err(Builtin("IndexError"));
    }
    assert available[0] in available;
    var m :| m in available;
    return Ok(m);
  }

  /** Python's `board[i]` on a JSON value: a list is indexed by position and
      a string gives its one-character string (negative positions count from
      the end, others out of range raise IndexError), a dict is looked up by
      key and an integer is never a key of a dict decoded from JSON, and
      None, a bool or an int cannot be indexed. */
  function Index(v: Json, i: int): (r: Result<Json, Exc>)
    ensures r.Ok? <==> (v.JArray? && -|v.items| <= i < |v.items|) || (v.JString? && -|v.s| <= i < |v.s|)
    ensures v.JArray? && 0 <= i < |v.items| ==> r == Ok(v.items[i])
    ensures v.JArray? && -|v.items| <= i < 0 ==> r == Ok(v.items[|v.items| + i])
    ensures v.JString? && 0 <= i < |v.s| ==> r == Ok(JString([v.s[i]]))
    ensures v.JString? && -|v.s| <= i < 0 ==> r == Ok(JString([v.s[|v.s| + i]]))
    ensures r.Err? && (v.JArray? || v.JString?) ==> r.error == Builtin("IndexError")
    ensures v.JObject? ==> r == Err(Builtin("KeyError"))
    ensures v.JNull? || v.JBool? || v.JInt? ==> r == Err(Builtin("TypeError"))
  {
    match v
    case JArray(items) =>
      if 0 <= i < |items| then Ok(items[i])
      else if -|items| <= i < 0 then Ok(items[|items| + i])
      else Err(Builtin("IndexError"))
    case JString(s) =>
      if 0 <= i < |s| then Ok(JString([s[i]]))
      else if -|s| <= i < 0 then Ok(JString([s[|s| + i]]))
      else Err(Builtin("IndexError"))
    case JObject(_) => Err(Builtin("KeyError"))
    case _ => Err(Builtin("TypeError"))
  }

  /** As written, the bot reads `board[row][col]` while the server's board is
      `{"grid": ...}`: the very first lookup fails, for every grid. */
  lemma TicTacToeBotMisreadsBoard(grid: Json, row: int)
    ensures Index(JObject(map["grid" := grid]), row) == Err(Builtin("KeyError"))
  {
  }
}

=== FILE: rooms.dfy ===
/**
 * The broker's persisted records: a `Room` with its status, turn and board,
 * the `Player` seated in it and the `GameState` log of moves and boards.
 * Ids and clock readings are chosen by the store and passed in.
 */
module Rooms {
  import opened Wrappers
  import opened Json
  import Schemas

  type RoomId = string
  type PlayerId = string
  type StateId = string
  type Sid = string

  datatype Room = Room(
    id: RoomId,
    name: string,
    game: string,
    maxplayers: int,
    serverSid: Sid,
    board: Option<Object>,
    status: string,
    turn: Option<PlayerId>,
    normalFinish: Option<bool>,
    createdAt: int)

  /** A room as first stored: in the lobby, nobody to move, no finish yet and
      no board. */
  function NewRoom(id: RoomId, name: string, game: string, maxplayers: int, serverSid: Sid, now: int): (r: Room)
    ensures r.status == "lobby" && r.turn == None && r.normalFinish == None && r.board == None
    ensures r.id == id && r.name == name && r.game == game && r.maxplayers == maxplayers && r.serverSid == serverSid
  {
    Room(id, name, game, maxplayers, serverSid, None, "lobby", None, None, now)
  }

  /** The socket group every player of the room is in. */
  function BroadcastSid(id: RoomId): string {
    "room_" + id
  }

  /** The socket group of the room's spectators. */
  function SpectatorSid(id: RoomId): string {
    "room_spectator_" + id
  }

  /** The two groups of one room never coincide, and each group names one room. */
  lemma GroupNamesDiffer(id: RoomId, other: RoomId)
    ensures BroadcastSid(id) != SpectatorSid(id)
    ensures BroadcastSid(id) == BroadcastSid(other) <==> id == other
    ensures SpectatorSid(id) == SpectatorSid(other) <==> id == other
  {
    assert |BroadcastSid(id)| != |SpectatorSid(id)|;
    if BroadcastSid(id) == BroadcastSid(other) {
      assert id == BroadcastSid(id)[5..];
    }
    if SpectatorSid(id) == SpectatorSid(other) {
      assert id == SpectatorSid(id)[15..];
    }
  }

  /** With room ids over [a-z0-9-] (no underscore) no room's broadcast group
      is any room's spectator group. */
  lemma GroupNamesDisjoint(a: RoomId, b: RoomId)
    requires Schemas.AllIn(a, Schemas.IdClass)
    ensures BroadcastSid(a) != SpectatorSid(b)
  {
    assert SpectatorSid(b)[14] == '_';
    if |a| > 9 {
      assert BroadcastSid(a)[14] == a[9];
      assert Schemas.InClass(a[9], Schemas.IdClass);
    } else {
      assert |BroadcastSid(a)| < |SpectatorSid(b)|;
    }
  }

  datatype Player = Player(
    id: PlayerId,
    name: string,
    sid: Sid,
    gamerole: Option<string>,
    joined: bool,
    roomId: Option<RoomId>,
    userId: Option<string>)

  /** A player as `on_join` stores it: not yet joined and without a role. */
  function NewPlayer(id: PlayerId, name: string, roomId: RoomId, userId: Option<string>, sid: Sid): (p: Player)
    ensures !p.joined && p.gamerole == None
    ensures p.id == id && p.name == name && p.roomId == Some(roomId) && p.userId == userId && p.sid == sid
  {
    Player(id, name, sid, None, false, Some(roomId), userId)
  }

  datatype GameState = GameState(
    id: StateId,
    playerId: Option<PlayerId>,
    roomId: Option<RoomId>,
    epoch: Option<int>,
    move: Option<Object>,
    board: Option<Object>,
    turn: Option<PlayerId>,
    timestamp: int)

  /** A new game state has no player, room, epoch, move, board or turn. */
  function NewGameState(id: StateId, now: int): (s: GameState)
    ensures s.id == id && s.timestamp == now
    ensures s.playerId == None && s.roomId == None
    ensures s.epoch == None && s.move == None && s.board == None && s.turn == None
  {
    GameState(id, None, None, None, None, None, None, now)
  }
}

=== FILE: schemas.dfy ===
/**
 * The payload validators of the broker, one predicate per schema. Each one
 * reads the JSON Schema Validation draft-07 keywords the schema uses:
 * `required` (section 6.5.3), `additionalProperties: false` (section 6.5.6,
 * with `properties` of section 6.5.4 naming the allowed keys), `pattern`
 * (section 6.3.3), `enum` (section 6.1.2), `type` (section 6.1.1), `minimum` and
 * `maximum` (sections 6.2.4 and 6.2.2) and `if`/`then`/`else` (section 6.6).
 *
 * Patterns are evaluated as the validator evaluates them, with Python's
 * `re.search`: without the MULTILINE flag `$` matches at the end of the string
 * and also just before a final newline, so "^(C*)$" accepts a string of class-C
 * characters optionally followed by one "\n".
 */
module Schemas {
  import opened Json

  /** The character classes the patterns use. */
  datatype CharClass =
    | IdClass        // [a-z0-9-]
    | NameClass      // [a-zA-Z _0-9-], also written [a-zA-Z0-9_ -]
    | AnyButNewline  // .

  predicate InClass(c: char, cls: CharClass) {
    match cls
    case IdClass => ('a' <= c <= 'z') || ('0' <= c <= '9') || c == '-'
    case NameClass => ('a' <= c <= 'z') || ('A' <= c <= 'Z') || ('0' <= c <= '9') || c == ' ' || c == '_' || c == '-'
    case AnyButNewline => c != '\n'
  }

  predicate AllIn(s: string, cls: CharClass) {
    forall i :: 0 <= i < |s| ==> InClass(s[i], cls)
  }

  /** `re.search("^(C*)$", s)`, or "^(C+)$" when `nonEmpty`. */
  predicate Matches(s: string, cls: CharClass, nonEmpty: bool) {
    || (AllIn(s, cls) && (nonEmpty ==> |s| > 0))
    || (|s| > 0 && s[|s| - 1] == '\n' && AllIn(s[..|s| - 1], cls) && (nonEmpty ==> |s| > 1))
  }

  /** A string matching "^([a-z0-9-]*)$": room, player and state ids. */
  predicate IdString(j: Json) {
    j.JString? && Matches(j.s, IdClass, false)
  }

  predicate OnlyKeys(d: Object, allowed: set<string>) {
    d.Keys <= allowed
  }

  predicate CreateRoomValid(d: Object) {
    && {"name", "game", "maxplayers"} <= d.Keys
    && OnlyKeys(d, {"name", "game", "maxplayers"})
    && d["name"].JString? && Matches(d["name"].s, NameClass, false)
    && d["game"].JString? && Matches(d["game"].s, AnyButNewline, false)
    && d["maxplayers"].JInt?
  }

  predicate JoinValid(d: Object) {
    && {"roomid", "name"} <= d.Keys
    && OnlyKeys(d, {"roomid", "name"})
    && IdString(d["roomid"])
    && d["name"].JString? && Matches(d["name"].s, NameClass, true)
  }

  predicate JoinSuccessValid(d: Object) {
    && {"playerid", "roomid"} <= d.Keys
    && OnlyKeys(d, {"playerid", "roomid", "gamerole"})
    && IdString(d["playerid"]) && IdString(d["roomid"])
    && ("gamerole" in d ==> d["gamerole"].JString?)
  }

  predicate JoinFailValid(d: Object) {
    && {"playerid", "roomid"} <= d.Keys
    && OnlyKeys(d, {"playerid", "roomid", "reason"})
    && IdString(d["playerid"]) && IdString(d["roomid"])
    && ("reason" in d ==> d["reason"].JString?)
  }

  const Visibilities: set<Json> := {JString("broadcast"), JString("spectator"), JString("private")}

  /** The `if` of the gameupdate schema: `properties` only constrains keys that
      are present, so it also holds when visibility is absent. */
  predicate PrivateBranch(d: Object) {
    "visibility" !in d || d["visibility"] == JString("private")
  }

  predicate GameUpdateValid(d: Object) {
    && {"visibility", "roomid", "board", "epoch"} <= d.Keys
    && OnlyKeys(d, {"playerid", "roomid", "visibility", "stateid", "epoch", "board", "turn"})
    && ("playerid" in d ==> IdString(d["playerid"]))
    && IdString(d["roomid"])
    && d["visibility"] in Visibilities
    && ("stateid" in d ==> IdString(d["stateid"]))
    && d["epoch"].JInt?
    && d["board"].JObject?
    && ("turn" in d ==> d["turn"] == JNull || IdString(d["turn"]))
    && (if PrivateBranch(d) then "playerid" in d && "epoch" !in d
        else "epoch" in d && "playerid" !in d)
  }

  predicate MoveValid(d: Object) {
    && {"move", "playerid", "roomid"} <= d.Keys
    && OnlyKeys(d, {"move", "playerid", "roomid"})
    && IdString(d["playerid"])
    && d["move"].JObject?
    && IdString(d["roomid"])
  }

  /** `propertyNames` with the id pattern and `additionalProperties` integers
      in [-1, 1]: a score table. */
  predicate ScoreTable(j: Json) {
    && j.JObject?
    && (forall k :: k in j.fields ==> Matches(k, IdClass, false))
    && (forall k :: k in j.fields ==> j.fields[k].JInt? && -1 <= j.fields[k].i <= 1)
  }

  predicate FinishValid(d: Object) {
    && {"normal", "scores", "roomid"} <= d.Keys
    && OnlyKeys(d, {"normal", "scores", "roomid"})
    && d["normal"].JBool?
    && ScoreTable(d["scores"])
    && IdString(d["roomid"])
  }

  /** Epoch is required at the top level and forbidden by the private branch:
      no private game update can validate. */
  lemma NoPrivateGameUpdate(d: Object)
    requires GameUpdateValid(d)
    ensures d["visibility"] != JString("private")
  {
  }

  /** A valid update is broadcast or spectator, carries an epoch and no player id. */
  lemma ValidGameUpdateShape(d: Object)
    requires GameUpdateValid(d)
    ensures d["visibility"] in {JString("broadcast"), JString("spectator")}
    ensures "epoch" in d && "playerid" !in d
  {
  }

  /** The `$` of Python's `re` lets one trailing newline through an id pattern. */
  lemma IdPatternAcceptsTrailingNewline()
    ensures Matches("room-1\n", IdClass, false)
    ensures !Matches("room-1\n\n", IdClass, false)
    ensures !Matches("room_1", IdClass, false)
  {
    assert !InClass('\n', IdClass);
    assert ("room-1\n\n")[..7][6] == '\n';
    assert !InClass(("room_1")[4], IdClass);
  }

}

=== FILE: spr.dfy ===
/**
 * Scissors-paper-rock on top of the shared seating and move checks. The
 * first choice is kept hidden while the game runs, a repeated choice starts
 * the round again, and the winner follows the cycle scissors 0, paper 1,
 * rock 2: the first player wins iff the second choice is the next one round
 * the cycle.
 */
module Spr {
  import opened Wrappers
  import opened Exceptions
  import opened GameBase
  import opened Json

  datatype Choice = Scissors | Paper | Rock

  /** The wire spelling of a choice. */
  function Name(c: Choice): string {
    match c
    case Scissors => "scissors"
    case Paper => "paper"
    case Rock => "rock"
  }

  /** `m not in ["scissors", "paper", "rock"]` decides the ValueError. */
  function ParseChoice(m: string): (r: Option<Choice>)
    ensures r.Some? <==> m in ["scissors", "paper", "rock"]
    ensures r.Some? ==> Name(r.value) == m
  {
    if m == "scissors" then Some(Scissors)
    else if m == "paper" then Some(Paper)
    else if m == "rock" then Some(Rock)
    else None
  }

  /** `move["move"]` checked against the three names: the choice a move
      object selects, if any. */
  function Selected(move: Object): (r: Option<Choice>)
    ensures r.Some? <==> "move" in move && move["move"] in [JString("scissors"), JString("paper"), JString("rock")]
    ensures r.Some? ==> move["move"] == JString(Name(r.value))
  {
    if "move" in move && move["move"].JString? then ParseChoice(move["move"].s) else None
  }

  lemma ParseName(c: Choice)
    ensures ParseChoice(Name(c)) == Some(c)
  {
  }

  /** `move_map` */
  function MoveMap(c: Choice): (r: nat)
    ensures r < 3
  {
    match c
    case Scissors => 0
    case Paper => 1
    case Rock => 2
  }

  /** The rule of the game, as its description states it. */
  predicate Beats(a: Choice, b: Choice) {
    (a == Scissors && b == Paper) || (a == Paper && b == Rock) || (a == Rock && b == Scissors)
  }

  /** The test `score` applies to the two choices. */
  predicate FirstWins(first: Choice, second: Choice) {
    MoveMap(second) == (MoveMap(first) + 1) % 3
  }

  /** The mod-3 test is exactly the description's "beats". */
  lemma FirstWinsIffBeats(first: Choice, second: Choice)
    ensures FirstWins(first, second) <==> Beats(first, second)
  {
  }

  /** Of two different choices exactly one beats the other: no draw remains
      once a tie has been replayed. */
  lemma BeatsIsTotalOnDistinct(a: Choice, b: Choice)
    requires a != b
    ensures Beats(a, b) != Beats(b, a)
  {
  }

  lemma NothingBeatsItself(a: Choice)
    ensures !Beats(a, a)
  {
  }

  datatype MoveOutcome = Continue | Completed | Raised(e: Exc)

  /** The two choice slots of `board["choices"]`. */
  type Choices = seq<Option<Choice>>

  class ScissorsPaperRock {
    const base: BaseGameServer<Choices>

    ghost predicate Valid()
      reads this, base
    {
      && base.Valid()
      && base.maxPlayers == 2
      && (base.board.Some? ==> |base.board.value| == 2 && |base.players| == 2)
      && (base.playing ==> base.board.Some? && base.turn.value < 2)
      && (base.playing && base.turn != Some(0) ==> base.board.value[0].Some?)
    }

    constructor ()
      ensures Valid() && fresh(base)
      ensures base.players == [] && !base.playing && base.board == None && base.movenumber == 0
    {
      base := new BaseGameServer(2);
    }

    /** `init_game`: both slots empty. */
    method InitGame()
      modifies base`board
      ensures base.board == Some([None, None])
    {
      base.board := Some([None, None]);
    }

    /** `add_player`, with the game's `init_game` run when the game fills. */
    method AddPlayer(playerId: PlayerId) returns (r: Result<bool, Exc>)
      requires Valid()
      modifies base`players, base`playing, base`turn, base`board
      ensures Valid()
      ensures r.Err? ==> r.error.Asimov? && r.error.kind in {ExistingPlayer, GameFull} && unchanged(base)
      ensures playerId in old(base.players) ==> r == Err(Asimov(ExistingPlayer, ""))
      ensures playerId !in old(base.players) && |old(base.players)| >= 2 ==> r == Err(Asimov(GameFull, ""))
      ensures playerId !in old(base.players) && |old(base.players)| < 2 ==> r == Ok(|base.players| == 2)
      ensures r == Ok(true) ==> base.board == Some([None, None]) && base.playing && base.turn == Some(0)
      ensures r == Ok(false) ==> base.board == old(base.board)
      ensures r.Ok? ==> base.players == old(base.players) + [playerId]
    {
      r := base.AddPlayer(playerId);
      if r == Ok(true) {
        InitGame();
      }
    }

    /** `make_move`: a move object without a "move" key raises KeyError and
        one naming no choice raises ValueError, both changing nothing. On
        turn 0 the choice goes to slot 0 and the second player is to move;
        otherwise a choice equal to the first empties both slots and gives
        the turn back to the first player, and a different one is stored in
        slot 1 and completes the game. */
    method MakeMove(move: Object) returns (r: MoveOutcome)
      requires Valid() && base.playing
      modifies base`board, base`turn
      ensures Valid()
      ensures "move" !in move ==> r == Raised(Builtin("KeyError")) && unchanged(base)
      ensures "move" in move && Selected(move).None? ==> r == Raised(Builtin("ValueError")) && unchanged(base)
      ensures Selected(move).Some? && old(base.turn) == Some(0) ==>
        r == Continue && base.board == Some(old(base.board).value[0 := Selected(move)]) && base.turn == Some(1)
      ensures Selected(move).Some? && old(base.turn) != Some(0) && old(base.board).value[0] == Selected(move) ==>
        r == Continue && base.board == Some([None, None]) && base.turn == Some(0)
      ensures Selected(move).Some? && old(base.turn) != Some(0) && old(base.board).value[0] != Selected(move) ==>
        r == Completed && base.board == Some(old(base.board).value[1 := Selected(move)]) && base.turn == old(base.turn)
    {
      if "move" !in move {
        return Raised(Builtin("KeyError"));
      }
      var choice := Selected(move);
      if choice.None? {
        return Raised(Builtin("ValueError"));
      }
      var choices := base.board.value;
      if base.turn == Some(0) {
        base.board := Some(choices[0 := choice]);
        base.turn := Some(1);
        return Continue;
      }
      if choice == choices[0] {
        base.board := Some([None, None]);
        base.turn := Some(0);
        return Continue;
      }
      base.board := Some(choices[1 := choice]);
      return Completed;
    }

    /** `move`: the shared checks, then `make_move`, whose board and turn
        follow as `MakeMove` states them; when `make_move` returns normally
        the result is `show_board()`, and when it raises nothing is
        returned. */
    method Move(playerId: PlayerId, move: Object) returns (r: MoveOutcome, shown: Option<map<PlayerId, Option<Choice>>>)
      requires Valid()
      modifies base`board, base`turn, base`movenumber
      ensures Valid()
      ensures !base.playing ==> r == Raised(Asimov(GameNotRunning, "")) && shown.None? && unchanged(base)
      ensures base.playing && base.players[old(base.turn).value] != playerId ==>
        r == Raised(Asimov(NotPlayersTurn, "")) && shown.None? && unchanged(base)
      ensures base.playing && base.players[old(base.turn).value] == playerId ==>
        && base.movenumber == old(base.movenumber) + 1
        && base.players == old(base.players)
        && shown == (if r == Continue then ShowBoard() else None)
      ensures base.playing && base.players[old(base.turn).value] == playerId && Selected(move).None? ==>
        && r == Raised(Builtin(if "move" in move then "ValueError" else "KeyError"))
        && base.board == old(base.board) && base.turn == old(base.turn)
      ensures base.playing && base.players[old(base.turn).value] == playerId && Selected(move).Some? ==>
        var choices, choice := old(base.board).value, Selected(move);
        && (old(base.turn) == Some(0) ==>
              r == Continue && base.board == Some(choices[0 := choice]) && base.turn == Some(1))
        && (old(base.turn) != Some(0) && choices[0] == choice ==>
              r == Continue && base.board == Some([None, None]) && base.turn == Some(0))
        && (old(base.turn) != Some(0) && choices[0] != choice ==>
              r == Completed && base.board == Some(choices[1 := choice]) && base.turn == old(base.turn))
    {
      var check := base.CheckMove(playerId);
      if check.Err? {
        return Raised(check.error), None;
      }
      r := MakeMove(move);
      shown := if r == Continue then ShowBoard() else None;
    }

    /** `show_board`: each seated player mapped to their slot, hidden (None)
        while the game runs; None before there is a board. */
    function ShowBoard(): (r: Option<map<PlayerId, Option<Choice>>>)
      requires Valid()
      reads this, base
      ensures r.None? <==> base.board.None?
      ensures r.Some? ==> r.value.Keys == {base.players[0], base.players[1]}
      ensures r.Some? && base.playing ==> forall p :: p in r.value ==> r.value[p].None?
      ensures r.Some? && !base.playing ==>
        forall i :: 0 <= i < 2 ==> r.value[base.players[i]] == base.board.value[i]
    {
      if base.board.None? then None
      else
        var choices := base.board.value;
        var players := base.players;
        Some(map i | 0 <= i < 2 :: players[i] := if base.playing then None else choices[i])
    }

    /** `score`: records the winner's index (0 iff the first choice wins) and
        gives that player 1 and the other -1; there is never a draw. */
    method Score() returns (r: map<PlayerId, int>)
      requires Valid() && base.board.Some?
      requires base.board.value[0].Some? && base.board.value[1].Some?
      modifies base`winner
      ensures Valid()
      ensures var first, second := base.board.value[0].value, base.board.value[1].value;
        base.winner == Some(if FirstWins(first, second) then 0 else 1)
      ensures r.Keys == {base.players[0], base.players[1]}
      ensures forall p :: p in r ==> r[p] == 1 || r[p] == -1
      ensures var first, second := base.board.value[0].value, base.board.value[1].value;
        r[base.players[0]] == 1 <==> FirstWins(first, second)
      ensures r[base.players[0]] == -r[base.players[1]]
    {
      var first := MoveMap(base.board.value[0].value);
      var second := MoveMap(base.board.value[1].value);
      if second == (first + 1) % 3 {
        base.winner := Some(0);
      } else {
        base.winner := Some(1);
      }
      var players := base.players;
      var w := base.winner.value;
      r := map i | 0 <= i < 2 :: players[i] := if i == w then 1 else -1;
    }
  }
}

=== FILE: tictactoe.dfy ===
/**
 * Noughts and crosses. The board is a 3x3 grid of cells, each empty (None)
 * or holding the role string of the player who played there. After a move
 * only the lines through the chosen cell are inspected (its row, its column
 * and both diagonals); `LocalWinIffWin` shows that this finds every winning
 * line that can appear.
 */
module TicTacToe {
  import opened Wrappers
  import opened Exceptions
  import GameBase

  type PlayerId = string
  type Cell = Option<string>
  type Grid = seq<seq<Cell>>

  predicate WellFormed(g: Grid) {
    |g| == 3 && forall r :: 0 <= r < 3 ==> |g[r]| == 3
  }

  predicate InRange(row: int, col: int) {
    0 <= row < 3 && 0 <= col < 3
  }

  const EmptyGrid: Grid := [[None, None, None], [None, None, None], [None, None, None]]

  /** `grid[row][col] = value` */
  function Place(g: Grid, row: int, col: int, v: Cell): (r: Grid)
    requires WellFormed(g) && InRange(row, col)
    ensures WellFormed(r)
    ensures r[row][col] == v
    ensures forall i, j :: InRange(i, j) && (i, j) != (row, col) ==> r[i][j] == g[i][j]
  {
    g[row := g[row][col := v]]
  }

  predicate RowFilled(g: Grid, r: int, v: Cell)
    requires WellFormed(g) && 0 <= r < 3
  {
    forall i :: 0 <= i < 3 ==> g[r][i] == v
  }

  predicate ColFilled(g: Grid, c: int, v: Cell)
    requires WellFormed(g) && 0 <= c < 3
  {
    forall i :: 0 <= i < 3 ==> g[i][c] == v
  }

  predicate DiagFilled(g: Grid, v: Cell)
    requires WellFormed(g)
  {
    forall i :: 0 <= i < 3 ==> g[i][i] == v
  }

  predicate AntiDiagFilled(g: Grid, v: Cell)
    requires WellFormed(g)
  {
    forall i :: 0 <= i < 3 ==> g[i][2 - i] == v
  }

  /** The reference rule: some row, column or diagonal is all v. */
  predicate Wins(g: Grid, v: Cell)
    requires WellFormed(g)
  {
    || (exists r :: 0 <= r < 3 && RowFilled(g, r, v))
    || (exists c :: 0 <= c < 3 && ColFilled(g, c, v))
    || DiagFilled(g, v)
    || AntiDiagFilled(g, v)
  }

  /** The check `make_move` performs after playing at (row, col). */
  predicate LocalWin(g: Grid, row: int, col: int, v: Cell)
    requires WellFormed(g) && InRange(row, col)
  {
    RowFilled(g, row, v) || ColFilled(g, col, v) || DiagFilled(g, v) || AntiDiagFilled(g, v)
  }

  predicate Full(g: Grid)
    requires WellFormed(g)
  {
    forall r, c :: 0 <= r < 3 && 0 <= c < 3 ==> g[r][c].Some?
  }

  /** Checking only the lines through the new cell loses nothing: when v had
      no line before the move, the local check succeeds iff v has a line now. */
  lemma LocalWinIffWin(g: Grid, row: int, col: int, v: Cell)
    requires WellFormed(g) && InRange(row, col) && !Wins(g, v)
    ensures LocalWin(Place(g, row, col, v), row, col, v) <==> Wins(Place(g, row, col, v), v)
  {
    var g' := Place(g, row, col, v);
    forall r | 0 <= r < 3 && r != row
      ensures RowFilled(g', r, v) ==> RowFilled(g, r, v)
    {
      assert forall i :: 0 <= i < 3 ==> g'[r][i] == g[r][i];
    }
    forall c | 0 <= c < 3 && c != col
      ensures ColFilled(g', c, v) ==> ColFilled(g, c, v)
    {
      assert forall i :: 0 <= i < 3 ==> g'[i][c] == g[i][c];
    }
  }

  /** A move writes a cell, so it never makes a non-full grid out of a full
      one, and it fills the grid only by filling the chosen cell. */
  lemma PlaceFills(g: Grid, row: int, col: int, v: Cell)
    requires WellFormed(g) && InRange(row, col) && g[row][col].None? && v.Some?
    ensures Full(Place(g, row, col, v)) <==>
      forall r, c :: InRange(r, c) && (r, c) != (row, col) ==> g[r][c].Some?
  {
  }

  /** `asign_role`: "x" while nobody holds it, else "o", recording nothing.
      `roles` is None while the attribute has never been assigned, and
      reading it then raises AttributeError. */
  function AssignRole(roles: Option<map<string, PlayerId>>): (r: Result<string, Exc>)
    ensures roles.None? <==> r == Err(Builtin("AttributeError"))
    ensures roles.Some? ==> (r == Ok("x") <==> "x" !in roles.value)
    ensures roles.Some? ==> r == Ok("x") || r == Ok("o")
  {
    if roles.None? then Err(Builtin("AttributeError"))
    else if "x" in roles.value then Ok("o") else Ok("x")
  }

  /** As written, the occupied-cell rejection builds IllegalMove with a
      keyword argument; the exception classes define no constructor taking
      one, so Python raises TypeError in its place. */
  function OccupiedCellAsWritten(): Exc {
    Builtin("TypeError")
  }

  /** That TypeError escapes every handler that expects an arena error. */
  lemma OccupiedCellEscapes()
    ensures !IsCaughtAsError(OccupiedCellAsWritten())
    ensures OccupiedCellAsWritten() != Asimov(IllegalMove, OccupiedMessage)
  {
  }

  const OccupiedMessage := "Attempted to play in square that is already occupied"

  /** The intended rejection is an IllegalMove, which error handlers catch. */
  lemma OccupiedCellIsCaught()
    ensures IsCaughtAsError(Asimov(IllegalMove, OccupiedMessage))
  {
    assert Parent(IllegalMove) == Some(AsimovServerError);
    assert Parent(AsimovServerError) == Some(AsimovErrorBase);
  }

  datatype MoveOutcome = Continue | Completed | Raised(e: Exc)

  class TicTacToeServer {
    var board: Option<Grid>
    var turn: Option<PlayerId>
    var winner: Option<PlayerId>
    var players: seq<PlayerId>
    /** `self.roles`. No code assigns the attribute, so a new server starts
        with None. */
    var roles: Option<map<string, PlayerId>>

    ghost predicate Valid()
      reads this
    {
      board.Some? ==> WellFormed(board.value)
    }

    constructor ()
      ensures Valid()
      ensures board == None && turn == None && winner == None && players == [] && roles == None
    {
      board, turn, winner := None, None, None;
      players, roles := [], None;
    }

    /** `init_game`: an empty grid is written first; then the turn is the
        player holding "x", which fails while `roles` is unset or has no
        entry for "x". */
    method InitGame() returns (r: Result<(), Exc>)
      modifies this`board, this`turn
      ensures Valid()
      ensures board == Some(EmptyGrid)
      ensures forall r, c :: InRange(r, c) ==> board.value[r][c].None?
      ensures roles.None? ==> r == Err(Builtin("AttributeError")) && turn == old(turn)
      ensures roles.Some? && "x" !in roles.value ==> r == Err(Builtin("KeyError")) && turn == old(turn)
      ensures roles.Some? && "x" in roles.value ==> r == Ok(()) && turn == Some(roles.value["x"])
    {
      board := Some(EmptyGrid);
      if roles.None? {
        return Err(Builtin("AttributeError"));
      }
      if "x" !in roles.value {
        return Err(Builtin("KeyError"));
      }
      turn := Some(roles.value["x"]);
      return Ok(());
    }

    /** `make_move`: a server without a board fails reading it, and an
        occupied cell is rejected; both change nothing;
        otherwise the mover's role is written into exactly that cell, a line
        of it through the cell wins, a full grid without one is a draw, and
        any other move leaves winner and turn alone. */
    method MakeMove(playerId: PlayerId, playerRole: Cell, row: int, col: int) returns (r: MoveOutcome)
      requires Valid() && InRange(row, col)
      modifies this`board, this`winner
      ensures Valid()
      ensures old(board).None? ==> r == Raised(Builtin("TypeError")) && unchanged(this)
      ensures old(board).Some? && old(board).value[row][col].Some? ==>
        r == Raised(Asimov(IllegalMove, OccupiedMessage)) && unchanged(this)
      ensures old(board).Some? && old(board).value[row][col].None? ==>
        var g := Place(old(board).value, row, col, playerRole);
        && board == Some(g)
        && (LocalWin(g, row, col, playerRole) ==> r == Completed && winner == Some(playerId))
        && (!LocalWin(g, row, col, playerRole) && Full(g) ==> r == Completed && winner == None)
        && (!LocalWin(g, row, col, playerRole) && !Full(g) ==> r == Continue && winner == old(winner))
    {
      if board.None? {
        return Raised(Builtin("TypeError"));
      }
      var grid: Grid := board.value;
      if grid[row][col].Some? {
        return Raised(Asimov(IllegalMove, OccupiedMessage));
      }
      grid := Place(grid, row, col, playerRole);
      board := Some(grid);
      if LocalWin(grid, row, col, playerRole) {
        winner := Some(playerId);
        return Completed;
      } else if Full(grid) {
        winner := None;
        return Completed;
      }
      return Continue;
    }

    /** `score`, as `GameBase.Scores` describes it. */
    function Score(): map<PlayerId, int>
      reads this
    {
      GameBase.Scores((set p | p in players), winner)
    }
  }
}

=== FILE: tournaments.dfy ===
/**
 * Round-robin tournaments: the records of the store (`Tournament`,
 * `Participant`, `Match`, `PlayerQueueEntry`), `add_player`, which seats a
 * bot and creates one pending match against every opponent still in the
 * running, and `pick_match`, which starts the pending match of lowest index
 * whose players are all queued. The store is one tournament's rows; the
 * tournament lock only makes each operation atomic.
 */
module Tournaments {
  import opened Wrappers

  type TournamentId = string
  type ParticipantId = nat
  type MatchId = nat
  type BotId = string
  type Sid = string

  datatype MatchState = Pending | Running | Completed | Errored | Deleted

  /** The string value of each state of the `str` enum. */
  function StateValue(s: MatchState): string {
    match s
    case Pending => "pending"
    case Running => "running"
    case Completed => "completed"
    case Errored => "errored"
    case Deleted => "deleted"
  }

  /** The enum has exactly these five values, one per state. */
  lemma StateValues()
    ensures (set s: MatchState | true :: StateValue(s)) == {"pending", "running", "completed", "errored", "deleted"}
    ensures forall s, t :: StateValue(s) == StateValue(t) ==> s == t
  {
    var all := set s: MatchState | true :: StateValue(s);
    assert StateValue(Pending) in all && StateValue(Running) in all && StateValue(Completed) in all;
    assert StateValue(Errored) in all && StateValue(Deleted) in all;
  }

  datatype Tournament = Tournament(id: TournamentId, name: string, game: string, description: Option<string>, apiKey: string)

  /** A new tournament has no description unless one is given; its API key is
      random in the program and a parameter here. */
  function NewTournament(id: TournamentId, name: string, game: string, apiKey: string): (t: Tournament)
    ensures t.id == id && t.name == name && t.game == game && t.apiKey == apiKey && t.description == None
  {
    Tournament(id, name, game, None, apiKey)
  }

  /** Tournament names are unique across the store. */
  predicate NamesUnique(ts: seq<Tournament>) {
    forall i, j :: 0 <= i < j < |ts| ==> ts[i].name != ts[j].name
  }

  /** Storing a tournament refuses a name already in use. */
  function AddTournament(ts: seq<Tournament>, t: Tournament): (r: Option<seq<Tournament>>)
    ensures r.None? <==> exists i :: 0 <= i < |ts| && ts[i].name == t.name
    ensures NamesUnique(ts) && r.Some? ==> NamesUnique(r.value) && r.value == ts + [t]
  {
    if exists i :: 0 <= i < |ts| && ts[i].name == t.name then None else Some(ts + [t])
  }

  datatype Participant = Participant(id: ParticipantId, index: int, tournamentId: TournamentId, bot: BotId, disqualified: bool)

  /** `Participant.create(...)`: not disqualified by default. */
  function NewParticipant(id: ParticipantId, index: int, tournamentId: TournamentId, bot: BotId): (p: Participant)
    ensures !p.disqualified
    ensures p.id == id && p.index == index && p.tournamentId == tournamentId && p.bot == bot
  {
    Participant(id, index, tournamentId, bot, false)
  }

  datatype Match = Match(id: MatchId, index: int, tournamentId: TournamentId, state: MatchState,
                         players: seq<ParticipantId>, room: Option<string>)

  /** `Match.create(...)`: pending and without a room by default. */
  function NewMatch(id: MatchId, index: int, tournamentId: TournamentId, players: seq<ParticipantId>): (m: Match)
    ensures m.state == Pending && m.room == None
    ensures m.id == id && m.index == index && m.tournamentId == tournamentId && m.players == players
  {
    Match(id, index, tournamentId, Pending, players, None)
  }

  /** A queue entry is nothing but its three identifying fields. */
  datatype PlayerQueueEntry = PlayerQueueEntry(tournamentId: TournamentId, sid: Sid, participantId: ParticipantId)

  datatype TournamentError = AlreadyInTournament | KeyError | IndexError | TypeError

  /** Participant indices grow strictly in creation order and start at 1. */
  predicate Ascending(ps: seq<Participant>) {
    && (forall i :: 0 <= i < |ps| ==> ps[i].index >= 1)
    && (forall i, j :: 0 <= i < j < |ps| ==> ps[i].index < ps[j].index)
  }

  /** `max(x.index for x in participants) + 1 if participants else 1` */
  function NextIndex(ps: seq<Participant>): (n: int)
    ensures forall i :: 0 <= i < |ps| ==> ps[i].index < n
    ensures ps == [] ==> n == 1
    ensures ps != [] ==> exists i :: 0 <= i < |ps| && n == ps[i].index + 1
  {
    if ps == [] then 1
    else
      var rest := NextIndex(ps[..|ps| - 1]);
      var last := ps[|ps| - 1].index + 1;
      if rest == 1 && |ps| == 1 then last
      else if last > rest then last else rest
  }

  /** With ascending indices the next index is one above the last. */
  lemma NextIndexOfAscending(ps: seq<Participant>)
    requires Ascending(ps) && ps != []
    ensures NextIndex(ps) == ps[|ps| - 1].index + 1
  {
  }

  /** The bot already has a seat. */
  predicate Seated(ps: seq<Participant>, bot: BotId) {
    exists i :: 0 <= i < |ps| && ps[i].bot == bot
  }

  /** The participants of one tournament: indices ascending, every row id
      below the next fresh one. */
  predicate Seating(ps: seq<Participant>, tid: TournamentId, nextId: nat) {
    && Ascending(ps)
    && (forall i :: 0 <= i < |ps| ==> ps[i].id < nextId)
    && (forall i :: 0 <= i < |ps| ==> ps[i].tournamentId == tid)
  }

  /** Seating a participant with the next index and the next row id keeps
      the indices ascending and the row ids below the next fresh one. */
  lemma SeatingKept(ps: seq<Participant>, tid: TournamentId, nextId: nat, p: Participant, nextId': nat)
    requires Seating(ps, tid, nextId)
    requires p.index == NextIndex(ps) && p.id == nextId && p.tournamentId == tid && nextId < nextId'
    ensures Seating(ps + [p], tid, nextId')
  {
    var qs := ps + [p];
    assert p.index >= 1 by {
      if ps != [] {
        var k :| 0 <= k < |ps| && p.index == ps[k].index + 1;
      }
    }
    forall i, j | 0 <= i < j < |qs|
      ensures qs[i].index < qs[j].index
    {
      if j == |ps| {
        assert qs[i] == ps[i];
      } else {
        assert qs[i] == ps[i] && qs[j] == ps[j];
      }
    }
    assert forall i :: 0 <= i < |ps| ==> qs[i] == ps[i];
  }

  /** The matches `add_player` creates for new participant p, in the order of
      the opponents, with ids from firstId on. */
  function RoundRobin(p: Participant, opponents: seq<Participant>, firstId: MatchId): (r: seq<Match>)
    decreases |opponents|
  {
    if opponents == [] then []
    else
      var init := RoundRobin(p, opponents[..|opponents| - 1], firstId);
      var o := opponents[|opponents| - 1];
      if o.disqualified then init
      else init + [NewMatch(firstId + |init|, 100000 * p.index + o.index, p.tournamentId, [p.id, o.id])]
  }

  function CountActive(ps: seq<Participant>): nat {
    |set i | 0 <= i < |ps| && !ps[i].disqualified|
  }

  /** Every created match is pending, pairs p with an opponent that is not
      disqualified, and has index 100000 * p.index + that opponent's index. */
  lemma {:induction false} RoundRobinPairs(p: Participant, opponents: seq<Participant>, firstId: MatchId)
    ensures forall m :: m in RoundRobin(p, opponents, firstId) ==>
      && m.state == Pending && |m.players| == 2 && m.players[0] == p.id
      && exists o :: o in opponents && !o.disqualified && m.players[1] == o.id && m.index == 100000 * p.index + o.index
    decreases |opponents|
  {
    if opponents != [] {
      var init := opponents[..|opponents| - 1];
      RoundRobinPairs(p, init, firstId);
      forall m | m in RoundRobin(p, opponents, firstId)
        ensures exists o :: o in opponents && !o.disqualified && m.players[1] == o.id && m.index == 100000 * p.index + o.index
      {
        if m in RoundRobin(p, init, firstId) {
          var o :| o in init && !o.disqualified && m.players[1] == o.id && m.index == 100000 * p.index + o.index;
          assert o in opponents;
        } else {
          assert opponents[|opponents| - 1] in opponents;
        }
      }
    }
  }

  /** Every opponent that is not disqualified gets a match. */
  lemma {:induction false} RoundRobinCovers(p: Participant, opponents: seq<Participant>, firstId: MatchId)
    ensures forall o :: o in opponents && !o.disqualified ==>
      exists m :: m in RoundRobin(p, opponents, firstId) && m.players == [p.id, o.id]
    decreases |opponents|
  {
    if opponents != [] {
      var init := opponents[..|opponents| - 1];
      RoundRobinCovers(p, init, firstId);
      var r := RoundRobin(p, opponents, firstId);
      assert RoundRobin(p, init, firstId) <= r;
      forall o | o in opponents && !o.disqualified
        ensures exists m :: m in r && m.players == [p.id, o.id]
      {
        if o in init {
          var m :| m in RoundRobin(p, init, firstId) && m.players == [p.id, o.id];
          assert m in r;
        } else {
          assert o == opponents[|opponents| - 1];
          assert r[|r| - 1] in r;
        }
      }
    }
  }

  /** Disqualified opponents get no match, and there is exactly one match
      per opponent that is still in. */
  lemma {:induction false} RoundRobinCount(p: Participant, opponents: seq<Participant>, firstId: MatchId)
    ensures |RoundRobin(p, opponents, firstId)| == CountActive(opponents)
    decreases |opponents|
  {
    if opponents != [] {
      var n := |opponents|;
      var init := opponents[..n - 1];
      RoundRobinCount(p, init, firstId);
      var before := set i | 0 <= i < n - 1 && !init[i].disqualified;
      var after := set i | 0 <= i < n && !opponents[i].disqualified;
      if opponents[n - 1].disqualified {
        assert after == before;
      } else {
        assert after == before + {n - 1};
      }
    }
  }

  predicate IndicesAscending(ms: seq<Match>) {
    forall i, j :: 0 <= i < j < |ms| ==> ms[i].index < ms[j].index
  }

  /** With opponent indices ascending and below 100000, and p's index above
      them, the new match indices ascend and all lie in
      (100000 * p.index, 100000 * (p.index + 1)). */
  lemma {:induction false} RoundRobinIndices(p: Participant, opponents: seq<Participant>, firstId: MatchId)
    requires Ascending(opponents)
    requires forall i :: 0 <= i < |opponents| ==> opponents[i].index < 100000
    ensures forall m :: m in RoundRobin(p, opponents, firstId) ==> 100000 * p.index < m.index < 100000 * (p.index + 1)
    ensures IndicesAscending(RoundRobin(p, opponents, firstId))
    decreases |opponents|
  {
    if opponents != [] {
      var n := |opponents|;
      var init := opponents[..n - 1];
      RoundRobinPairs(p, init, firstId);
      RoundRobinIndices(p, init, firstId);
      var r0 := RoundRobin(p, init, firstId);
      assert opponents[n - 1].index < 100000;
      forall i | 0 <= i < |r0|
        ensures r0[i].index < 100000 * p.index + opponents[n - 1].index
      {
        assert r0[i] in r0;
        var o :| o in init && !o.disqualified && r0[i].players[1] == o.id && r0[i].index == 100000 * p.index + o.index;
        var k :| 0 <= k < n - 1 && init[k] == o;
        assert opponents[k] == o;
      }
      if !opponents[n - 1].disqualified {
        var r := RoundRobin(p, opponents, firstId);
        assert r == r0 + [r[|r| - 1]];
        assert r[|r| - 1].index == 100000 * p.index + opponents[n - 1].index;
        forall i, j | 0 <= i < j < |r|
          ensures r[i].index < r[j].index
        {
          assert r[i] == r0[i];
          if j < |r0| {
            assert r[j] == r0[j];
            assert r0[i].index < r0[j].index;
          } else {
            assert r[j] == r[|r| - 1];
            assert r0[i].index < 100000 * p.index + opponents[n - 1].index;
          }
        }
      }
    }
  }

  /** Match index `100000 * index + opponent.index` stays below
      `100000 * NextIndex(participants)` while fewer than 100000 participant
      indices are in use; past that the scheme gives no bound. */
  predicate IndexBound(ps: seq<Participant>, ms: seq<Match>) {
    NextIndex(ps) <= 100000 ==> forall m :: m in ms ==> m.index < 100000 * NextIndex(ps)
  }

  /** Seating a participant keeps the bound, and while it holds the new
      matches have larger indices than all earlier ones, so no two matches
      share an index. */
  lemma LaterMatchesAreLarger(ps: seq<Participant>, ms: seq<Match>, p: Participant, firstId: MatchId)
    requires Ascending(ps) && Ascending(ps + [p]) && p.index == NextIndex(ps)
    requires IndexBound(ps, ms)
    ensures IndexBound(ps + [p], ms + RoundRobin(p, ps, firstId))
    ensures NextIndex(ps + [p]) <= 100000 ==>
      forall m, m' :: m in ms && m' in RoundRobin(p, ps, firstId) ==> m.index < m'.index
  {
    var qs := ps + [p];
    NextIndexOfAscending(qs);
    assert qs[|qs| - 1] == p;
    if NextIndex(qs) <= 100000 {
      assert p.index < 100000;
      forall i | 0 <= i < |ps|
        ensures ps[i].index < 100000
      {
        assert ps[i].index < NextIndex(ps);
      }
      RoundRobinIndices(p, ps, firstId);
      var all := ms + RoundRobin(p, ps, firstId);
      forall m | m in all
        ensures m.index < 100000 * NextIndex(qs)
      {
        if m in ms {
          assert m.index < 100000 * p.index;
        }
      }
    }
  }

  /** The participants with a live queue entry in the tournament. */
  function Online(queue: seq<PlayerQueueEntry>, tid: TournamentId): set<ParticipantId> {
    set e | e in queue && e.tournamentId == tid :: e.participantId
  }

  /** A match `pick_match` may start: pending, every player online. */
  predicate Eligible(m: Match, online: set<ParticipantId>) {
    m.state == Pending && forall q :: q in m.players ==> q in online
  }

  /** A queue entry of this tournament names a participant it does not have. */
  predicate UnknownQueued(queue: seq<PlayerQueueEntry>, tid: TournamentId, ps: seq<Participant>) {
    exists e :: e in queue && e.tournamentId == tid && forall p :: p in ps ==> p.id != e.participantId
  }

  /** Where `sorted(matches, key=index)[0]` lands among the matches eligible
      for `online`: the least index, the earliest in store order among equal
      indices (`sorted` is stable); None when no match is eligible. */
  function {:induction false} LeastEligible(ms: seq<Match>, online: set<ParticipantId>): (r: Option<nat>)
    ensures r.None? <==> forall m :: m in ms ==> !Eligible(m, online)
    ensures r.Some? ==> r.value < |ms| && Eligible(ms[r.value], online)
    ensures r.Some? ==> forall j :: 0 <= j < |ms| && Eligible(ms[j], online) ==> ms[r.value].index <= ms[j].index
    ensures r.Some? ==> forall j :: 0 <= j < r.value && Eligible(ms[j], online) ==> ms[r.value].index < ms[j].index
    decreases |ms|
  {
    if ms == [] then None
    else
      var init := ms[..|ms| - 1];
      var last := ms[|ms| - 1];
      var rest := LeastEligible(init, online);
      assert forall m :: m in ms ==> m in init || m == last;
      assert forall j :: 0 <= j < |init| ==> init[j] == ms[j];
      if Eligible(last, online) && (rest.None? || last.index < init[rest.value].index) then Some(|ms| - 1)
      else rest
  }

  /** With nobody online only a pending match without players is eligible. */
  lemma EmptyOnlineSet(m: Match)
    ensures Eligible(m, {}) <==> m.state == Pending && m.players == []
  {
    if m.players != [] {
      assert m.players[0] in m.players;
    }
  }

  /** The position of the first queue entry of tournament tid, in the order
      `PlayerQueueEntry.list` gives them. */
  function FirstQueued(queue: seq<PlayerQueueEntry>, tid: TournamentId): (r: Option<nat>)
    ensures r.None? <==> forall e :: e in queue ==> e.tournamentId != tid
    ensures r.Some? ==> r.value < |queue| && queue[r.value].tournamentId == tid
    ensures r.Some? ==> forall j :: 0 <= j < r.value ==> queue[j].tournamentId != tid
  {
    if queue == [] then None
    else if queue[0].tournamentId == tid then Some(0)
    else
      var rest := FirstQueued(queue[1..], tid);
      assert forall e :: e in queue ==> e == queue[0] || e in queue[1..];
      match rest
      case None => None
      case Some(k) => Some(k + 1)
  }

  /** The tournament has a participant with this id. */
  predicate Known(ps: seq<Participant>, pid: ParticipantId) {
    exists p :: p in ps && p.id == pid
  }

  /** Entry i is the first queue entry of tournament tid. */
  predicate FirstOfTournament(queue: seq<PlayerQueueEntry>, tid: TournamentId, i: int) {
    && 0 <= i < |queue|
    && queue[i].tournamentId == tid
    && forall j :: 0 <= j < i ==> queue[j].tournamentId != tid
  }

  predicate NoneQueued(queue: seq<PlayerQueueEntry>, tid: TournamentId) {
    forall e :: e in queue ==> e.tournamentId != tid
  }

  /** Some pending match has players: `set(match.players)` hashes them. */
  predicate PendingWithPlayers(matches: seq<Match>) {
    exists m :: m in matches && m.state == Pending && m.players != []
  }

  /** `pick_match` as written. `Participant` is a plain dataclass with
      equality, so Python sets its `__hash__` to None and its instances are
      unhashable. At the first queued entry of the tournament,
      `participants_by_id[...]` raises KeyError for an unknown participant,
      and `participant_sids[participant]` raises TypeError hashing a known
      one, before the missing default factory of
      `defaultdict(default_factory=list)` could matter. With nobody queued,
      `set(match.players)` raises TypeError at a pending match with players;
      otherwise every pending match is eligible and the one of least index
      becomes running, IndexError when there is none. The result is the
      position of that match. */
  function PickMatchAsWritten(queue: seq<PlayerQueueEntry>, tid: TournamentId, ps: seq<Participant>,
                              matches: seq<Match>): (r: Result<nat, TournamentError>)
    ensures forall i :: FirstOfTournament(queue, tid, i) ==>
      r == Err(if Known(ps, queue[i].participantId) then TypeError else KeyError)
    ensures NoneQueued(queue, tid) && PendingWithPlayers(matches) ==> r == Err(TypeError)
    ensures NoneQueued(queue, tid) && !PendingWithPlayers(matches) ==>
      && (r.Ok? <==> exists m :: m in matches && m.state == Pending)
      && (r.Err? ==> r.error == IndexError)
    ensures r.Ok? ==> r.value < |matches| && matches[r.value].state == Pending && matches[r.value].players == []
    ensures r.Ok? ==> forall j :: 0 <= j < |matches| && matches[j].state == Pending ==>
      matches[r.value].index <= matches[j].index
  {
    match FirstQueued(queue, tid)
    case Some(k) => if Known(ps, queue[k].participantId) then Err(TypeError) else Err(KeyError)
    case None =>
      if PendingWithPlayers(matches) then Err(TypeError)
      else
        assert forall m :: m in matches ==> (Eligible(m, {}) <==> m.state == Pending) by {
          forall m | m in matches
            ensures Eligible(m, {}) <==> m.state == Pending
          {
            EmptyOnlineSet(m);
          }
        }
        var picked := LeastEligible(matches, {});
        if picked.None? then Err(IndexError)
        else
          assert forall j :: 0 <= j < |matches| ==> matches[j] in matches;
          Ok(picked.value)
  }

  /** So, as written, `pick_match` never starts a match that has players:
      with one pending, it raises KeyError or TypeError whoever is queued. */
  lemma PickMatchAsWrittenNeverPicks(queue: seq<PlayerQueueEntry>, tid: TournamentId, ps: seq<Participant>,
                                     matches: seq<Match>)
    requires PendingWithPlayers(matches)
    ensures PickMatchAsWritten(queue, tid, ps, matches).Err?
    ensures PickMatchAsWritten(queue, tid, ps, matches).error in {KeyError, TypeError}
  {
    var f := FirstQueued(queue, tid);
    if f.Some? {
      assert PickMatchAsWritten(queue, tid, ps, matches)
        == Err(if Known(ps, queue[f.value].participantId) then TypeError else KeyError);
    }
  }

  /** The loop of `add_player` that creates the matches of new participant p:
      one per opponent, skipping the disqualified, with ids from firstId on. */
  method Pairings(p: Participant, opponents: seq<Participant>, firstId: MatchId) returns (created: seq<Match>)
    ensures created == RoundRobin(p, opponents, firstId)
  {
    created := [];
    for k := 0 to |opponents|
      invariant created == RoundRobin(p, opponents[..k], firstId)
    {
      assert opponents[..k + 1][..k] == opponents[..k];
      var opponent := opponents[k];
      if opponent.disqualified {
        continue;
      }
      created := created + [NewMatch(firstId + |created|, 100000 * p.index + opponent.index, p.tournamentId, [p.id, opponent.id])];
    }
    assert opponents[..|opponents|] == opponents;
  }

  class TournamentStore {
    const tournament: Tournament
    var participants: seq<Participant>
    var matches: seq<Match>
    var queue: seq<PlayerQueueEntry>
    /** The next fresh row id. */
    var nextId: nat

    ghost predicate Valid()
      reads this
    {
      && Seating(participants, tournament.id, nextId)
      && IndexBound(participants, matches)
    }

    constructor (t: Tournament)
      ensures Valid() && tournament == t
      ensures participants == [] && matches == [] && queue == [] && nextId == 0
    {
      tournament := t;
      participants, matches, queue, nextId := [], [], [], 0;
    }

    /** `add_player`: a bot already seated is refused and nothing is created;
        otherwise the bot is seated with the next index and one pending match
        is created against each opponent that is not disqualified. */
    method AddPlayer(bot: BotId) returns (r: Result<Participant, TournamentError>)
      requires Valid()
      modifies this`participants, this`matches, this`nextId
      ensures Valid()
      ensures Seated(old(participants), bot) ==> r == Err(AlreadyInTournament) && unchanged(this)
      ensures !Seated(old(participants), bot) ==>
        && r == Ok(NewParticipant(old(nextId), NextIndex(old(participants)), tournament.id, bot))
        && participants == old(participants) + [r.value]
        && matches == old(matches) + RoundRobin(r.value, old(participants), old(nextId) + 1)
        && queue == old(queue)
      ensures NextIndex(participants) <= 100000 ==>
        forall m, m' :: m in old(matches) && m' in matches[|old(matches)|..] ==> m.index < m'.index
    {
      var ps := participants;
      if Seated(ps, bot) {
        return Err(AlreadyInTournament);
      }
      var participant := NewParticipant(nextId, NextIndex(ps), tournament.id, bot);
      var created := Pairings(participant, ps, nextId + 1);
      SeatingKept(ps, tournament.id, nextId, participant, nextId + 1 + |created|);
      LaterMatchesAreLarger(ps, matches, participant, nextId + 1);
      participants := ps + [participant];
      matches := matches + created;
      assert matches[|old(matches)|..] == created;
      nextId := nextId + 1 + |created|;
      r := Ok(participant);
    }

    /** `pick_match` as its authors meant it: a participant is online iff it
        has a queue entry in this tournament; among the pending matches whose
        players are all online the one of least index (the first such in
        store order) becomes running. A queue entry for a participant the
        tournament does not have fails the lookup, and with no eligible match
        `[0]` fails. */
    method PickMatch() returns (r: Result<Match, TournamentError>)
      requires Valid()
      modifies this`matches
      ensures Valid()
      ensures UnknownQueued(queue, tournament.id, participants) ==> r == Err(KeyError) && matches == old(matches)
      ensures !UnknownQueued(queue, tournament.id, participants) ==>
        var online := Online(queue, tournament.id);
        && (r.Err? <==> forall m :: m in old(matches) ==> !Eligible(m, online))
        && (r.Err? ==> r.error == IndexError && matches == old(matches))
        && (r.Ok? ==> exists k ::
              && 0 <= k < |old(matches)|
              && Eligible(old(matches)[k], online)
              && (forall j :: 0 <= j < |old(matches)| && Eligible(old(matches)[j], online) ==>
                    old(matches)[k].index <= old(matches)[j].index)
              && (forall j :: 0 <= j < k && Eligible(old(matches)[j], online) ==>
                    old(matches)[k].index < old(matches)[j].index)
              && r.value == old(matches)[k].(state := Running)
              && matches == old(matches)[k := r.value])
    {
      // participant_sids, keyed by participant id
      var sids: map<ParticipantId, seq<Sid>> := map[];
      var i := 0;
      while i < |queue|
        invariant 0 <= i <= |queue|
        invariant sids.Keys == Online(queue[..i], tournament.id)
        invariant forall e :: e in queue[..i] && e.tournamentId == tournament.id ==>
          exists p :: p in participants && p.id == e.participantId
      {
        var entry := queue[i];
        assert queue[..i + 1] == queue[..i] + [entry];
        if entry.tournamentId == tournament.id {
          if forall p :: p in participants ==> p.id != entry.participantId {
            return Err(KeyError);
          }
          var pid := entry.participantId;
          sids := sids[pid := if pid in sids then sids[pid] + [entry.sid] else [entry.sid]];
        }
        i := i + 1;
      }
      assert queue[..i] == queue;
      var online := sids.Keys;
      var best: Option<nat> := None;
      for k := 0 to |matches|
        invariant best.Some? ==> best.value < k && Eligible(matches[best.value], online)
        invariant best.None? <==> forall j :: 0 <= j < k ==> !Eligible(matches[j], online)
        invariant best.Some? ==> forall j :: 0 <= j < k && Eligible(matches[j], online) ==>
          matches[best.value].index <= matches[j].index
        invariant best.Some? ==> forall j :: 0 <= j < best.value && Eligible(matches[j], online) ==>
          matches[best.value].index < matches[j].index
      {
        var m := matches[k];
        if m.state == Pending && forall q :: q in m.players ==> q in online {
          if best.None? || m.index < matches[best.value].index {
            best := Some(k);
          }
        }
      }
      if best.None? {
        assert forall m :: m in matches ==> !Eligible(m, online);
        return Err(IndexError);
      }
      var picked := matches[best.value].(state := Running);
      ghost var before := matches;
      matches := matches[best.value := picked];
      assert forall m :: m in matches ==> m == picked || m in before;
      return Ok(picked);
    }
  }
}

=== FILE: wrappers.dfy ===
/** Option and Result, the two failure-carrying values the rest of the model uses. */
module Wrappers {

  datatype Option<+T> = None | Some(value: T) {
    function GetOr(default: T): T {
      match this
      case Some(v) => v
      case None => default
    }
  }

  datatype Result<+R, +E> = Ok(value: R) | Err(error: E)
}
